=== FILE: README.md ===
# Exam-paper workflow: a verified model

This project models, in Dafny, the rules of a departmental exam-paper workflow. A lecturer
drafts a paper and submits it for moderation. An examiner approves it or asks for a
revision. The lecturer then sends a moderated paper to the head of department (HOD), after
which it is locked.

The model covers:

- **the paper record and its lifecycle**: the closed enumerations and the course catalogue
  (`Types`, `CourseCodes`); the lecturer's and the examiner's page handlers as pure
  `Paper -> Paper` functions (`PaperDetail`, `ReviewPaper`); and the state machine they
  make up together (`Lifecycle`);
- **the browser store and the views over it**: upsert by id, lookups, and the
  department/role/status filters (`Storage`); and the pages that filter, search, group,
  sort, count and render on top of it (`Repository`, `LecturerDashboard`,
  `ModeratedPapers`, `PendingApproval`, `CreatePaper`, `Register`);
- **the backend gates and validators**:
  - bearer-token extraction and role checks (`AuthMiddleware`);
  - the paper router with its role lists and middleware chain (`PaperRoutes`);
  - the two upload middlewares, with field/MIME filters, destinations, size limit,
    name sanitisation and Node's `path.extname` (`MulterConfig`, `UploadMiddleware`,
    `Uploads`);
  - the "finalized" gate (`BlockFinal`);
  - the Mongoose schemas' enums, defaults and required fields (`Schema`, `PaperSchema`,
    `SuggestionSchema`);
- **the auxiliary machines**: the suggestion `unread -> replied` handlers
  (`SuggestionController`) and registration and login (`AuthController`).

Shared modules:

- `Text` gives JavaScript's string semantics: the `trim`/`\s` whitespace set, `split`,
  `includes` and number rendering.
- `Seqs` gives the array methods: `filter`, `find`, `findIndex`, `slice`, and a stable
  descending `sort`.
- `Http` holds status/message failures and the three outcomes of a database lookup.

Effects are parameters of the model:

- The clock (`new Date().toISOString()`, `Date.now()`), `uuidv4()` and `Math.random()`.
- JWT signing and verification, and the password comparison.
- Database lookups: found, missing, or throwing.

## Model

| member | source | states |
|---|---|---|
| Types.ParseStatus | frontend/src/types/index.ts:19-27 | exactly the eight status labels are statuses, each naming one value; every other string is refused |
| Types.ParseRole | frontend/src/types/index.ts:16 | exactly "lecturer", "examiner" and "hod" are roles |
| Types.ParsePaperType | frontend/src/types/index.ts:30 | exactly "exam" and "assessment" are paper types |
| Types.StatusIsClosedEnum | frontend/src/types/index.ts:19-27 | the status type has exactly eight values, all listed once, with pairwise distinct labels |
| Types.RoleAndPaperTypeAreClosed | frontend/src/types/index.ts:16-30 | three roles and two paper types, each listed once with distinct labels |
| Types.TablesListEveryValueOnce | frontend/src/types/index.ts:4-13 | `YEARS`, `SEMESTERS` and `DEPARTMENTS` list every value of their type exactly once |
| Types.NoThirdYearSecondSemesterComputing | frontend/src/types/index.ts:100-170 | no catalogue course is a Computer Science course of the 3rd year's 2nd semester |
| Types.SlotHasCourse | frontend/src/types/index.ts:100-170 | every other (department, year, semester) slot has a catalogue course, which it names |
| Types.CatalogueSlots | frontend/src/types/index.ts:100-170 | a slot has a catalogue course exactly when it is not Computer Science's 3rd year, 2nd semester |
| CourseCodes.CodesDeterminePositions | frontend/src/types/index.ts:100-170 | every catalogue position can be recovered from its course code |
| CourseCodes.CourseCodesDistinct | frontend/src/types/index.ts:100-170 | no two catalogue entries share a course code, so a lookup by code is unambiguous |
| CourseCodes.NoEmptyCourseCode | frontend/src/types/index.ts:100-170 | no catalogue entry has the empty code that the form uses for "no course chosen" |
| Storage.IndexOfId | frontend/src/lib/storage.ts:81 | a position is found exactly when some paper has the id, and it holds a paper with that id |
| Storage.SavePaper | frontend/src/lib/storage.ts:79-88 | an existing id is replaced in place, with the length unchanged and the other papers kept; a new id is appended, adding exactly one |
| Storage.GetPaperById | frontend/src/lib/storage.ts:90-92 | a paper is returned exactly when one has the id, and it is the first stored paper with that id |
| Storage.SaveThenGet | frontend/src/lib/storage.ts:79-92 | after saving `p`, looking up `p.id` gives `p` |
| Storage.SaveKeepsOtherIds | frontend/src/lib/storage.ts:79-92 | saving `p` does not change what any other id looks up to |
| Storage.PapersByLecturer | frontend/src/lib/storage.ts:94-96 | exactly the lecturer's papers, as an order-preserving subsequence of the store |
| Storage.PapersByExaminer | frontend/src/lib/storage.ts:98-103 | exactly the department's papers that await moderation or carry this examiner, in store order |
| Storage.PapersByDepartment | frontend/src/lib/storage.ts:105-107 | exactly the department's papers, in store order |
| Storage.PapersForHod | frontend/src/lib/storage.ts:109-114 | exactly the department's papers in pending_approval, approved or printed, in store order |
| Storage.RepositoryPapers | frontend/src/lib/storage.ts:116-121 | exactly the department's approved or printed papers, in store order |
| Storage.RepositoryWithinHodView | frontend/src/lib/storage.ts:109-121 | the repository is the HOD view narrowed to final papers, and a subsequence of it |
| Storage.SaveUser | frontend/src/lib/storage.ts:50-54 | the user is appended with no check on the email; earlier users are kept |
| Storage.FindUserByEmail | frontend/src/lib/storage.ts:56-58 | the first stored user with that email, or none exactly when no user has it |
| Storage.SaveUserDuplicateIsShadowed | frontend/src/lib/storage.ts:50-58 | saving a user whose email is taken grows the list, but the lookup still finds the earlier user |
| Storage.SaveUserFreshIsFound | frontend/src/lib/storage.ts:50-58 | saving a user with a fresh email makes that email find exactly that user |
| Storage.InitializeDemoData | frontend/src/lib/storage.ts:8-42 | a non-empty user list is left alone; an empty one gets one Computer Science user per role |
| Storage.InitializeDemoDataIdempotent | frontend/src/lib/storage.ts:8-10 | seeding twice is seeding once |
| Storage.DemoUsersFoundByEmail | frontend/src/lib/storage.ts:11-39 | each demo account is found by its own email |
| PaperDetail.SavePdf | frontend/src/pages/PaperDetail.tsx:55-93 | no file means nothing saved; otherwise one new version with the file as content, one revision and one signature, status unchanged |
| PaperDetail.SubmitForReview | frontend/src/pages/PaperDetail.tsx:95-127 | status becomes pending_moderation; one new version, revision and signature; identity and review fields kept |
| PaperDetail.SendToHod | frontend/src/pages/PaperDetail.tsx:129-151 | refused unless moderated; then pending_approval, locked, and one signature appended |
| PaperDetail.SentPaperIsNotEditable | frontend/src/pages/PaperDetail.tsx:48-50 | after sending to the HOD, nobody can edit the paper |
| PaperDetail.CanEdit | frontend/src/pages/PaperDetail.tsx:48-50 | no contract of its own; `SentPaperIsNotEditable`, `LecturerDashboard.EditableMeansSubmittable` and the two `Lifecycle` page-run lemmas state what it admits |
| PaperDetail.TransitionsKeepRevisionsTracking | frontend/src/pages/PaperDetail.tsx:61-147 | every lecturer transition keeps the last revision's number equal to the version counter |
| PaperDetail.Open | frontend/src/pages/PaperDetail.tsx:32-35 | an opened page shows the paper, its content in the editor, no chosen file, editor closed |
| PaperDetail.RunSavePdf | frontend/src/pages/PaperDetail.tsx:55-93 | the page stops without a chosen file; otherwise it shows the saved paper |
| PaperDetail.RunSubmit | frontend/src/pages/PaperDetail.tsx:95-127 | the page shows the submitted paper and closes the editor |
| PaperDetail.OpenEstablishesInvariant | frontend/src/pages/PaperDetail.tsx:173-268 | an opened page satisfies the page invariant: the editor is open only for a text paper, and a file is chosen only for a PDF paper |
| PaperDetail.Step | frontend/src/pages/PaperDetail.tsx:173-268 | every rendered control keeps the paper's id and owner; only "Update PDF", "Save Draft" and "Submit for Review" touch the store or the shown paper; "Save Draft", running `handleSavePdf`, changes nothing without a chosen file; a submit shows a paper pending moderation with the editor closed |
| PaperDetail.Run | frontend/src/pages/PaperDetail.tsx:173-268 | no contract of its own: controls not on screen are skipped; `RunKeepsInvariant` and the `Lifecycle` page-run lemmas state what runs reach |
| PaperDetail.StepKeepsInvariant | frontend/src/pages/PaperDetail.tsx:173-268 | every control on screen, with "Save Draft" wired to `handleSavePdf` as in the source, keeps the page invariant |
| PaperDetail.RunKeepsInvariant | frontend/src/pages/PaperDetail.tsx:173-268 | every page reached by clicking rendered controls of the page as wired satisfies the invariant |
| PaperDetail.SaveDraftAsWrittenNeverSaves | frontend/src/pages/PaperDetail.tsx:259 | on every reachable page where "Save Draft" is shown, the button as wired saves nothing |
| PaperDetail.SaveTextDraft | frontend/src/pages/PaperDetail.tsx:245-268 | the edited text becomes a new version, with one revision and one signature; status kept |
| PaperDetail.SaveDraftSavesEditedText | frontend/src/pages/PaperDetail.tsx:245-268 | the corrected "Save Draft" (`SaveDraftAsIntended`) stores the edited text as the next version, in the store and on the page; the paper stays editable and the page invariant holds |
| ReviewPaper.Approve | frontend/src/pages/ReviewPaper.tsx:59-96 | status moderated; the acting examiner recorded; a comment appended exactly when non-empty; one signature; versions untouched |
| ReviewPaper.RequestRevision | frontend/src/pages/ReviewPaper.tsx:98-138 | refused exactly for an empty or whitespace comment; otherwise revision_required with one comment and one signature; versions untouched |
| ReviewPaper.BlankCommentTreatedDifferently | frontend/src/pages/ReviewPaper.tsx:67-102 | a comment of spaces is kept by Approve but refused by Request Revision |
| ReviewPaper.CanReview | frontend/src/pages/ReviewPaper.tsx:52-54 | no contract of its own; `Lifecycle.ReviewActionsNeedAnExaminer` states that review actions save only for an examiner on a paper awaiting moderation |
| Lifecycle.StepTakesAnEdge | frontend/src/pages/PaperDetail.tsx:95-151 | a saved action keeps the status or takes one of the code's edges, and keeps the paper's identity |
| Lifecycle.EveryEdgeIsTaken | frontend/src/pages/ReviewPaper.tsx:59-138 | each edge of the state machine is taken by some permitted action |
| Lifecycle.ReachableIsClosed | frontend/src/pages/PaperDetail.tsx:95-151 | the reachable status sets contain their start and are closed under the edges |
| Lifecycle.RunProperties | frontend/src/pages/PaperDetail.tsx:55-151 | along any run of actions the identity is kept, the status stays reachable from the start, the version never goes down, and the old signatures stay a prefix with one new signature per saved action |
| Lifecycle.ReachableSubset | frontend/src/pages/PaperDetail.tsx:129-151 | reachability is transitive along one edge |
| Lifecycle.NoRunFinalises | frontend/src/pages/PaperDetail.tsx:129-151 | no page action ever produces approved, rejected or printed |
| Lifecycle.StepKeepsWellformed | frontend/src/pages/PaperDetail.tsx:55-151 | every saved action keeps the last revision on the current version and a locked paper awaiting approval |
| Lifecycle.RunKeepsWellformed | frontend/src/pages/PaperDetail.tsx:55-151 | every run keeps the last revision on the current version and a locked paper awaiting approval |
| Lifecycle.HandedOverPapersAreFrozen | frontend/src/pages/PaperDetail.tsx:48-50 | no page action applies to a paper awaiting approval or in a final status |
| Lifecycle.Commit | frontend/src/pages/PaperDetail.tsx:89 | the load-act-save round trip keeps the store's length and every other id's paper |
| Lifecycle.CommitThenGet | frontend/src/pages/PaperDetail.tsx:89 | after a saved action, the store answers the id with the new paper |
| Lifecycle.Step | frontend/src/pages/PaperDetail.tsx:55-151 | no contract of its own; `StepTakesAnEdge`, `StepKeepsWellformed` and `HandedOverPapersAreFrozen` state what a step does |
| Lifecycle.Permitted | frontend/src/pages/PaperDetail.tsx:173-268 | no contract of its own; the two page-run lemmas and `ReviewActionsNeedAnExaminer` state which controls it stands for |
| Lifecycle.ReplacePdfIsThePageRun | frontend/src/pages/PaperDetail.tsx:173-223 | "Replace PDF" is permitted exactly when the opened page shows the file input, and choosing a file then clicking "Update PDF" shows the paper the action saves |
| Lifecycle.SubmitTextIsThePageRun | frontend/src/pages/PaperDetail.tsx:173-268 | "Submit for Review" is permitted exactly when the opened page shows "Edit Paper", and editing, typing the text and submitting shows the paper the action saves |
| Lifecycle.ReviewActionsNeedAnExaminer | frontend/src/pages/ReviewPaper.tsx:52-54 | a review action saves only for an examiner on a paper awaiting moderation, and approving saves exactly when `canReview` holds |
| CreatePaper.FilteredCourses | frontend/src/pages/CreatePaper.tsx:42-47 | exactly the catalogue courses of the user's department, year and semester, in catalogue order |
| CreatePaper.SelectedCourse | frontend/src/pages/CreatePaper.tsx:49 | the catalogue entry with the chosen code, or none exactly when no entry has it |
| CreatePaper.SelectedCourseIsTheChosenOne | frontend/src/pages/CreatePaper.tsx:49 | the lookup finds exactly the course whose code was chosen; the empty code finds none |
| CreatePaper.EmptyCourseList | frontend/src/pages/CreatePaper.tsx:42-47 | with year and semester chosen, the course list is empty exactly for a Computer Science lecturer in the 3rd year's 2nd semester |
| CreatePaper.EmptyCourseListBlocksSubmit | frontend/src/pages/CreatePaper.tsx:67-85 | where the list is empty, a form whose course matches it stops at "Please select a course" |
| CreatePaper.Validate | frontend/src/pages/CreatePaper.tsx:67-85 | fails at the first of: year or semester, course, PDF, user; on success gives the selected course |
| CreatePaper.ValidateAcceptsExactlyCompleteForms | frontend/src/pages/CreatePaper.tsx:67-85 | validation succeeds exactly when every field is filled and a user is signed in |
| CreatePaper.KindStatus | frontend/src/pages/CreatePaper.tsx:236-250 | a new paper is requested only as draft or as pending_moderation, draft exactly for "Save Draft" |
| CreatePaper.FormGet | frontend/src/pages/CreatePaper.tsx:92-98 | the value of the first entry of the body with the name, or none exactly when no entry has it |
| CreatePaper.PayloadAsWrittenHasNoCourseCode | frontend/src/pages/CreatePaper.tsx:92-98 | the request as built carries no course code |
| CreatePaper.PayloadAsWrittenNamesTheCourse | frontend/src/pages/CreatePaper.tsx:92-98 | the body as built reads back the chosen year, semester and course name |
| CreatePaper.PayloadAsWrittenCarriesTheFile | frontend/src/pages/CreatePaper.tsx:92-98 | the body as built reads back the paper type, the file and the status |
| CreatePaper.PayloadIdentifiesTheCourse | frontend/src/pages/CreatePaper.tsx:92-98 | the corrected request carries the course code, and that code names the validated course |
| CreatePaper.Input | frontend/src/pages/CreatePaper.tsx:142-166 | choosing a year or semester clears the course; no input touches the list of papers |
| CreatePaper.InputKeepsCourseMatching | frontend/src/pages/CreatePaper.tsx:142-200 | every offered input keeps the chosen course among the filtered courses |
| CreatePaper.ValidatedCourseFitsForm | frontend/src/pages/CreatePaper.tsx:42-85 | a validated course belongs to the user's department, year and semester |
| CreatePaper.HandleSubmit | frontend/src/pages/CreatePaper.tsx:87-123 | an invalid form sends nothing and changes nothing; a valid one sends exactly the six entries the source appends, which read back the chosen status and course name; a created paper is prepended and the form reset; a failed request changes nothing |
| CreatePaper.InitialFormIsConsistent | frontend/src/pages/CreatePaper.tsx:35-40 | the initial form matches the course invariant and validates to "year and semester missing" |
| Repository.AllPapers | frontend/src/pages/Repository.tsx:21 | nothing without a user; otherwise the department's repository |
| Repository.FilteredPapers | frontend/src/pages/Repository.tsx:23-35 | exactly the papers that pass the filters, as an order-preserving subsequence |
| Repository.NoFiltersShowsAll | frontend/src/pages/Repository.tsx:23-35 | with every filter unset, all papers are shown |
| Repository.ShownPapersMatchFilters | frontend/src/pages/Repository.tsx:24-33 | every shown paper has each set field value and matches a set search |
| Repository.SearchIsSubstringMatch | frontend/src/pages/Repository.tsx:27-33 | a paper passing the selects is shown exactly when the lower-cased query occurs in its lower-cased code or name |
| Repository.AddToGroup | frontend/src/pages/Repository.tsx:37-42 | the headings gain the paper's key exactly when it was not there yet |
| Repository.AddToGroupKeepsKeysDistinct | frontend/src/pages/Repository.tsx:37-42 | adding a paper keeps the group headings distinct |
| Repository.AddToGroupPapers | frontend/src/pages/Repository.tsx:39-40 | the paper goes to the end of its key's group, or starts a new group; other groups are unchanged |
| Repository.AddToGroupSize | frontend/src/pages/Repository.tsx:37-42 | adding a paper adds one to the groups' total size |
| Repository.GroupPapers | frontend/src/pages/Repository.tsx:37-42 | distinct headings whose group sizes add up to the number of papers |
| Repository.GroupKeysArePaperKeys | frontend/src/pages/Repository.tsx:37-42 | a heading exists exactly when some paper has that "year - semester" key |
| Repository.GroupsAreFilters | frontend/src/pages/Repository.tsx:37-42 | each group holds exactly the papers with its key, in their original order |
| Repository.ShownCountAtMostTotal | frontend/src/pages/Repository.tsx:194 | the shown count never exceeds the total, and the groups hold exactly the shown papers |
| LecturerDashboard.OwnPapers | frontend/src/components/dashboards/LecturerDashboard.tsx:50-55 | a permutation of the user's own papers, sorted newest first |
| LecturerDashboard.StatsOf | frontend/src/components/dashboards/LecturerDashboard.tsx:73-78 | the total and the size of each status bucket |
| LecturerDashboard.BucketsAreDisjoint | frontend/src/components/dashboards/LecturerDashboard.tsx:68-78 | the buckets never overlap, so their counts add up to at most the total; moderated and rejected are in none |
| LecturerDashboard.RecentPapers | frontend/src/components/dashboards/LecturerDashboard.tsx:80 | the first min(5, n) papers, in order |
| LecturerDashboard.RecentAreNewest | frontend/src/components/dashboards/LecturerDashboard.tsx:50-80 | no paper left out of the recent list is newer than one in it |
| LecturerDashboard.OptimisticSubmit | frontend/src/components/dashboards/LecturerDashboard.tsx:91-95 | only the paper with the id becomes pending_moderation; the others are untouched |
| LecturerDashboard.OptimisticSubmitFollowsLifecycle | frontend/src/components/dashboards/LecturerDashboard.tsx:68-95 | a submitted paper moves from the pending bucket to the in-progress bucket, and the total is unchanged |
| LecturerDashboard.EditableMeansSubmittable | frontend/src/components/dashboards/LecturerDashboard.tsx:190-191 | a paper its page lets the lecturer edit is one the dashboard offers to submit |
| ModeratedPapers.ModeratedIsOneFilter | frontend/src/pages/ModeratedPapers.tsx:10-11 | the list is one order-preserving filter of the store: department, this examiner, not pending moderation |
| ModeratedPapers.ModeratedPapers | frontend/src/pages/ModeratedPapers.tsx:10-11 | no contract of its own; `ModeratedIsOneFilter` states its meaning |
| ModeratedPapers.Render | frontend/src/pages/ModeratedPapers.tsx:21-31 | the empty notice exactly for no papers, else one card per paper in order |
| PendingApproval.PendingIsOneFilter | frontend/src/pages/PendingApproval.tsx:11-12 | the queue is the store filtered by department and pending_approval, in store order |
| PendingApproval.PendingPapers | frontend/src/pages/PendingApproval.tsx:11-12 | no contract of its own; `PendingIsOneFilter` states its meaning |
| PendingApproval.Render | frontend/src/pages/PendingApproval.tsx:22-66 | "All caught up" exactly for an empty queue, else one linked card per paper |
| Register.RolesListEveryRoleOnce | frontend/src/pages/Register.tsx:35-39 | the role select offers every role exactly once |
| Register.Utf16Length | frontend/src/pages/Register.tsx:64 | a string's JavaScript length is between its character count and twice that |
| Register.Submit | frontend/src/pages/Register.tsx:54-177 | nothing runs unless the browser accepts the form (four required fields, a valid e-mail address); then a mismatch is reported before a short password; a request is sent exactly when all checks pass, and it carries the typed fields |
| Register.BrowserStopsIncompleteForms | frontend/src/pages/Register.tsx:129-162 | a blank name or password, or an address without `@`, never reaches `handleSubmit` |
| Register.SimpleAddressIsValid | frontend/src/pages/Register.tsx:141 | a local part of allowed characters, `@` and a one-label host pass the `type="email"` check |
| Register.SampleEmailIsValid | frontend/src/pages/Register.tsx:141 | "a@b" passes the `type="email"` check |
| Register.LengthCheckBounds | frontend/src/pages/Register.tsx:64-68 | on a form the browser accepts, six characters always pass the length check and fewer than three never do |
| Register.AstralCharactersCountTwice | frontend/src/pages/Register.tsx:64-68 | three emoji pass the six-unit check on an otherwise complete form |
| AuthMiddleware.TokenOf | backend/src/middleware/auth.js:12 | the second space-separated segment, which contains no space |
| AuthMiddleware.Protect | backend/src/middleware/auth.js:7-37 | every refusal is 401; a missing or non-Bearer header, a missing token, a failed verification, a lookup error and an unknown user are each refused; otherwise the found user |
| AuthMiddleware.BearerHeaderRoundTrip | backend/src/middleware/auth.js:11-12 | the header "Bearer <token>" yields exactly that token |
| AuthMiddleware.ProtectAcceptsValidBearer | backend/src/middleware/auth.js:11-33 | a well-formed header with a verifying token for an existing user admits that user |
| AuthMiddleware.Authorize | backend/src/middleware/auth.js:43-53 | 401 exactly without a user; 403 exactly for a role outside the list; passes exactly when the role is listed |
| PaperRoutes.FirstMatch | backend/src/routes/paperRoutes.js:42-103 | the first route that matches, none before it matching; none only when no route matches |
| PaperRoutes.SinglePdf | backend/src/routes/paperRoutes.js:32-37 | accepted exactly when at most one part with a file name arrives, in field "pdf"; otherwise 500 "Unexpected field"; no file exactly when every part is unnamed; the file is kept as "{timestamp}-{original name}" |
| PaperRoutes.SinglePdfIgnoresUnnamedParts | backend/src/routes/paperRoutes.js:32-37 | parts without a file name make no difference to the upload |
| PaperRoutes.Dispatch | backend/src/routes/paperRoutes.js:42-103 | no route exactly when nothing matches; a reached handler is the first matching route's |
| PaperRoutes.MatchesIffIntended | backend/src/routes/paperRoutes.js:42-103 | a route matches a request exactly when the URL's shape is meant for its handler |
| PaperRoutes.RoutingFollowsUrlShape | backend/src/routes/paperRoutes.js:42-103 | every request reaches the handler its URL is meant for, and no two routes match the same request |
| PaperRoutes.RouteOfHandler | backend/src/routes/paperRoutes.js:42-103 | a request reaches a handler's route exactly when its URL is meant for that handler |
| PaperRoutes.RoleListsAgreeWithPermits | backend/src/routes/paperRoutes.js:42-103 | lecturers write papers, the examiner moderates, the HOD approves and prints, and listing and fetching are open to any signed-in user |
| PaperRoutes.HandlersRunExactlyForPermittedRoles | backend/src/routes/paperRoutes.js:42-103 | a handler runs exactly for a signed-in user with a permitted role, on its URL, with acceptable files |
| PaperRoutes.UnauthenticatedIsNeverForbidden | backend/src/routes/paperRoutes.js:42-97 | `protect` runs before `authorize`: a request that fails authentication gets no route or a 401, never a 403 |
| Uploads.TimestampedName | backend/src/routes/paperRoutes.js:34 | the stored name ends with the original name and is longer than it |
| Uploads.TimestampedNameRoundTrip | backend/src/routes/paperRoutes.js:34 | the stored name reads back into the clock reading and the original name |
| Uploads.TimestampedNameInjective | backend/src/routes/paperRoutes.js:34 | two files kept under the same name were stored at the same millisecond with the same original name |
| Uploads.NamedParts | backend/src/config/multer.js:41-44 | the parts multer treats as files: every part with a file name, in arrival order, and nothing else |
| Uploads.NamedPartsIdempotent | backend/src/config/multer.js:41-44 | the named parts have nothing left to skip |
| MulterConfig.Destination | backend/src/config/multer.js:16-20 | paperFile goes to the papers directory and signatureFile to the signatures directory; any other field is an error |
| MulterConfig.CollapseSpaces | backend/src/config/multer.js:22 | the result has no whitespace and is no longer than the input |
| MulterConfig.DropUnsafe | backend/src/config/multer.js:22 | exactly the safe characters of the input are kept |
| MulterConfig.SanitizeFixesExactlySafeNames | backend/src/config/multer.js:22 | sanitising leaves a name unchanged exactly when it has only word characters, dots and dashes |
| MulterConfig.SanitizeIsIdempotent | backend/src/config/multer.js:22 | a sanitised name has no whitespace and only safe characters, and sanitising it again changes nothing |
| MulterConfig.Sanitize | backend/src/config/multer.js:22 | the safe name has only word characters, dots and dashes and is no longer than the original |
| MulterConfig.FileFilter | backend/src/config/multer.js:28-34 | exactly application/pdf, image/png and image/jpeg pass; any other type gets the fixed message |
| MulterConfig.AcceptFile | backend/src/config/multer.js:16-44 | a part without a file name is skipped; otherwise an unexpected or exhausted field fails first, then a refused type; a file is kept exactly when its field has room, its type passes and it is at most 10 MiB |
| MulterConfig.UploadFiles | backend/src/config/multer.js:41-44 | an accepted request keeps one stored file per part with a file name |
| MulterConfig.UnnamedPartsAreIgnored | backend/src/config/multer.js:41-44 | parts without a file name make no difference to the outcome |
| MulterConfig.AcceptedUploadsRespectMaxCount | backend/src/config/multer.js:41-44 | an accepted request has no more named files in a field than its `maxCount`, and none in a field not listed |
| MulterConfig.DestinationNeverFails | backend/src/config/multer.js:16-20 | with the configured fields, a file that passes the field check and the filter fails exactly when it is over 10 MiB |
| MulterConfig.AcceptedUploads | backend/src/config/multer.js:21-44 | every kept file comes from the named part at its position, in the same field, has an allowed type, is at most 10 MiB, lands in its field's directory and is named "{timestamp}-{safe name}" |
| MulterConfig.AtMostOneFilePerField | backend/src/config/multer.js:41-44 | an accepted request has at most one named paper file, one named signature file and nothing else |
| UploadMiddleware.Destination | backend/src/middleware/upload.js:12-17 | the directory depends only on the field; an unknown field is an "Invalid file field" error |
| UploadMiddleware.FileFilter | backend/src/middleware/upload.js:25-32 | paperFile takes only PDF, signatureFile only PNG or JPEG, and every other combination is "Invalid file type" |
| UploadMiddleware.FilteredFilesHaveADestination | backend/src/middleware/upload.js:12-32 | a file the filter admits always has a directory |
| UploadMiddleware.ScanFromRight | backend/src/middleware/upload.js:20 | the right-to-left scan finds the end of the last path component, its start, and the last dot within it |
| UploadMiddleware.Extname | backend/src/middleware/upload.js:20 | Node's extname is the extension of the last component: from its last dot, except for a leading dot or "..", after dropping trailing slashes |
| UploadMiddleware.Filename | backend/src/middleware/upload.js:18-21 | the name is "{timestamp}-{suffix}" followed by the original name's extension, so it ends with that extension |
| UploadMiddleware.ExtensionOfDottedName | backend/src/middleware/upload.js:18-21 | a name "stem.ext" keeps ".ext" as its extension |
| BlockFinal.BlockIfFinal | backend/src/middleware/blockFinal.js:4-12 | a missing paper or failed lookup crashes; 403 exactly for a "finalized" paper and a non-HOD; otherwise it proceeds |
| BlockFinal.GateNeverFiresOnStoredPapers | backend/src/middleware/blockFinal.js:7 | "finalized" is not a schema status, so the gate never fires on a paper the schema accepts |
| PaperSchema.CreatePaperDoc | backend/src/models/paperModel.js:3-17 | accepted exactly when paperType and status pass their enums; status defaults to draft; each refused enum is reported with its value |
| PaperSchema.DefaultStatusIsDraft | backend/src/models/paperModel.js:13 | a paper created without a status is a draft |
| PaperSchema.ServerStoresThreeOfTheWorkflowStatuses | backend/src/models/paperModel.js:13 | of the eight workflow statuses, the server stores exactly draft, pending_moderation and approved |
| SuggestionSchema.CreateSuggestionDoc | backend/src/models/suggestionModel.js:6-10 | accepted exactly when paper and examiner are ObjectId strings, the text is given and the status is in the enum; reply defaults to null and status to unread; each failing path is reported |
| SuggestionSchema.FreshSuggestionIsUnread | backend/src/models/suggestionModel.js:9-10 | a suggestion made from paper, examiner and text alone is unread with a null reply |
| SuggestionSchema.PaperMustBeAnObjectId | backend/src/models/suggestionModel.js:6 | a paper reference that is not 24 hexadecimal digits is refused on the `paper` path |
| SuggestionController.IndexOfId | backend/src/controllers/suggestionController.js:57 | the position of a suggestion stored under the ObjectId, or none exactly when no suggestion has it |
| SuggestionController.FindById | backend/src/controllers/suggestionController.js:57-69 | an id that is not 24 hexadecimal digits is answered 500 with Mongoose's cast message; otherwise the position of the suggestion with that ObjectId |
| SuggestionController.IdLetterCaseDoesNotMatter | backend/src/controllers/suggestionController.js:57-60 | an ObjectId written with upper-case hex letters reaches the same suggestion, in reply and delete, as its lower-case form |
| SuggestionController.CreateSuggestion | backend/src/controllers/suggestionController.js:7-30 | 400 before any lookup without paper id or text; 500 with the cast message for a paper id that is not an ObjectId; 404 for a missing paper; 500 on a lookup error; succeeds exactly otherwise, appending one unread suggestion by the requesting examiner under the paper's ObjectId |
| SuggestionController.SuggestionsByPaper | backend/src/controllers/suggestionController.js:35-47 | 500 with the cast message exactly for a paper id that is not an ObjectId; otherwise a permutation of the suggestions stored under that ObjectId, newest first |
| SuggestionController.CreatedSuggestionIsListed | backend/src/controllers/suggestionController.js:20-41 | a suggestion created for a paper id is listed under that paper id |
| SuggestionController.ReplyToSuggestion | backend/src/controllers/suggestionController.js:52-70 | 500 with the cast message for an id that is not an ObjectId; 404 exactly for an ObjectId no suggestion has; otherwise that suggestion gets the reply and status replied, and the others are unchanged |
| SuggestionController.ReplyingTwiceKeepsTheLastReply | backend/src/controllers/suggestionController.js:62-63 | replying twice equals replying once with the later reply |
| SuggestionController.DeleteSuggestion | backend/src/controllers/suggestionController.js:75-89 | 500 with the cast message for an id that is not an ObjectId; 404 exactly for an ObjectId no suggestion has; otherwise that suggestion is removed and the rest keep their order |
| SuggestionController.UnreadCountFollowsTheHandlers | backend/src/controllers/suggestionController.js:94-101 | create adds one unread; reply and delete subtract the target's unread share |
| SuggestionController.UnreadCount | backend/src/controllers/suggestionController.js:94-101 | at most the number of suggestions, and zero exactly when none is unread |
| AuthController.FindByEmail | backend/src/controllers/authController.js:19 | a stored account with the email, or none exactly when no account has it |
| AuthController.Register | backend/src/controllers/authController.js:9-40 | succeeds exactly for a filled body with a new email; 400 for a missing name, email, password or department, then 400 for a taken email; on success exactly the new account, role as given, is appended and answered with 201, a token for its id and its public fields |
| AuthController.RegisterKeepsEmailsUnique | backend/src/controllers/authController.js:19-23 | registration keeps emails unique, and after it succeeds exactly one account has the email |
| AuthController.Login | backend/src/controllers/authController.js:43-70 | the same 400 "Invalid credentials" for an unknown email and a wrong password; otherwise 200 with the public fields |
| AuthController.RegisterThenLogin | backend/src/controllers/authController.js:9-70 | a registered account logs in with its password |
| Seqs.FindIndexAppend | backend/src/controllers/authController.js:19-23 | an element appended after no match is found at the end |
| AuthController.ResponsesDoNotDependOnThePassword | backend/src/controllers/authController.js:56-65 | accounts that differ only in their password give the same user in the response |

## Left out

- Persistence: `localStorage` and JSON (de)serialisation are not modelled. The browser store is an in-memory sequence.
- React: state hooks, effects, `toast` and `navigate` are not modelled. Each page is a pure function from state and event to new state.
- HTTP clients: axios calls become inputs (the server's reply) or outputs (the request body).
- Express wiring is not modelled:
  - route mounting and `server.js`;
  - case-insensitive matching, trailing slashes and URL decoding. Paths are taken as already-split segments.
- Mongo queries: `find`, `findById` and `findOne` become a lookup parameter (found, missing, throws) or a search over a sequence.
- Sort order: Mongo leaves the order of equal `createdAt` values unspecified. The model's stable sort is one valid answer, and the contract only asks for sortedness and a permutation.
- Dates: `createdAt` is an integer. Date-string parsing is not modelled.
- Effects as parameters: JWT signing and verification, `matchPassword`/bcrypt, `uuidv4()`, `Date.now()` and `new Date().toISOString()` are all parameters. One `env.now` stands for all clock readings of one handler: the source calls `new Date().toISOString()` two or three times per handler (e.g. PaperDetail.tsx:72,82,86 and storage.ts:19,28,37), and those readings may differ by a millisecond.
- `UploadMiddleware.Filename`: the suffix `Math.round(Math.random() * 1e9)` is taken as any natural number. Floating-point rounding is not modelled.
- Multer internals: a part whose file name is empty is skipped, as multer's busboy handler does; `Uploads.NamedParts` models that step. Busboy streaming, writing to disk, the `fs.mkdirSync` directory creation and partial-file cleanup are not modelled.
- Browser form validation: `Register.BrowserAccepts` covers the `required` attributes and the `type="email"` address rule of the HTML Living Standard. It takes the `Input` component of `@/components/ui/input`, which is not part of this model, to pass both attributes to the native input. The browser's stripping of whitespace around an e-mail value is not modelled: the form holds the values the inputs report.
- Non-ASCII lower-casing: `toLowerCase` is modelled for ASCII letters only. Characters outside ASCII keep their case in the search.
- ObjectId casts: an ObjectId string is taken to be 24 hexadecimal digits. The 12-character string form that older BSON versions also cast is not modelled. Hex letters are matched and stored in lower case, the form in which ObjectIds print.
- `SuggestionController.CreateSuggestion`: the paper lookup is a parameter; its throwing case stands for database failures, the id cast being modelled. `Suggestion.create` is taken to succeed once both ids cast, so its own database failures are not modelled.
- `SuggestionController.SuggestionsByPaper`: of the ways `find` can throw only the id cast is modelled; a database failure, answered 500 by the same catch, is not.
- `SuggestionController.ReplyToSuggestion`: of the ways `findById` and `save` can throw only the id cast is modelled; a database failure, answered 500 by the same catch, is not.
- `SuggestionController.DeleteSuggestion`: of the ways `findById` and `remove` can throw only the id cast is modelled; a database failure, answered 500 by the same catch, is not.
- Non-string JSON values: request-body values are modelled as absent, `null` or a string. Numbers, booleans and objects in a JSON body are not modelled. This includes a login whose email is not a string.
- The user schema: `userModel.js` is not part of this model. `AuthController.Register` therefore keeps the role exactly as given and applies no default or enum check to it.
- `deleteSuggestion` calls `suggestion.remove()`. This is modelled as removing the document. Mongoose versions where that method no longer exists are not modelled.
- `BlockFinal.GateNeverFiresOnStoredPapers`: rests on the assumption that the `Paper` model blockFinal.js:2 imports from `../models/Paper.js` is the schema of paperModel.js. backend/src/models/Paper.js is not part of this model, so if it declares a `finalized` status the lemma says nothing about it. No route file shown imports blockFinal.js, so the gate guards no route as written.
- `BlockFinal.BlockIfFinal`: a missing paper makes the source read `status` of `null`. This is modelled as a distinct `Crash` outcome; the error page Express renders is not modelled.
- The non-null assertions `user!` in the page handlers: the handlers take a signed-in user as a parameter. The crash when nobody is signed in is not modelled.
- Paper CRUD and other controllers: `paperController.js`, the paper CRUD in `notificationController.js`, `userController.js` and `notificationsRoutes.js` are thin wrappers over the database.
  - They are not modelled.
- The server does not start as written. `server.js:8` imports `paperRoutes.js`, whose named imports at lines 6-16 include `submitPaper`, `examinerModerate`, `hodApprove` and `markAsPrinted`. `paperController.js` exports none of them, so ES module linking fails and no route, paper or auth, is ever served. `PaperRoutes` describes the router as it would route once those handlers exist.
- HOD actions: no shown code approves, rejects or prints a paper. Those statuses exist only as enumeration values, and `Lifecycle.NoRunFinalises` proves that no page action produces them.
- Behaviour where the code departs from the intended workflow. The model follows the code:
  - "Save Draft" runs `handleSavePdf`, as the button is wired (see Findings); the lifecycle therefore has no action that saves a text draft;
  - submitting for review also creates a new version;
  - every examiner action overwrites the recorded examiner;
  - a paper can be created straight into `pending_moderation`;
  - `handleSendToHOD` exists, but no control on the paper page invokes it.
- Presentation components are not modelled: status badges, signature display, the dashboard layout and role switch, the PDF viewer, and the app's router.

## Findings

| source | as written | input that shows it | evidently intended | confidence | as-written member | corrected member |
|---|---|---|---|---|---|---|
| frontend/src/pages/PaperDetail.tsx:259 | the "Save Draft" button of the text editor calls `handleSavePdf`, which saves only when a PDF file was chosen; the file input is rendered only for PDF papers (lines 208-223), so on a text paper no file can ever be chosen | the owner opens a text paper in `draft`, clicks Edit, changes the text and clicks "Save Draft": the handler stops at "Please select a PDF file" and the edited text is lost | "Save Draft" stores the edited text as a new draft version | not executed | PaperDetail.SaveDraftAsWrittenNeverSaves | PaperDetail.SaveDraftSavesEditedText |
| frontend/src/pages/CreatePaper.tsx:92-98 | the form requires and validates a course (lines 72-75), but the request body sends the course name and never `courseCode` | any valid form, e.g. 1st Year, 1st Semester, course CO1121, a PDF: the body holds `courseName` but has no `courseCode` entry | the body also carries the selected course's code, which names the course | not executed | CreatePaper.PayloadAsWrittenHasNoCourseCode | CreatePaper.PayloadIdentifiesTheCourse |

=== FILE: auth_controller.dfy ===
/** Registration and login (backend/src/controllers/authController.js) over the stored
    accounts. Token signing and password checking are parameters: `sign` is `genToken`,
    `matches` is the account's `matchPassword`. */
module AuthController {
  import opened Common
  import opened Seqs
  import opened Http
  import opened Schema

  /** A stored account; `role` is kept as given, since registration does not require it. */
  datatype Account = Account(id: string, name: string, email: string, password: string,
                             department: string, role: Value)

  /** The `user` object of a response: every account field but the password. */
  datatype PublicUser = PublicUser(id: string, name: string, email: string, role: Value, department: string)

  datatype AuthResponse = AuthResponse(status: nat, token: string, user: PublicUser)

  datatype RegisterBody = RegisterBody(name: Value, email: Value, password: Value,
                                       department: Value, role: Value)

  function Public(a: Account): PublicUser {
    PublicUser(a.id, a.name, a.email, a.role, a.department)
  }

  /** `User.findOne({ email })` */
  function FindByEmail(users: seq<Account>, email: string): (r: Option<Account>)
    ensures r.Some? ==> r.value in users && r.value.email == email
    ensures r.None? ==> forall k :: 0 <= k < |users| ==> users[k].email != email
  {
    Find(users, (a: Account) => a.email == email)
  }

  ghost predicate EmailsUnique(users: seq<Account>) {
    forall i, j :: 0 <= i < j < |users| ==> users[i].email != users[j].email
  }

  predicate Truthy(v: Value) {
    v.Text? && v.text != ""
  }

  /** Name, email, password and department are present; the role is optional. */
  predicate Filled(body: RegisterBody) {
    Truthy(body.name) && Truthy(body.email) && Truthy(body.password) && Truthy(body.department)
  }

  /** The account `User.create` stores for a filled body. */
  function NewAccount(body: RegisterBody, id: string): Account
    requires Filled(body)
  {
    Account(id, body.name.text, body.email.text, body.password.text, body.department.text, body.role)
  }

  /** `register`: the four required fields are checked, then the email; a new account
      is appended and answered with 201, a token for its id and its public fields.
      Registration succeeds exactly when the body is filled and the email is new. */
  function Register(users: seq<Account>, body: RegisterBody, id: string, sign: string -> string)
    : (r: Result<(seq<Account>, AuthResponse), Failure>)
    ensures r.Ok? <==> Filled(body) && FindByEmail(users, body.email.text).None?
    ensures !Filled(body) ==> r == Err(Failure(400, "Please fill all required fields"))
    ensures Filled(body) && FindByEmail(users, body.email.text).Some? ==> r == Err(Failure(400, "User already exists"))
    ensures r.Ok? ==> r.value.0 == users + [NewAccount(body, id)]
                      && r.value.1 == AuthResponse(201, sign(id), Public(NewAccount(body, id)))
    ensures r.Ok? ==> r.value.1.user.role == body.role && r.value.1.user.email == body.email.text
  {
    if !Filled(body) then
      Err(Failure(400, "Please fill all required fields"))
    else if FindByEmail(users, body.email.text).Some? then Err(Failure(400, "User already exists"))
    else
      var a := NewAccount(body, id);
      Ok((users + [a], AuthResponse(201, sign(id), Public(a))))
  }

  /** Registration keeps emails unique, and after it succeeds exactly one account has
      the registered email. */
  lemma RegisterKeepsEmailsUnique(users: seq<Account>, body: RegisterBody, id: string, sign: string -> string)
    requires EmailsUnique(users)
    ensures var r := Register(users, body, id, sign);
            r.Ok? ==> EmailsUnique(r.value.0)
                      && Count(r.value.0, (a: Account) => a.email == body.email.text) == 1
  {
    var r := Register(users, body, id, sign);
    if r.Ok? {
      var e := body.email.text;
      var p := (a: Account) => a.email == e;
      var a := r.value.0[|users|];
      assert r.value.0 == users + [a];
      FilterSnoc(users, a, p);
      assert Filter(users, p) == [];
    }
  }

  /** `login`: an unknown email and a wrong password get the same answer. */
  function Login(users: seq<Account>, email: string, password: string,
                 matches: (Account, string) -> bool, sign: string -> string): (r: Result<AuthResponse, Failure>)
    ensures r.Err? ==> r.error == Failure(400, "Invalid credentials")
    ensures r.Ok? <==> FindByEmail(users, email).Some? && matches(FindByEmail(users, email).value, password)
    ensures r.Ok? ==> r.value.status == 200 && r.value.user == Public(FindByEmail(users, email).value)
  {
    match FindByEmail(users, email)
    case None => Err(Failure(400, "Invalid credentials"))
    case Some(a) =>
      if !matches(a, password) then Err(Failure(400, "Invalid credentials"))
      else Ok(AuthResponse(200, sign(a.id), Public(a)))
  }

  /** Once registered, the account logs in with its password (when the password check
      accepts a stored password for itself) and is answered with the same public user. */
  lemma RegisterThenLogin(users: seq<Account>, body: RegisterBody, id: string, sign: string -> string,
                          matches: (Account, string) -> bool)
    requires forall a: Account :: matches(a, a.password)
    requires Register(users, body, id, sign).Ok?
    ensures var r := Register(users, body, id, sign).value;
            Login(r.0, body.email.text, body.password.text, matches, sign)
              == Ok(AuthResponse(200, sign(id), r.1.user))
  {
    var r := Register(users, body, id, sign).value;
    var a := NewAccount(body, id);
    var p := (x: Account) => x.email == body.email.text;
    FindIndexAppend(users, a, p);
    FindAgreesWithFindIndex(r.0, p);
    assert FindByEmail(r.0, body.email.text) == Some(a);
  }

  /** The password never reaches a response: accounts that differ only in their password
      are answered alike. */
  lemma ResponsesDoNotDependOnThePassword(users: seq<Account>, i: nat, pw: string, email: string, password: string,
                                          matches: (Account, string) -> bool, sign: string -> string)
    requires i < |users|
    requires Login(users, email, password, matches, sign).Ok?
    requires Login(users[i := users[i].(password := pw)], email, password, matches, sign).Ok?
    ensures Login(users, email, password, matches, sign).value.user
            == Login(users[i := users[i].(password := pw)], email, password, matches, sign).value.user
  {
    var users' := users[i := users[i].(password := pw)];
    var p := (a: Account) => a.email == email;
    var j := FindIndex(users, p);
    var j' := FindIndex(users', p);
    FindAgreesWithFindIndex(users, p);
    FindAgreesWithFindIndex(users', p);
    assert forall k :: 0 <= k < |users| ==> users'[k].email == users[k].email;
    assert j.Some? && j'.Some?;
    assert Public(users[j.value]) == Public(users'[j.value]);
  }
}

=== FILE: auth_middleware.dfy ===
/** Authentication and role checks (backend/src/middleware/auth.js). Token verification
    and the user lookup are parameters: `verify` gives the id a valid token carries, or
    nothing when `jwt.verify` throws; `findById` is the database call. */
module AuthMiddleware {
  import opened Common
  import opened Text
  import opened Http

  /** The signed-in user as `findById(...).select("-password")` returns it. */
  datatype AuthUser = AuthUser(id: string, role: string)

  const TOKEN_MISSING := "Not authorized, token missing"
  const TOKEN_INVALID := "Not authorized, token invalid"
  const USER_NOT_FOUND := "Not authorized, user not found"

  /** The second space-separated segment of the header, `split(" ")[1]`, if any. */
  function TokenOf(header: string): (r: Option<string>)
    ensures r.Some? ==> ' ' !in r.value
  {
    var parts := Split(header, ' ');
    if |parts| >= 2 then Some(parts[1]) else None
  }

  /** `protect`: a header that is absent, empty, or does not start with "Bearer", or
      that carries no token, is refused as missing; a token that does not verify, or a
      lookup that throws, as invalid; an unknown user as not found. Every refusal is a
      401. Otherwise the request proceeds with the user. */
  function Protect(header: Option<string>, verify: string -> Option<string>,
                   findById: string -> Lookup<AuthUser>): (r: Result<AuthUser, Failure>)
    ensures r.Err? ==> r.error.status == 401
    ensures (header.None? || !StartsWith(header.value, "Bearer")) ==> r == Err(Failure(401, TOKEN_MISSING))
    ensures header.Some? && StartsWith(header.value, "Bearer") ==>
              match TokenOf(header.value)
              case None => r == Err(Failure(401, TOKEN_MISSING))
              case Some(t) =>
                if t == "" then r == Err(Failure(401, TOKEN_MISSING))
                else match verify(t)
                  case None => r == Err(Failure(401, TOKEN_INVALID))
                  case Some(id) =>
                    match findById(id)
                    case Throws(_) => r == Err(Failure(401, TOKEN_INVALID))
                    case Missing => r == Err(Failure(401, USER_NOT_FOUND))
                    case Found(u) => r == Ok(u)
  {
    if header.None? || header.value == "" || !StartsWith(header.value, "Bearer") then
      Err(Failure(401, TOKEN_MISSING))
    else
      var token := TokenOf(header.value);
      if token.None? || token.value == "" then Err(Failure(401, TOKEN_MISSING))
      else
        match verify(token.value)
        case None => Err(Failure(401, TOKEN_INVALID))
        case Some(id) =>
          match findById(id)
          case Throws(_) => Err(Failure(401, TOKEN_INVALID))
          case Missing => Err(Failure(401, USER_NOT_FOUND))
          case Found(u) => Ok(u)
  }

  /** The header a client sends, `Bearer <token>`, yields exactly that token. */
  lemma BearerHeaderRoundTrip(token: string)
    requires token != "" && ' ' !in token
    ensures TokenOf("Bearer " + token) == Some(token)
  {
    var parts := ["Bearer", token];
    assert Join(parts, ' ') == "Bearer " + token;
    SplitJoin(parts, ' ');
  }

  /** A well-formed header with a token that verifies, for a user that exists, lets the
      request through as that user. */
  lemma ProtectAcceptsValidBearer(token: string, verify: string -> Option<string>,
                                  findById: string -> Lookup<AuthUser>, id: string, u: AuthUser)
    requires token != "" && ' ' !in token
    requires verify(token) == Some(id) && findById(id) == Found(u)
    ensures Protect(Some("Bearer " + token), verify, findById) == Ok(u)
  {
    BearerHeaderRoundTrip(token);
  }

  /** `authorize(...roles)`: no user is a 401, checked first; a role outside the list is
      a 403; a listed role proceeds. */
  function Authorize(roles: seq<string>, user: Option<AuthUser>): (r: Result<AuthUser, Failure>)
    ensures user.None? <==> r == Err(Failure(401, "Not authorized"))
    ensures user.Some? && user.value.role !in roles <==> r == Err(Failure(403, "Forbidden: insufficient permissions"))
    ensures r.Ok? <==> user.Some? && user.value.role in roles
    ensures r.Ok? ==> r.value == user.value
  {
    if user.None? then Err(Failure(401, "Not authorized"))
    else if user.value.role !in roles then Err(Failure(403, "Forbidden: insufficient permissions"))
    else Ok(user.value)
  }
}

=== FILE: block_final.dfy ===
/** The "finalized" gate (backend/src/middleware/blockFinal.js), meant to keep everyone
    but the head of department away from a finished paper. */
module BlockFinal {
  import opened Http
  import opened Schema
  import opened PaperSchema

  datatype Gate = Proceed | Forbidden(failure: Failure) | Crash

  /** `blockIfFinal`: the paper is looked up by id; no paper (or a failed lookup) makes
      the handler throw, which nothing catches; a finalized paper refuses non-hods. */
  function BlockIfFinal(paper: Lookup<PaperInput>, role: string): (g: Gate)
    ensures g.Crash? <==> !paper.Found?
    ensures g.Forbidden? <==> paper.Found? && paper.doc.status == Text("finalized") && role != "hod"
    ensures g.Forbidden? ==> g.failure == Failure(403, "Access denied. FINALIZED paper.")
  {
    match paper
    case Found(p) =>
      if p.status == Text("finalized") && role != "hod" then Forbidden(Failure(403, "Access denied. FINALIZED paper."))
      else Proceed
    case _ => Crash
  }

  /** `finalized` is not one of the schema's statuses, so the gate never fires on a
      paper the schema has accepted. This takes the `Paper` model the gate imports from
      `../models/Paper.js` to be the schema of backend/src/models/paperModel.js;
      backend/src/models/Paper.js is not part of this model. */
  lemma GateNeverFiresOnStoredPapers(input: PaperInput, role: string)
    requires CreatePaperDoc(input).Ok?
    ensures BlockIfFinal(Found(CreatePaperDoc(input).value), role) == Proceed
  {
  }
}

=== FILE: common.dfy ===
/** Optional values and results with an error, used wherever the source returns
    `undefined`, returns early or answers with an error status. */
module Common {

  datatype Option<+T> = None | Some(value: T)

  datatype Result<+T, +E> = Ok(value: T) | Err(error: E)
}

=== FILE: course_codes.dfy ===
/** The course codes of the catalogue are pairwise distinct: each position of the
    catalogue is recovered from its code through a numeric fingerprint. */
module CourseCodes {
  import opened Types

  /** A number determined by a code's length and first nine characters. Equal codes
      have equal fingerprints, which is all the distinctness proof below uses. */
  function CodeFingerprint(s: string): int {
    var at := (k: nat) => if k < |s| then s[k] as int else ' ' as int;
    |s| + 16 * (at(0) + 128 * (at(1) + 128 * (at(2) + 128 * (at(3) + 128 * (at(4)
      + 128 * (at(5) + 128 * (at(6) + 128 * (at(7) + 128 * at(8)))))))))
  }

  /** The catalogue position whose code has fingerprint `k` (-1 for none): a witness that
      positions and codes correspond one to one. */
  function PositionOfFingerprint(k: int): int {
    if k < 37183998577336548406 then
      if k < 37183998023286029366 then
        if k < 37183997477825453318 then
          if k < 37183997477824929030 then
            if k < 37183997473530485814 then
              if k == 37183997469235485782 then 47 else -1
            else
              if k < 37183997477824920630 then
                if k == 37183997473530485814 then 39 else -1
              else
                if k == 37183997477824920630 then 0 else -1
          else
            if k < 37183997477825191174 then
              if k < 37183997477825182774 then
                if k == 37183997477824929030 then 48 else -1
              else
                if k == 37183997477825182774 then 19 else -1
            else
              if k < 37183997477825453110 then
                if k == 37183997477825191174 then 51 else -1
              else
                if k == 37183997477825453110 then 38 else -1
        else
          if k < 37183997477858737206 then
            if k < 37183997477858475062 then
              if k == 37183997477825453318 then 54 else -1
            else
              if k < 37183997477858483462 then
                if k == 37183997477858475062 then 10 else -1
              else
                if k == 37183997477858483462 then 50 else -1
          else
            if k < 37183997477859007750 then
              if k < 37183997477858745606 then
                if k == 37183997477858737206 then 29 else -1
              else
                if k == 37183997477858745606 then 53 else -1
            else
              if k < 37183998023285767222 then
                if k == 37183997477859007750 then 56 else -1
              else
                if k == 37183998023285767222 then 2 else -1
      else
        if k < 37183998027581266998 then
          if k < 37183998027580734518 then
            if k < 37183998023286299702 then
              if k == 37183998023286029366 then 21 else -1
            else
              if k < 37183998023319321654 then
                if k == 37183998023286299702 then 41 else -1
              else
                if k == 37183998023319321654 then 12 else -1
          else
            if k < 37183998027580996662 then
              if k < 37183998027580742918 then
                if k == 37183998027580734518 then 1 else -1
              else
                if k == 37183998027580742918 then 49 else -1
            else
              if k < 37183998027581005062 then
                if k == 37183998027580996662 then 20 else -1
              else
                if k == 37183998027581005062 then 52 else -1
        else
          if k < 37183998027614551094 then
            if k < 37183998027581267206 then
              if k == 37183998027581266998 then 40 else -1
            else
              if k < 37183998027614288950 then
                if k == 37183998027581267206 then 55 else -1
              else
                if k == 37183998027614288950 then 11 else -1
          else
            if k < 37183998573075135542 then
              if k < 37183998573042113590 then
                if k == 37183998027614551094 then 30 else -1
              else
                if k == 37183998573042113590 then 43 else -1
            else
              if k < 37183998573075397686 then
                if k == 37183998573075135542 then 14 else -1
              else
                if k == 37183998573075397686 then 33 else -1
    else
      if k < 37183999127126178870 then
        if k < 37183999122797927478 then
          if k < 37183998577370102838 then
            if k < 37183998577336810550 then
              if k == 37183998577336548406 then 3 else -1
            else
              if k < 37183998577337080886 then
                if k == 37183998577336810550 then 22 else -1
              else
                if k == 37183998577337080886 then 42 else -1
          else
            if k < 37183999122797394998 then
              if k < 37183998577370364982 then
                if k == 37183998577370102838 then 13 else -1
              else
                if k == 37183998577370364982 then 32 else -1
            else
              if k < 37183999122797657142 then
                if k == 37183999122797394998 then 5 else -1
              else
                if k == 37183999122797657142 then 24 else -1
        else
          if k < 37183999127092362294 then
            if k < 37183999122830949430 then
              if k == 37183999122797927478 then 45 else -1
            else
              if k < 37183999122831211574 then
                if k == 37183999122830949430 then 16 else -1
              else
                if k == 37183999122831211574 then 35 else -1
          else
            if k < 37183999127092894774 then
              if k < 37183999127092624438 then
                if k == 37183999127092362294 then 4 else -1
              else
                if k == 37183999127092624438 then 23 else -1
            else
              if k < 37183999127125916726 then
                if k == 37183999127092894774 then 44 else -1
              else
                if k == 37183999127125916726 then 15 else -1
      else
        if k < 37183999681143675958 then
          if k < 37183999676848176182 then
            if k < 37183999672553208886 then
              if k == 37183999127126178870 then 34 else -1
            else
              if k < 37183999672553471030 then
                if k == 37183999672553208886 then 7 else -1
              else
                if k == 37183999672553471030 then 26 else -1
          else
            if k < 37183999676881730614 then
              if k < 37183999676848438326 then
                if k == 37183999676848176182 then 6 else -1
              else
                if k == 37183999676848438326 then 25 else -1
            else
              if k < 37183999676881992758 then
                if k == 37183999676881730614 then 17 else -1
              else
                if k == 37183999676881992758 then 36 else -1
        else
          if k < 37184000226637806646 then
            if k < 37184000226604252214 then
              if k < 37184000226603990070 then
                if k == 37183999681143675958 then 46 else -1
              else
                if k == 37184000226603990070 then 8 else -1
            else
              if k < 37184000226637544502 then
                if k == 37184000226604252214 then 27 else -1
              else
                if k == 37184000226637544502 then 18 else -1
          else
            if k < 37186873228450212983 then
              if k < 37185264115253935159 then
                if k == 37184000226637806646 then 37 else -1
              else
                if k == 37185264115253935159 then 31 else -1
            else
              if k < 84825950086775319673 then
                if k == 37186873228450212983 then 9 else -1
              else
                if k == 84825950086775319673 then 28 else -1
  }

  lemma PositionsCsYear1Sem1_0()
    ensures forall i :: 0 <= i < 5 ==> PositionOfFingerprint(CodeFingerprint(CS_YEAR1_SEM1[i].code)) == 0 + i
  {
    forall i | 0 <= i < 5 ensures PositionOfFingerprint(CodeFingerprint(CS_YEAR1_SEM1[i].code)) == 0 + i {
      if i == 0 {} else if i == 1 {} else if i == 2 {} else if i == 3 {} else if i == 4 {}
    }
  }

  lemma PositionsCsYear1Sem1_5()
    ensures forall i :: 5 <= i < 10 ==> PositionOfFingerprint(CodeFingerprint(CS_YEAR1_SEM1[i].code)) == 0 + i
  {
    forall i | 5 <= i < 10 ensures PositionOfFingerprint(CodeFingerprint(CS_YEAR1_SEM1[i].code)) == 0 + i {
      if i == 5 {} else if i == 6 {} else if i == 7 {} else if i == 8 {} else if i == 9 {}
    }
  }

  lemma PositionsCsYear1Sem2_0()
    ensures forall i :: 0 <= i < 5 ==> PositionOfFingerprint(CodeFingerprint(CS_YEAR1_SEM2[i].code)) == 10 + i
  {
    forall i | 0 <= i < 5 ensures PositionOfFingerprint(CodeFingerprint(CS_YEAR1_SEM2[i].code)) == 10 + i {
      if i == 0 {} else if i == 1 {} else if i == 2 {} else if i == 3 {} else if i == 4 {}
    }
  }

  lemma PositionsCsYear1Sem2_5()
    ensures forall i :: 5 <= i < 9 ==> PositionOfFingerprint(CodeFingerprint(CS_YEAR1_SEM2[i].code)) == 10 + i
  {
    forall i | 5 <= i < 9 ensures PositionOfFingerprint(CodeFingerprint(CS_YEAR1_SEM2[i].code)) == 10 + i {
      if i == 5 {} else if i == 6 {} else if i == 7 {} else if i == 8 {}
    }
  }

  lemma PositionsCsYear2Sem1_0()
    ensures forall i :: 0 <= i < 5 ==> PositionOfFingerprint(CodeFingerprint(CS_YEAR2_SEM1[i].code)) == 19 + i
  {
    forall i | 0 <= i < 5 ensures PositionOfFingerprint(CodeFingerprint(CS_YEAR2_SEM1[i].code)) == 19 + i {
      if i == 0 {} else if i == 1 {} else if i == 2 {} else if i == 3 {} else if i == 4 {}
    }
  }

  lemma PositionsCsYear2Sem1_5()
    ensures forall i :: 5 <= i < 10 ==> PositionOfFingerprint(CodeFingerprint(CS_YEAR2_SEM1[i].code)) == 19 + i
  {
    forall i | 5 <= i < 10 ensures PositionOfFingerprint(CodeFingerprint(CS_YEAR2_SEM1[i].code)) == 19 + i {
      if i == 5 {} else if i == 6 {} else if i == 7 {} else if i == 8 {} else if i == 9 {}
    }
  }

  lemma PositionsCsYear2Sem2_0()
    ensures forall i :: 0 <= i < 5 ==> PositionOfFingerprint(CodeFingerprint(CS_YEAR2_SEM2[i].code)) == 29 + i
  {
    forall i | 0 <= i < 5 ensures PositionOfFingerprint(CodeFingerprint(CS_YEAR2_SEM2[i].code)) == 29 + i {
      if i == 0 {} else if i == 1 {} else if i == 2 {} else if i == 3 {} else if i == 4 {}
    }
  }

  lemma PositionsCsYear2Sem2_5()
    ensures forall i :: 5 <= i < 9 ==> PositionOfFingerprint(CodeFingerprint(CS_YEAR2_SEM2[i].code)) == 29 + i
  {
    forall i | 5 <= i < 9 ensures PositionOfFingerprint(CodeFingerprint(CS_YEAR2_SEM2[i].code)) == 29 + i {
      if i == 5 {} else if i == 6 {} else if i == 7 {} else if i == 8 {}
    }
  }

  lemma PositionsCsYear3Sem1_0()
    ensures forall i :: 0 <= i < 5 ==> PositionOfFingerprint(CodeFingerprint(CS_YEAR3_SEM1[i].code)) == 38 + i
  {
    forall i | 0 <= i < 5 ensures PositionOfFingerprint(CodeFingerprint(CS_YEAR3_SEM1[i].code)) == 38 + i {
      if i == 0 {} else if i == 1 {} else if i == 2 {} else if i == 3 {} else if i == 4 {}
    }
  }

  lemma PositionsCsYear3Sem1_5()
    ensures forall i :: 5 <= i < 10 ==> PositionOfFingerprint(CodeFingerprint(CS_YEAR3_SEM1[i].code)) == 38 + i
  {
    forall i | 5 <= i < 10 ensures PositionOfFingerprint(CodeFingerprint(CS_YEAR3_SEM1[i].code)) == 38 + i {
      if i == 5 {} else if i == 6 {} else if i == 7 {} else if i == 8 {} else if i == 9 {}
    }
  }

  lemma PositionsPsYear1_0()
    ensures forall i :: 0 <= i < 3 ==> PositionOfFingerprint(CodeFingerprint(PS_YEAR1[i].code)) == 48 + i
  {
    forall i | 0 <= i < 3 ensures PositionOfFingerprint(CodeFingerprint(PS_YEAR1[i].code)) == 48 + i {
      if i == 0 {} else if i == 1 {} else if i == 2 {}
    }
  }

  lemma PositionsPsYear2_0()
    ensures forall i :: 0 <= i < 3 ==> PositionOfFingerprint(CodeFingerprint(PS_YEAR2[i].code)) == 51 + i
  {
    forall i | 0 <= i < 3 ensures PositionOfFingerprint(CodeFingerprint(PS_YEAR2[i].code)) == 51 + i {
      if i == 0 {} else if i == 1 {} else if i == 2 {}
    }
  }

  lemma PositionsPsYear3_0()
    ensures forall i :: 0 <= i < 3 ==> PositionOfFingerprint(CodeFingerprint(PS_YEAR3[i].code)) == 54 + i
  {
    forall i | 0 <= i < 3 ensures PositionOfFingerprint(CodeFingerprint(PS_YEAR3[i].code)) == 54 + i {
      if i == 0 {} else if i == 1 {} else if i == 2 {}
    }
  }

  /** Every catalogue position is recovered from its code. */
  lemma CodesDeterminePositions()
    ensures forall i :: 0 <= i < |COURSES| ==> PositionOfFingerprint(CodeFingerprint(COURSES[i].code)) == i
  {
    PositionsCsYear1Sem1_0();
    PositionsCsYear1Sem1_5();
    PositionsCsYear1Sem2_0();
    PositionsCsYear1Sem2_5();
    PositionsCsYear2Sem1_0();
    PositionsCsYear2Sem1_5();
    PositionsCsYear2Sem2_0();
    PositionsCsYear2Sem2_5();
    PositionsCsYear3Sem1_0();
    PositionsCsYear3Sem1_5();
    PositionsPsYear1_0();
    PositionsPsYear2_0();
    PositionsPsYear3_0();
  }

  /** No two catalogue entries share a course code, so a lookup by code is unambiguous. */
  lemma CourseCodesDistinct()
    ensures forall i, j :: 0 <= i < j < |COURSES| ==> COURSES[i].code != COURSES[j].code
  {
    CodesDeterminePositions();
  }

  /** No catalogue entry has the empty code, so the form's empty selection never
      matches a course. */
  lemma NoEmptyCourseCode()
    ensures forall i :: 0 <= i < |COURSES| ==> COURSES[i].code != ""
  {
    CodesDeterminePositions();
    assert PositionOfFingerprint(CodeFingerprint("")) == -1;
  }
}

=== FILE: create_paper.dfy ===
/** The lecturer's create form (frontend/src/pages/CreatePaper.tsx): the courses offered
    for the chosen year and semester, the course looked up by code, the ordered
    validation, the multipart request, and the page after a submit. */
module CreatePaper {
  import opened Common
  import opened Seqs
  import opened Types
  import CourseCodes

  /** The form: year and semester are unset until chosen, the course code is empty
      until chosen, and the paper type starts as "exam". */
  datatype Form = Form(year: Option<Year>, semester: Option<Semester>, courseCode: string, paperType: PaperType)

  const INITIAL_FORM: Form := Form(None, None, "", Exam)

  /** `filteredCourses`: the catalogue entries of the user's department for the chosen
      year and semester, in catalogue order; none without a user. */
  function FilteredCourses(user: Option<User>, form: Form): (r: seq<Course>)
    ensures forall c :: c in r <==>
              && c in COURSES && user.Some? && c.department == user.value.department
              && form.year == Some(c.year) && form.semester == Some(c.semester)
    ensures IsSubsequence(r, COURSES)
  {
    Filter(COURSES, (c: Course) => user.Some? && c.department == user.value.department
                                   && form.year == Some(c.year) && form.semester == Some(c.semester))
  }

  /** `selectedCourse`: the catalogue entry with the form's code, searched in the whole
      catalogue. */
  function SelectedCourse(form: Form): (r: Option<Course>)
    ensures r.Some? ==> r.value in COURSES && r.value.code == form.courseCode
    ensures r.None? <==> forall i :: 0 <= i < |COURSES| ==> COURSES[i].code != form.courseCode
  {
    Find(COURSES, (c: Course) => c.code == form.courseCode)
  }

  /** Because codes are distinct, the lookup by code finds exactly the course whose code
      was chosen; the empty code finds nothing. */
  lemma SelectedCourseIsTheChosenOne(form: Form, c: Course)
    ensures c in COURSES && c.code == form.courseCode ==> SelectedCourse(form) == Some(c)
    ensures form.courseCode == "" ==> SelectedCourse(form).None?
  {
    CourseCodes.CourseCodesDistinct();
    CourseCodes.NoEmptyCourseCode();
    if c in COURSES && c.code == form.courseCode {
      var r := SelectedCourse(form).value;
      var i :| 0 <= i < |COURSES| && COURSES[i] == c;
      var j :| 0 <= j < |COURSES| && COURSES[j] == r;
      assert i == j;
    }
  }

  /** The reasons `validate` refuses, in the order it checks them. */
  datatype FormError =
    | YearAndSemesterMissing   // "Please select year and semester"
    | CourseMissing            // "Please select a course"
    | PdfMissing               // "Please upload a PDF file"
    | NotAuthenticated         // "User not authenticated"

  /** `validate`: the first failing check in the order year-and-semester, course, file,
      user; success when all four pass. */
  function Validate(form: Form, pdfFile: Option<string>, user: Option<User>): (r: Result<Course, FormError>)
    ensures r == Err(YearAndSemesterMissing) <==> form.year.None? || form.semester.None?
    ensures r == Err(CourseMissing) <==>
              form.year.Some? && form.semester.Some? && SelectedCourse(form).None?
    ensures r == Err(PdfMissing) <==>
              form.year.Some? && form.semester.Some? && SelectedCourse(form).Some? && pdfFile.None?
    ensures r == Err(NotAuthenticated) <==>
              form.year.Some? && form.semester.Some? && SelectedCourse(form).Some? && pdfFile.Some? && user.None?
    ensures r.Ok? ==> SelectedCourse(form) == Some(r.value)
  {
    if form.year.None? || form.semester.None? then Err(YearAndSemesterMissing)
    else match SelectedCourse(form)
      case None => Err(CourseMissing)
      case Some(c) =>
        if pdfFile.None? then Err(PdfMissing)
        else if user.None? then Err(NotAuthenticated)
        else Ok(c)
  }

  /** Validation succeeds exactly when every field is filled in and a user is signed in. */
  lemma ValidateAcceptsExactlyCompleteForms(form: Form, pdfFile: Option<string>, user: Option<User>)
    ensures Validate(form, pdfFile, user).Ok? <==>
              && form.year.Some? && form.semester.Some? && SelectedCourse(form).Some?
              && pdfFile.Some? && user.Some?
  {
  }

  /** For a signed-in lecturer with year and semester chosen, the course list is empty
      exactly for a Computer Science lecturer in the 3rd year's 2nd semester. */
  lemma EmptyCourseList(form: Form, user: User)
    requires form.year.Some? && form.semester.Some?
    ensures FilteredCourses(Some(user), form) == [] <==>
              user.department == ComputerScience && form.year == Some(ThirdYear) && form.semester == Some(SecondSemester)
  {
    if user.department == ComputerScience && form.year == Some(ThirdYear) && form.semester == Some(SecondSemester) {
      NoComputingCoursesInThirdYearSecondSemester(form, user);
    } else {
      CoursesInEveryOtherSlot(form, user);
    }
  }

  lemma NoComputingCoursesInThirdYearSecondSemester(form: Form, user: User)
    requires user.department == ComputerScience && form.year == Some(ThirdYear) && form.semester == Some(SecondSemester)
    ensures FilteredCourses(Some(user), form) == []
  {
    var fs := FilteredCourses(Some(user), form);
    if |fs| > 0 {
      NoThirdYearSecondSemesterComputing(fs[0]);
    }
  }

  lemma CoursesInEveryOtherSlot(form: Form, user: User)
    requires form.year.Some? && form.semester.Some?
    requires !(user.department == ComputerScience && form.year == Some(ThirdYear) && form.semester == Some(SecondSemester))
    ensures FilteredCourses(Some(user), form) != []
  {
    var d, y, s := user.department, form.year.value, form.semester.value;
    var c := SlotHasCourse(d, y, s);
    assert c in FilteredCourses(Some(user), form);
  }

  /** Where the course list is empty, a form whose course matches the list has no
      course, so validation stops at "Please select a course". */
  lemma EmptyCourseListBlocksSubmit(form: Form, pdfFile: Option<string>, user: User)
    requires form.year.Some? && form.semester.Some?
    requires FilteredCourses(Some(user), form) == [] && CourseMatchesForm(Some(user), form)
    ensures Validate(form, pdfFile, Some(user)) == Err(CourseMissing)
  {
    SelectedCourseIsTheChosenOne(form, Course("", "", ComputerScience, FirstYear, FirstSemester));
  }

  /** The two submit buttons. */
  datatype SubmitKind = SaveAsDraft | SendForReview

  /** The status a submit asks for: a new paper starts as a draft or goes straight to
      moderation, never further. */
  function KindStatus(k: SubmitKind): (st: PaperStatus)
    ensures st == Draft || st == PendingModeration
    ensures st == Draft <==> k == SaveAsDraft
  {
    match k
    case SaveAsDraft => Draft
    case SendForReview => PendingModeration
  }

  /** One entry of a multipart form body. */
  datatype Field = Field(name: string, value: string)

  /** `FormData.get`: the value of the first entry with the name. */
  function FormGet(fields: seq<Field>, name: string): (r: Option<string>)
    ensures r.None? <==> forall i :: 0 <= i < |fields| ==> fields[i].name != name
    ensures r.Some? ==> exists i :: 0 <= i < |fields| && fields[i] == Field(name, r.value)
  {
    match Find(fields, (f: Field) => f.name == name)
    case None => None
    case Some(f) => Some(f.value)
  }

  /** `get` answers with the first entry of the name. */
  lemma {:induction false} FormGetFirst(fields: seq<Field>, name: string, k: nat)
    requires k < |fields| && fields[k].name == name
    requires forall j :: 0 <= j < k ==> fields[j].name != name
    ensures FormGet(fields, name) == Some(fields[k].value)
    decreases k
  {
    if k > 0 {
      FormGetFirst(fields[1..], name, k - 1);
    }
  }

  /** The request body as the source builds it. The course is named, but its code is
      not sent. */
  function PayloadAsWritten(year: Year, semester: Semester, course: Course, paperType: PaperType,
                            pdf: string, status: PaperStatus): seq<Field> {
    [ Field("year", YearLabel(year)), Field("semester", SemesterLabel(semester)),
      Field("courseName", course.name), Field("paperType", PaperTypeLabel(paperType)),
      Field("pdf", pdf), Field("status", StatusLabel(status)) ]
  }

  /** As written, the request carries no course code, so the server cannot record
      which course the paper belongs to. */
  lemma PayloadAsWrittenHasNoCourseCode(year: Year, semester: Semester, course: Course,
                                        paperType: PaperType, pdf: string, status: PaperStatus)
    ensures FormGet(PayloadAsWritten(year, semester, course, paperType, pdf, status), "courseCode").None?
  {
    var fs := PayloadAsWritten(year, semester, course, paperType, pdf, status);
    assert forall i :: 0 <= i < |fs| ==> fs[i].name[0] != 'c' || fs[i].name[6] == 'N';
  }

  /** The course entries of the body as written read back: the server sees the chosen
      year, semester and course name. */
  lemma PayloadAsWrittenNamesTheCourse(year: Year, semester: Semester, course: Course,
                                       paperType: PaperType, pdf: string, status: PaperStatus)
    ensures var fs := PayloadAsWritten(year, semester, course, paperType, pdf, status);
            && FormGet(fs, "year") == Some(YearLabel(year))
            && FormGet(fs, "semester") == Some(SemesterLabel(semester))
            && FormGet(fs, "courseName") == Some(course.name)
  {
    var fs := PayloadAsWritten(year, semester, course, paperType, pdf, status);
    assert fs[0].name[0] == 'y' && fs[1].name[0] == 's' && fs[2].name[0] == 'c';
    FormGetFirst(fs, "year", 0);
    FormGetFirst(fs, "semester", 1);
    FormGetFirst(fs, "courseName", 2);
  }

  /** The remaining entries of the body as written read back: the server sees the paper
      type, the file and the status. */
  lemma PayloadAsWrittenCarriesTheFile(year: Year, semester: Semester, course: Course,
                                       paperType: PaperType, pdf: string, status: PaperStatus)
    ensures var fs := PayloadAsWritten(year, semester, course, paperType, pdf, status);
            && FormGet(fs, "paperType") == Some(PaperTypeLabel(paperType))
            && FormGet(fs, "pdf") == Some(pdf)
            && FormGet(fs, "status") == Some(StatusLabel(status))
  {
    var fs := PayloadAsWritten(year, semester, course, paperType, pdf, status);
    assert fs[0].name[0] == 'y' && fs[1].name[0] == 's' && fs[2].name[0] == 'c';
    assert fs[3].name[0] == 'p' && fs[4].name[0] == 'p' && fs[5].name[0] == 's';
    assert fs[1].name[1] == 'e' && fs[5].name[1] == 't';
    assert |fs[3].name| == 9 && |fs[4].name| == 3;
    FormGetFirst(fs, "paperType", 3);
    FormGetFirst(fs, "pdf", 4);
    FormGetFirst(fs, "status", 5);
  }

  /** The request body with the validated course's code added. */
  function Payload(year: Year, semester: Semester, course: Course, paperType: PaperType,
                   pdf: string, status: PaperStatus): seq<Field> {
    PayloadAsWritten(year, semester, course, paperType, pdf, status) + [Field("courseCode", course.code)]
  }

  /** With the code sent, the server reads back the code, and the code names the
      validated catalogue course and no other. */
  lemma PayloadIdentifiesTheCourse(year: Year, semester: Semester, course: Course,
                                   paperType: PaperType, pdf: string, status: PaperStatus)
    requires course in COURSES
    ensures var fs := Payload(year, semester, course, paperType, pdf, status);
            && FormGet(fs, "courseCode") == Some(course.code)
            && SelectedCourse(Form(Some(year), Some(semester), course.code, paperType)) == Some(course)
            && FormGet(fs, "status") == Some(StatusLabel(status))
  {
    var written := PayloadAsWritten(year, semester, course, paperType, pdf, status);
    PayloadAsWrittenHasNoCourseCode(year, semester, course, paperType, pdf, status);
    PayloadAsWrittenCarriesTheFile(year, semester, course, paperType, pdf, status);
    FindAppend(written, [Field("courseCode", course.code)], (f: Field) => f.name == "courseCode");
    FindAppend(written, [Field("courseCode", course.code)], (f: Field) => f.name == "status");
    SelectedCourseIsTheChosenOne(Form(Some(year), Some(semester), course.code, paperType), course);
  }

  // The page.

  /** The page's state: the form, the chosen file, and the lecturer's list of papers. */
  datatype CreatePage = CreatePage(form: Form, pdfFile: Option<string>, papers: seq<PaperDoc>)

  datatype FormEvent =
    | ChooseYear(y: Year)
    | ChooseSemester(s: Semester)
    | ChooseCourse(code: string)
    | ChoosePaperType(t: PaperType)
    | ChoosePdf(file: Option<string>)

  /** The control is enabled and offers the value: the semester needs a year, the course
      needs both, and only the filtered courses are listed. */
  predicate Offered(pg: CreatePage, user: Option<User>, e: FormEvent) {
    match e
    case ChooseYear(_) => true
    case ChooseSemester(_) => pg.form.year.Some?
    case ChooseCourse(code) =>
      pg.form.year.Some? && pg.form.semester.Some?
      && exists c :: c in FilteredCourses(user, pg.form) && c.code == code
    case ChoosePaperType(_) => true
    case ChoosePdf(_) => true
  }

  /** The form after an input; changing year or semester clears the course. */
  function Input(pg: CreatePage, e: FormEvent): (r: CreatePage)
    ensures (e.ChooseYear? || e.ChooseSemester?) ==> r.form.courseCode == ""
    ensures r.papers == pg.papers
  {
    match e
    case ChooseYear(y) => pg.(form := pg.form.(year := Some(y), courseCode := ""))
    case ChooseSemester(s) => pg.(form := pg.form.(semester := Some(s), courseCode := ""))
    case ChooseCourse(code) => pg.(form := pg.form.(courseCode := code))
    case ChoosePaperType(t) => pg.(form := pg.form.(paperType := t))
    case ChoosePdf(f) => pg.(pdfFile := f)
  }

  /** The chosen code is empty or belongs to a course the filtered list offers. */
  ghost predicate CourseMatchesForm(user: Option<User>, form: Form) {
    form.courseCode == "" || exists c :: c in FilteredCourses(user, form) && c.code == form.courseCode
  }

  /** Every offered input keeps the chosen course consistent with the chosen year,
      semester and the user's department. */
  lemma InputKeepsCourseMatching(pg: CreatePage, user: Option<User>, e: FormEvent)
    requires CourseMatchesForm(user, pg.form) && Offered(pg, user, e)
    ensures CourseMatchesForm(user, Input(pg, e).form)
  {
    if e.ChoosePaperType? && pg.form.courseCode != "" {
      var c :| c in FilteredCourses(user, pg.form) && c.code == pg.form.courseCode;
      assert c in FilteredCourses(user, Input(pg, e).form);
    }
  }

  /** Hence a form that validates names a course of the user's department for the
      chosen year and semester. */
  lemma ValidatedCourseFitsForm(form: Form, pdfFile: Option<string>, user: Option<User>)
    requires CourseMatchesForm(user, form)
    requires Validate(form, pdfFile, user).Ok?
    ensures var c := Validate(form, pdfFile, user).value;
            && c.department == user.value.department
            && form.year == Some(c.year) && form.semester == Some(c.semester)
  {
    var c := Validate(form, pdfFile, user).value;
    CourseCodes.NoEmptyCourseCode();
    var d :| d in FilteredCourses(user, form) && d.code == form.courseCode;
    SelectedCourseIsTheChosenOne(form, d);
  }

  /** What a submit does: the page afterwards and the request it sent, if any. */
  datatype Submission = Submission(page: CreatePage, request: Option<seq<Field>>)

  /** `handleSubmit`: an invalid form sends nothing and changes nothing. A valid one
      sends the body as the page builds it, without the course code. When the server
      answers with the created paper, it is put at the head of the list and the form
      and file return to their initial values; when the request fails, the page stays
      as it was. */
  function HandleSubmit(pg: CreatePage, user: Option<User>, kind: SubmitKind, reply: Option<PaperDoc>): (r: Submission)
    ensures Validate(pg.form, pg.pdfFile, user).Err? ==> r.request.None? && r.page == pg
    ensures Validate(pg.form, pg.pdfFile, user).Ok? ==>
              r.request == Some(PayloadAsWritten(pg.form.year.value, pg.form.semester.value,
                                                 Validate(pg.form, pg.pdfFile, user).value, pg.form.paperType,
                                                 pg.pdfFile.value, KindStatus(kind)))
    ensures Validate(pg.form, pg.pdfFile, user).Ok? ==>
              && FormGet(r.request.value, "status") == Some(StatusLabel(KindStatus(kind)))
              && FormGet(r.request.value, "courseName") == Some(Validate(pg.form, pg.pdfFile, user).value.name)
    ensures Validate(pg.form, pg.pdfFile, user).Ok? && reply.Some? ==>
              && r.page.papers == [reply.value] + pg.papers
              && r.page.form == INITIAL_FORM && r.page.pdfFile.None?
    ensures reply.None? ==> r.page == pg
  {
    match Validate(pg.form, pg.pdfFile, user)
    case Err(_) => Submission(pg, None)
    case Ok(course) =>
      var body := PayloadAsWritten(pg.form.year.value, pg.form.semester.value, course, pg.form.paperType,
                                   pg.pdfFile.value, KindStatus(kind));
      PayloadAsWrittenNamesTheCourse(pg.form.year.value, pg.form.semester.value, course, pg.form.paperType,
                                     pg.pdfFile.value, KindStatus(kind));
      PayloadAsWrittenCarriesTheFile(pg.form.year.value, pg.form.semester.value, course, pg.form.paperType,
                                     pg.pdfFile.value, KindStatus(kind));
      match reply
      case None => Submission(pg, Some(body))
      case Some(created) => Submission(CreatePage(INITIAL_FORM, None, [created] + pg.papers), Some(body))
  }

  /** The initial form satisfies the course invariant, so after any offered inputs and
      a successful submit the form is back where it started. */
  lemma InitialFormIsConsistent(user: Option<User>)
    ensures CourseMatchesForm(user, INITIAL_FORM)
    ensures Validate(INITIAL_FORM, None, user) == Err(YearAndSemesterMissing)
  {
  }
}

=== FILE: http.dfy ===
/** The error answers of the Express handlers: a status code and a JSON `message`. */
module Http {

  datatype Failure = Failure(status: nat, message: string)

  /** The result of a database call the handlers await: a document, `null`, or a thrown
      error (a failed cast or a lost connection). */
  datatype Lookup<+T> = Found(doc: T) | Missing | Throws(message: string)
}

=== FILE: lecturer_dashboard.dfy ===
/** The lecturer's dashboard (frontend/src/components/dashboards/LecturerDashboard.tsx):
    the lecturer's own papers newest first, the three status buckets and their counts,
    the five most recent papers, and the optimistic update after "Submit". */
module LecturerDashboard {
  import opened Common
  import opened Seqs
  import opened Types
  import PaperDetail
  import Lifecycle

  /** Waiting for the lecturer. */
  const PENDING_STATUSES: seq<string> := ["draft", "revision_required"]
  /** Submitted, waiting for someone else. */
  const IN_PROGRESS_STATUSES: seq<string> := ["pending_moderation", "pending_approval"]
  /** Fully approved. */
  const APPROVED_STATUSES: seq<string> := ["approved", "printed"]

  predicate IsPending(p: PaperDoc) { p.status in PENDING_STATUSES }
  predicate IsInProgress(p: PaperDoc) { p.status in IN_PROGRESS_STATUSES }
  predicate IsApproved(p: PaperDoc) { p.status in APPROVED_STATUSES }

  function CreatedAt(p: PaperDoc): int { p.createdAt }

  /** The fetched list as the dashboard keeps it: the user's own papers, newest first. */
  function OwnPapers(docs: seq<PaperDoc>, userId: string): (r: seq<PaperDoc>)
    ensures forall p :: p in r <==> p in docs && p.lecturerId == userId
    ensures multiset(r) == multiset(Filter(docs, (p: PaperDoc) => p.lecturerId == userId))
    ensures SortedDesc(r, CreatedAt)
  {
    var own := Filter(docs, (p: PaperDoc) => p.lecturerId == userId);
    var r := SortDesc(own, CreatedAt);
    forall p ensures p in r <==> p in own {
      SameMultisetSameMembers(r, own, p);
    }
    r
  }

  datatype Stats = Stats(total: nat, pending: nat, inProgress: nat, approved: nat)

  /** `stats`: the list size and the size of each bucket. */
  function StatsOf(papers: seq<PaperDoc>): (s: Stats)
    ensures s.total == |papers|
    ensures s.pending == |Filter(papers, IsPending)|
    ensures s.inProgress == |Filter(papers, IsInProgress)|
    ensures s.approved == |Filter(papers, IsApproved)|
  {
    Stats(|papers|, Count(papers, IsPending), Count(papers, IsInProgress), Count(papers, IsApproved))
  }

  /** The buckets never overlap, so their counts add up to at most the total; the
      difference is the papers in no bucket, such as moderated and rejected ones. */
  lemma BucketsAreDisjoint(papers: seq<PaperDoc>)
    ensures forall p :: !(IsPending(p) && IsInProgress(p)) && !(IsPending(p) && IsApproved(p))
                        && !(IsInProgress(p) && IsApproved(p))
    ensures var s := StatsOf(papers); s.pending + s.inProgress + s.approved <= s.total
    ensures forall p: PaperDoc :: p.status in {"moderated", "rejected"} ==>
              !IsPending(p) && !IsInProgress(p) && !IsApproved(p)
  {
    var pi := (p: PaperDoc) => IsPending(p) || IsInProgress(p);
    var all := (p: PaperDoc) => IsPending(p) || IsInProgress(p) || IsApproved(p);
    CountDisjoint(papers, IsPending, IsInProgress, pi);
    CountDisjoint(papers, pi, IsApproved, all);
  }

  /** `recentPapers`: the first five, or all when there are fewer. */
  function RecentPapers(papers: seq<PaperDoc>): (r: seq<PaperDoc>)
    ensures |r| == Min(5, |papers|)
    ensures forall i :: 0 <= i < |r| ==> r[i] == papers[i]
  {
    Take(papers, 5)
  }

  /** The recent papers are the newest of the lecturer's papers: none left out is newer
      than any shown. */
  lemma RecentAreNewest(docs: seq<PaperDoc>, userId: string)
    ensures var own := OwnPapers(docs, userId);
            forall i, j :: 0 <= i < |RecentPapers(own)| <= j < |own| ==>
              RecentPapers(own)[i].createdAt >= own[j].createdAt
  {
  }

  /** The "Submit" button is shown for a paper exactly when it waits for the lecturer. */
  predicate SubmitOffered(p: PaperDoc) {
    IsPending(p)
  }

  /** The optimistic update after a successful `PATCH /:id/submit`. */
  function OptimisticSubmit(papers: seq<PaperDoc>, paperId: string): (r: seq<PaperDoc>)
    ensures |r| == |papers|
    ensures forall i :: 0 <= i < |papers| && papers[i].id == paperId ==>
              r[i] == papers[i].(status := "pending_moderation")
    ensures forall i :: 0 <= i < |papers| && papers[i].id != paperId ==> r[i] == papers[i]
  {
    Map(papers, (p: PaperDoc) => if p.id == paperId then p.(status := "pending_moderation") else p)
  }

  /** The optimistic update moves the submitted paper from the pending bucket to the
      in-progress bucket along the lifecycle's submit edge, and keeps the list's order
      and ids. */
  lemma OptimisticSubmitFollowsLifecycle(papers: seq<PaperDoc>, i: nat)
    requires i < |papers| && SubmitOffered(papers[i])
    ensures var r := OptimisticSubmit(papers, papers[i].id);
            && IsInProgress(r[i]) && !IsPending(r[i])
            && ParseStatus(papers[i].status).Some?
            && Lifecycle.Edge(ParseStatus(papers[i].status).value, ParseStatus(r[i].status).value)
            && forall k :: 0 <= k < |r| ==> r[k].id == papers[k].id
  {
  }

  /** A paper the lecturer may edit on its page is one the dashboard offers to submit. */
  lemma EditableMeansSubmittable(paper: Paper, user: User, doc: PaperDoc)
    requires PaperDetail.CanEdit(paper, Some(user))
    requires doc.status == StatusLabel(paper.status)
    ensures SubmitOffered(doc)
  {
  }
}

=== FILE: lifecycle.dfy ===
/** The paper lifecycle assembled from the page handlers: the actions the lecturer and
    examiner pages offer, the status edges they take, and what any sequence of them
    keeps: identity, an append-only audit trail, the version counter and the lock. */
module Lifecycle {
  import opened Common
  import opened Types
  import opened Records
  import opened PaperDetail
  import opened ReviewPaper
  import Storage
  import Text

  /** One user action on a paper that can save it. "Save Draft" is absent: as the
      button is wired it saves nothing on any page where it is shown
      (`PaperDetail.SaveDraftAsWrittenNeverSaves`). */
  datatype Action =
    | ReplacePdf(file: Option<string>)   // "Update PDF"
    | SubmitText(text: string)           // "Submit for Review"
    | SendToHead                         // `handleSendToHOD`
    | ModerateApprove(comment: string)   // "Approve"
    | AskRevision(comment: string)       // "Request Revision"

  /** The pages let the user reach the handler: the lecturer's controls need `canEdit`
      (the file controls for a PDF paper, the editor for a text paper), the examiner's
      need `canReview`. `handleSendToHOD` has no control and guards itself. */
  predicate Permitted(p: Paper, user: User, a: Action) {
    match a
    case ReplacePdf(_) => CanEdit(p, Some(user)) && IsPdf(p.content)
    case SubmitText(_) => CanEdit(p, Some(user)) && !IsPdf(p.content)
    case SendToHead => true
    case ModerateApprove(_) => CanReview(p, Some(user))
    case AskRevision(_) => CanReview(p, Some(user))
  }

  datatype StepError = Refused | Detail(d: DetailError) | Review(r: ReviewError)

  /** The paper after the action, or why nothing was saved. */
  function Step(p: Paper, user: User, a: Action, env: Env): Result<Paper, StepError> {
    if !Permitted(p, user, a) then Err(Refused)
    else
      match a
      case ReplacePdf(f) =>
        (match SavePdf(p, user, f, env) case Ok(q) => Ok(q) case Err(e) => Err(Detail(e)))
      case SubmitText(t) => Ok(SubmitForReview(p, user, t, env))
      case SendToHead =>
        (match SendToHod(p, user, env.now) case Ok(q) => Ok(q) case Err(e) => Err(Detail(e)))
      case ModerateApprove(c) => Ok(Approve(p, user, c, env))
      case AskRevision(c) =>
        (match RequestRevision(p, user, c, env) case Ok(q) => Ok(q) case Err(e) => Err(Review(e)))
  }

  /** The status changes present in the code. */
  predicate Edge(s: PaperStatus, t: PaperStatus) {
    || (s == Draft && t == PendingModeration)
    || (s == RevisionRequired && t == PendingModeration)
    || (s == PendingModeration && t == Moderated)
    || (s == PendingModeration && t == RevisionRequired)
    || (s == Moderated && t == PendingApproval)
  }

  /** A saved action either keeps the status or takes one edge; the paper keeps its
      identity and gains exactly one signature of the acting user. */
  lemma StepTakesAnEdge(p: Paper, user: User, a: Action, env: Env)
    requires Step(p, user, a, env).Ok?
    ensures var q := Step(p, user, a, env).value;
            && (q.status == p.status || Edge(p.status, q.status))
            && SameIdentity(p, q)
            && SignedOnce(p, q, user, env.now)
            && q.currentVersion >= p.currentVersion
  {
  }

  /** Each edge is taken by some action: the model's edges are exactly the code's. */
  lemma EveryEdgeIsTaken(p: Paper, user: User, t: PaperStatus, env: Env)
    requires Edge(p.status, t)
    requires p.status in {Draft, RevisionRequired} ==> CanEdit(p, Some(user)) && !IsPdf(p.content)
    requires p.status == PendingModeration ==> user.role == Examiner
    ensures exists a :: Step(p, user, a, env).Ok? && Step(p, user, a, env).value.status == t
  {
    if p.status in {Draft, RevisionRequired} {
      assert Step(p, user, SubmitText(p.content), env).value.status == t;
    } else if p.status == PendingModeration && t == Moderated {
      assert Step(p, user, ModerateApprove(""), env).value.status == t;
    } else if p.status == PendingModeration {
      assert !Text.AllSpace("feedback") by { assert !Text.IsSpace("feedback"[0]); }
      assert Step(p, user, AskRevision("feedback"), env).value.status == t;
    } else {
      assert Step(p, user, SendToHead, env).value.status == t;
    }
  }

  /** The statuses each status can lead to through the code's edges. */
  function ReachableFrom(s: PaperStatus): set<PaperStatus> {
    match s
    case Draft => {Draft, PendingModeration, Moderated, RevisionRequired, PendingApproval}
    case RevisionRequired => {RevisionRequired, PendingModeration, Moderated, PendingApproval}
    case PendingModeration => {PendingModeration, Moderated, RevisionRequired, PendingApproval}
    case Moderated => {Moderated, PendingApproval}
    case PendingApproval => {PendingApproval}
    case Approved => {Approved}
    case Rejected => {Rejected}
    case Printed => {Printed}
  }

  /** The reachable sets contain their start and are closed under the edges. */
  lemma ReachableIsClosed(s: PaperStatus, t: PaperStatus, u: PaperStatus)
    ensures s in ReachableFrom(s)
    ensures t in ReachableFrom(s) && Edge(t, u) ==> u in ReachableFrom(s)
  {
  }

  /** One action by one user with its fresh values. */
  datatype Move = Move(user: User, action: Action, env: Env)

  /** The paper after a sequence of moves; a move that is refused or stops early is
      skipped, as the page leaves the stored paper alone. */
  function Run(p: Paper, moves: seq<Move>): Paper
    decreases |moves|
  {
    if |moves| == 0 then p
    else
      var m := moves[0];
      var next := match Step(p, m.user, m.action, m.env) case Ok(q) => q case Err(_) => p;
      Run(next, moves[1..])
  }

  /** The number of moves in the sequence that were saved. */
  function Saved(p: Paper, moves: seq<Move>): nat
    decreases |moves|
  {
    if |moves| == 0 then 0
    else
      var m := moves[0];
      match Step(p, m.user, m.action, m.env)
      case Ok(q) => 1 + Saved(q, moves[1..])
      case Err(_) => Saved(p, moves[1..])
  }

  /** Along any run the paper keeps its identity, its status stays reachable from where
      it started, the version counter never goes down, and the audit trail only grows:
      the old trail is a prefix and there is one new signature per saved move. */
  lemma {:induction false} RunProperties(p: Paper, moves: seq<Move>)
    ensures var r := Run(p, moves);
            && SameIdentity(p, r)
            && r.status in ReachableFrom(p.status)
            && r.currentVersion >= p.currentVersion
            && |r.signatures| == |p.signatures| + Saved(p, moves)
            && r.signatures[..|p.signatures|] == p.signatures
    decreases |moves|
  {
    if |moves| > 0 {
      var m := moves[0];
      match Step(p, m.user, m.action, m.env)
      case Ok(q) =>
        StepTakesAnEdge(p, m.user, m.action, m.env);
        RunProperties(q, moves[1..]);
        var r := Run(q, moves[1..]);
        ReachableIsClosed(p.status, p.status, q.status);
        ReachableSubset(p.status, q.status);
        assert r.signatures[..|p.signatures|] == r.signatures[..|q.signatures|][..|p.signatures|];
      case Err(_) =>
        RunProperties(p, moves[1..]);
    }
  }

  /** Reachability is transitive along one edge. */
  lemma ReachableSubset(s: PaperStatus, t: PaperStatus)
    requires t == s || Edge(s, t)
    ensures ReachableFrom(t) <= ReachableFrom(s)
  {
  }

  /** No page action ever produces `approved`, `rejected` or `printed`: from any other
      status, no run reaches them. */
  lemma {:induction false} NoRunFinalises(p: Paper, moves: seq<Move>)
    requires p.status !in {Approved, Rejected, Printed}
    ensures Run(p, moves).status !in {Approved, Rejected, Printed}
  {
    RunProperties(p, moves);
  }

  /** What every stored paper keeps: the last revision names the current version, and
      a locked paper awaits approval. */
  ghost predicate Wellformed(p: Paper) {
    RevisionsTrackVersion(p) && (p.isLocked ==> p.status == PendingApproval)
  }

  lemma StepKeepsWellformed(p: Paper, user: User, a: Action, env: Env)
    requires Wellformed(p)
    requires Step(p, user, a, env).Ok?
    ensures Wellformed(Step(p, user, a, env).value)
  {
  }

  lemma {:induction false} RunKeepsWellformed(p: Paper, moves: seq<Move>)
    requires Wellformed(p)
    ensures Wellformed(Run(p, moves))
    decreases |moves|
  {
    if |moves| > 0 {
      var m := moves[0];
      match Step(p, m.user, m.action, m.env)
      case Ok(q) =>
        StepKeepsWellformed(p, m.user, m.action, m.env);
        RunKeepsWellformed(q, moves[1..]);
      case Err(_) =>
        RunKeepsWellformed(p, moves[1..]);
    }
  }

  /** A paper awaiting approval, or in any of the statuses no page produces, is out of
      reach of every page action. */
  lemma HandedOverPapersAreFrozen(p: Paper, user: User, a: Action, env: Env)
    requires p.status in {PendingApproval, Approved, Rejected, Printed}
    ensures Step(p, user, a, env).Err?
  {
  }

  /** The examiner's actions save only through `canReview`: a paper awaiting
      moderation, and an examiner acting. */
  lemma ReviewActionsNeedAnExaminer(p: Paper, user: User, a: Action, env: Env)
    requires a.ModerateApprove? || a.AskRevision?
    ensures Step(p, user, a, env).Ok? ==> p.status == PendingModeration && user.role == Examiner
    ensures a.ModerateApprove? ==> (Step(p, user, a, env).Ok? <==> CanReview(p, Some(user)))
  {
  }

  /** A lecturer action is permitted exactly when the page opened on the paper shows its
      first control, and the page run of those controls shows the paper the action
      produces: "Replace PDF" is choosing a file and clicking "Update PDF". */
  lemma ReplacePdfIsThePageRun(store: seq<Paper>, p: Paper, user: User, f: string, envs: seq<Env>)
    requires |envs| == 2
    ensures Permitted(p, user, ReplacePdf(Some(f))) <==> Rendered(Open(store, p), Some(user), ChooseFile(Some(f)))
    ensures Permitted(p, user, ReplacePdf(Some(f))) ==>
              PaperDetail.Run(Open(store, p), user, [ChooseFile(Some(f)), UpdatePdf], envs).paper
              == Step(p, user, ReplacePdf(Some(f)), envs[1]).value
  {
    var pg := Open(store, p);
    if Permitted(p, user, ReplacePdf(Some(f))) {
      var pg1 := PaperDetail.Step(pg, user, ChooseFile(Some(f)), envs[0]);
      assert pg1 == pg.(newPdfFile := Some(f));
      assert Rendered(pg1, Some(user), UpdatePdf);
      assert PaperDetail.Run(pg, user, [ChooseFile(Some(f)), UpdatePdf], envs)
             == PaperDetail.Run(pg1, user, [UpdatePdf], envs[1..]);
      assert PaperDetail.Run(pg1, user, [UpdatePdf], envs[1..])
             == PaperDetail.Run(PaperDetail.Step(pg1, user, UpdatePdf, envs[1]), user, [], []);
    }
  }

  /** "Submit for Review" is clicking "Edit Paper", typing the text and clicking
      "Submit for Review". */
  lemma SubmitTextIsThePageRun(store: seq<Paper>, p: Paper, user: User, t: string, envs: seq<Env>)
    requires |envs| == 3
    ensures Permitted(p, user, SubmitText(t)) <==> Rendered(Open(store, p), Some(user), StartEditing)
    ensures Permitted(p, user, SubmitText(t)) ==>
              PaperDetail.Run(Open(store, p), user, [StartEditing, EditText(t), Submit], envs).paper
              == Step(p, user, SubmitText(t), envs[2]).value
  {
    var pg := Open(store, p);
    if Permitted(p, user, SubmitText(t)) {
      var pg1 := pg.(isEditing := true);
      var pg2 := pg1.(editedContent := t);
      assert PaperDetail.Step(pg, user, StartEditing, envs[0]) == pg1;
      assert PaperDetail.Step(pg1, user, EditText(t), envs[1]) == pg2;
      assert PaperDetail.Run(pg, user, [StartEditing, EditText(t), Submit], envs)
             == PaperDetail.Run(pg1, user, [EditText(t), Submit], envs[1..]);
      assert PaperDetail.Run(pg1, user, [EditText(t), Submit], envs[1..])
             == PaperDetail.Run(pg2, user, [Submit], envs[2..]);
      assert PaperDetail.Run(pg2, user, [Submit], envs[2..])
             == PaperDetail.Run(PaperDetail.Step(pg2, user, Submit, envs[2]), user, [], []);
    }
  }

  /** The page's round trip through the store: load the paper by id, act, save. An
      unknown id or an unsaved action leaves the store alone. */
  function Commit(store: seq<Paper>, id: string, user: User, a: Action, env: Env): (r: seq<Paper>)
    ensures |r| == |store|
    ensures forall other :: other != id ==> Storage.GetPaperById(r, other) == Storage.GetPaperById(store, other)
  {
    match Storage.GetPaperById(store, id)
    case None => store
    case Some(p) =>
      match Step(p, user, a, env)
      case Err(_) => store
      case Ok(q) =>
        StepTakesAnEdge(p, user, a, env);
        forall other | other != id
          ensures Storage.GetPaperById(Storage.SavePaper(store, q), other) == Storage.GetPaperById(store, other)
        {
          Storage.SaveKeepsOtherIds(store, q, other);
        }
        Storage.SavePaper(store, q)
  }

  /** After a saved action the store answers the id with the new paper. */
  lemma CommitThenGet(store: seq<Paper>, id: string, user: User, a: Action, env: Env)
    requires Storage.GetPaperById(store, id).Some?
    requires Step(Storage.GetPaperById(store, id).value, user, a, env).Ok?
    ensures Storage.GetPaperById(Commit(store, id, user, a, env), id)
            == Some(Step(Storage.GetPaperById(store, id).value, user, a, env).value)
  {
    var q := Step(Storage.GetPaperById(store, id).value, user, a, env).value;
    Storage.SaveThenGet(store, q);
  }
}

=== FILE: moderated_papers.dfy ===
/** The examiner's list of reviewed papers (frontend/src/pages/ModeratedPapers.tsx): the
    examiner's view of the store narrowed to the papers this examiner reviewed and that
    no longer await moderation. */
module ModeratedPapers {
  import opened Common
  import opened Seqs
  import opened Types
  import Storage

  /** The test line 11 applies to the examiner's view. */
  predicate Reviewed(q: Paper, examinerId: string) {
    q.examinerId == Some(examinerId) && q.status != PendingModeration
  }

  /** `moderatedPapers` */
  function ModeratedPapers(store: seq<Paper>, user: Option<User>): seq<Paper> {
    if user.None? then []
    else Filter(Storage.PapersByExaminer(store, user.value.id, user.value.department),
                (q: Paper) => Reviewed(q, user.value.id))
  }

  /** The two filters in a row are one filter of the store: department, reviewed by this
      examiner, and past moderation. Hence the list keeps store order, and each listed
      paper is in the user's department, names the user as examiner, and does not await
      moderation; every such paper of the store is listed. */
  lemma ModeratedIsOneFilter(store: seq<Paper>, user: User)
    ensures ModeratedPapers(store, Some(user))
            == Filter(store, (q: Paper) => q.department == user.department && Reviewed(q, user.id))
    ensures IsSubsequence(ModeratedPapers(store, Some(user)), store)
    ensures forall q :: q in ModeratedPapers(store, Some(user)) <==>
              q in store && q.department == user.department
              && q.examinerId == Some(user.id) && q.status != PendingModeration
  {
    FilterFilter(store,
                 (q: Paper) => q.department == user.department
                               && (q.status == PendingModeration || q.examinerId == Some(user.id)),
                 (q: Paper) => Reviewed(q, user.id),
                 (q: Paper) => q.department == user.department && Reviewed(q, user.id));
  }

  /** What the page shows: the empty notice, or one card per paper in list order. */
  datatype Screen = NothingModeratedYet | Cards(ids: seq<string>)

  function Render(papers: seq<Paper>): (s: Screen)
    ensures s.NothingModeratedYet? <==> |papers| == 0
    ensures s.Cards? ==> |s.ids| == |papers| && forall i :: 0 <= i < |papers| ==> s.ids[i] == papers[i].id
  {
    if |papers| == 0 then NothingModeratedYet else Cards(Map(papers, (q: Paper) => q.id))
  }
}

=== FILE: multer_config.dfy ===
/** The shared upload middleware (backend/src/config/multer.js): a `paperFile` and a
    `signatureFile` part at most, PDF or image types only, 10 MB per file, kept under a
    sanitised, timestamped name in the directory of its field. */
module MulterConfig {
  import opened Common
  import opened Text
  import opened Uploads

  /** The two upload directories under `uploads/` in the server's working directory. */
  datatype Dir = PapersDir | SignaturesDir

  datatype UploadError =
    | UnexpectedFile(field: string)    // multer's LIMIT_UNEXPECTED_FILE
    | TypeNotAllowed(message: string)  // the error the file filter passes on
    | FileTooLarge(field: string)      // multer's LIMIT_FILE_SIZE

  /** `limits.fileSize`: 10 MiB. */
  const MAX_FILE_SIZE: nat := 10 * 1024 * 1024

  const ALLOWED_TYPES: seq<string> := ["application/pdf", "image/png", "image/jpeg"]

  /** The storage's `destination` callback: by field name only. */
  function Destination(field: string): (r: Result<Dir, UploadError>)
    ensures r == Ok(PapersDir) <==> field == "paperFile"
    ensures r == Ok(SignaturesDir) <==> field == "signatureFile"
    ensures r.Err? <==> field != "paperFile" && field != "signatureFile"
    ensures r.Err? ==> r.error == UnexpectedFile(field)
  {
    if field == "paperFile" then Ok(PapersDir)
    else if field == "signatureFile" then Ok(SignaturesDir)
    else Err(UnexpectedFile(field))
  }

  /** A character of the regular-expression class `[\w.-]` (ASCII `\w`, no `u` flag). */
  predicate IsSafe(c: char) {
    ('a' <= c <= 'z') || ('A' <= c <= 'Z') || ('0' <= c <= '9') || c == '_' || c == '.' || c == '-'
  }

  predicate AllSafe(s: string) {
    forall i :: 0 <= i < |s| ==> IsSafe(s[i])
  }

  /** `s.replace(/\s+/g, "_")`: each maximal run of whitespace becomes one underscore. */
  function CollapseSpaces(s: string): (r: string)
    ensures forall i :: 0 <= i < |r| ==> !IsSpace(r[i])
    ensures |r| <= |s|
    decreases |s|
  {
    if |s| == 0 then ""
    else if IsSpace(s[0]) then "_" + CollapseSpaces(TrimStart(s[1..]))
    else [s[0]] + CollapseSpaces(s[1..])
  }

  /** `s.replace(/[^\w.-]/g, "")`: drops every character outside the safe class. */
  function DropUnsafe(s: string): (r: string)
    ensures AllSafe(r) && |r| <= |s|
    ensures forall c :: c in r <==> c in s && IsSafe(c)
  {
    if |s| == 0 then ""
    else if IsSafe(s[0]) then [s[0]] + DropUnsafe(s[1..])
    else DropUnsafe(s[1..])
  }

  /** The `safeName` of the `filename` callback. */
  function Sanitize(name: string): (r: string)
    ensures AllSafe(r) && |r| <= |name|
  {
    DropUnsafe(CollapseSpaces(name))
  }

  lemma {:induction false} CollapseSpacesWithoutSpaces(s: string)
    requires forall i :: 0 <= i < |s| ==> !IsSpace(s[i])
    ensures CollapseSpaces(s) == s
    decreases |s|
  {
    if |s| > 0 {
      CollapseSpacesWithoutSpaces(s[1..]);
      assert s == [s[0]] + s[1..];
    }
  }

  lemma {:induction false} DropUnsafeOfSafe(s: string)
    requires AllSafe(s)
    ensures DropUnsafe(s) == s
    decreases |s|
  {
    if |s| > 0 {
      DropUnsafeOfSafe(s[1..]);
      assert s == [s[0]] + s[1..];
    }
  }

  /** Safe characters are never whitespace. */
  lemma SafeIsNotSpace(c: char)
    requires IsSafe(c)
    ensures !IsSpace(c)
  {
  }

  /** A name is left unchanged exactly when it is made of safe characters only. */
  lemma SanitizeFixesExactlySafeNames(name: string)
    ensures Sanitize(name) == name <==> AllSafe(name)
  {
    if AllSafe(name) {
      forall i | 0 <= i < |name| ensures !IsSpace(name[i]) {
        SafeIsNotSpace(name[i]);
      }
      CollapseSpacesWithoutSpaces(name);
      DropUnsafeOfSafe(name);
    }
  }

  /** A sanitised name has no whitespace, only safe characters, and sanitising it again
      changes nothing. */
  lemma SanitizeIsIdempotent(name: string)
    ensures AllSafe(Sanitize(name))
    ensures forall i :: 0 <= i < |Sanitize(name)| ==> !IsSpace(Sanitize(name)[i])
    ensures Sanitize(Sanitize(name)) == Sanitize(name)
  {
    SanitizeFixesExactlySafeNames(Sanitize(name));
  }

  /** The `fileFilter`: exactly the three allowed MIME types pass. */
  function FileFilter(mimeType: string): (r: Result<(), UploadError>)
    ensures r.Ok? <==> mimeType == "application/pdf" || mimeType == "image/png" || mimeType == "image/jpeg"
    ensures r.Err? ==> r.error == TypeNotAllowed("Only PDF and image files are allowed")
  {
    if mimeType !in ALLOWED_TYPES then Err(TypeNotAllowed("Only PDF and image files are allowed"))
    else Ok(())
  }

  /** The file as it is kept: directory, stored name, and size. */
  datatype StoredFile = StoredFile(field: string, dir: Dir, fileName: string, size: nat)

  /** How many more files each field of `.fields([...])` admits. */
  const FIELD_LIMITS: map<string, nat> := map["paperFile" := 1, "signatureFile" := 1]

  /** One file part through multer: a part with an empty file name is skipped
      (`Ok(None)`); a named part meets the field check of `.fields()` first, then the
      filter, then the storage callbacks, then the size limit while the bytes stream. */
  function AcceptFile(left: map<string, nat>, f: IncomingFile, now: nat): (r: Result<Option<StoredFile>, UploadError>)
    ensures f.originalName == "" ==> r == Ok(None)
    ensures f.originalName != "" && (f.field !in left || left[f.field] == 0) ==> r == Err(UnexpectedFile(f.field))
    ensures f.originalName != "" && f.field in left && left[f.field] > 0 && FileFilter(f.mimeType).Err?
            ==> r == Err(FileFilter(f.mimeType).error)
    ensures r.Ok? <==> f.originalName == "" || (f.field in left && left[f.field] > 0 && FileFilter(f.mimeType).Ok?
                                                && f.size <= MAX_FILE_SIZE && Destination(f.field).Ok?)
    ensures r.Ok? && r.value.Some? ==> r.value.value.field == f.field && f.originalName != ""
  {
    if f.originalName == "" then Ok(None)
    else if f.field !in left || left[f.field] == 0 then Err(UnexpectedFile(f.field))
    else match FileFilter(f.mimeType)
      case Err(e) => Err(e)
      case Ok(_) =>
        match Destination(f.field)
        case Err(e) => Err(e)
        case Ok(dir) =>
          if f.size > MAX_FILE_SIZE then Err(FileTooLarge(f.field))
          else Ok(Some(StoredFile(f.field, dir, TimestampedName(now, Sanitize(f.originalName)), f.size)))
  }

  /** The whole request: parts in arrival order, the first failure ends it; one file is
      kept per named part. */
  function UploadFiles(left: map<string, nat>, files: seq<IncomingFile>, now: nat): (r: Result<seq<StoredFile>, UploadError>)
    ensures r.Ok? ==> |r.value| == |NamedParts(files)|
    decreases |files|
  {
    if |files| == 0 then Ok([])
    else
      match AcceptFile(left, files[0], now)
      case Err(e) => Err(e)
      case Ok(None) =>
        assert NamedParts(files) == NamedParts(files[1..]);
        UploadFiles(left, files[1..], now)
      case Ok(Some(s)) =>
        assert NamedParts(files) == [files[0]] + NamedParts(files[1..]);
        match UploadFiles(left[files[0].field := left[files[0].field] - 1], files[1..], now)
        case Err(e) => Err(e)
        case Ok(rest) => Ok([s] + rest)
  }

  /** A leading part without a file name is skipped. */
  lemma UploadSkipsUnnamed(left: map<string, nat>, files: seq<IncomingFile>, now: nat)
    requires |files| > 0 && files[0].originalName == ""
    ensures UploadFiles(left, files, now) == UploadFiles(left, files[1..], now)
  {
  }

  /** Two requests that start with the same named part end alike when their remainders
      do under the count that part leaves. */
  lemma UploadSameHead(left: map<string, nat>, a: seq<IncomingFile>, b: seq<IncomingFile>, now: nat)
    requires |a| > 0 && |b| > 0 && a[0] == b[0] && a[0].originalName != ""
    requires AcceptFile(left, a[0], now).Ok? ==>
               UploadFiles(left[a[0].field := left[a[0].field] - 1], a[1..], now)
               == UploadFiles(left[a[0].field := left[a[0].field] - 1], b[1..], now)
    ensures UploadFiles(left, a, now) == UploadFiles(left, b, now)
  {
  }

  /** Parts with an empty file name make no difference to the outcome. */
  lemma {:induction false} UnnamedPartsAreIgnored(left: map<string, nat>, files: seq<IncomingFile>, now: nat)
    ensures UploadFiles(left, files, now) == UploadFiles(left, NamedParts(files), now)
    decreases |files|
  {
    if |files| > 0 {
      var f := files[0];
      var named := NamedParts(files);
      if f.originalName == "" {
        assert named == NamedParts(files[1..]);
        UploadSkipsUnnamed(left, files, now);
        UnnamedPartsAreIgnored(left, files[1..], now);
      } else {
        assert named == [f] + NamedParts(files[1..]);
        assert named[0] == f && named[1..] == NamedParts(files[1..]);
        if AcceptFile(left, f, now).Ok? {
          UnnamedPartsAreIgnored(left[f.field := left[f.field] - 1], files[1..], now);
        }
        UploadSameHead(left, files, named, now);
      }
    }
  }

  /** The field check runs before the storage, so with the configured fields the
      `destination` callback never sees an unknown field: its error branch is dead code,
      and a file that passes the field check and the filter fails only on its size. */
  lemma DestinationNeverFails(left: map<string, nat>, f: IncomingFile, now: nat)
    requires left.Keys <= FIELD_LIMITS.Keys
    requires f.field in left && left[f.field] > 0 && FileFilter(f.mimeType).Ok?
    ensures AcceptFile(left, f, now).Err? <==> f.originalName != "" && f.size > MAX_FILE_SIZE
    ensures AcceptFile(left, f, now).Err? ==> AcceptFile(left, f, now).error == FileTooLarge(f.field)
  {
  }

  /** The number of files in `files` sent in field `field`. */
  function CountField(files: seq<IncomingFile>, field: string): nat {
    if |files| == 0 then 0 else (if files[0].field == field then 1 else 0) + CountField(files[1..], field)
  }

  /** One step of an accepted request: an unnamed first part is skipped; a named one is
      kept, uses up one place of its field, and the rest is accepted too. */
  lemma AcceptedStep(left: map<string, nat>, files: seq<IncomingFile>, now: nat)
    requires |files| > 0 && UploadFiles(left, files, now).Ok?
    ensures files[0].originalName == "" ==>
              && UploadFiles(left, files[1..], now) == UploadFiles(left, files, now)
              && NamedParts(files) == NamedParts(files[1..])
    ensures files[0].originalName != "" ==>
              var f := files[0];
              && f.field in left && left[f.field] > 0
              && AcceptFile(left, f, now).Ok? && AcceptFile(left, f, now).value.Some?
              && var left' := left[f.field := left[f.field] - 1];
              && UploadFiles(left', files[1..], now).Ok?
              && UploadFiles(left, files, now).value
                 == [AcceptFile(left, f, now).value.value] + UploadFiles(left', files[1..], now).value
              && NamedParts(files) == [f] + NamedParts(files[1..])
  {
  }

  /** An accepted request has no more named files in a field than the field admits,
      and none in a field not listed. */
  lemma {:induction false} AcceptedUploadsRespectMaxCount(left: map<string, nat>, files: seq<IncomingFile>, now: nat)
    requires UploadFiles(left, files, now).Ok?
    ensures forall field :: field in left ==> CountField(NamedParts(files), field) <= left[field]
    ensures forall field :: field !in left ==> CountField(NamedParts(files), field) == 0
    decreases |files|
  {
    if |files| > 0 {
      var f := files[0];
      AcceptedStep(left, files, now);
      if f.originalName == "" {
        AcceptedUploadsRespectMaxCount(left, files[1..], now);
      } else {
        var left' := left[f.field := left[f.field] - 1];
        AcceptedUploadsRespectMaxCount(left', files[1..], now);
        var named := NamedParts(files);
        assert named[1..] == NamedParts(files[1..]);
      }
    }
  }

  /** The files of an accepted request match its named parts one to one, in order: each
      is of an allowed type, at most 10 MiB, and kept in its field's directory under a
      timestamped safe name. */
  lemma {:induction false} AcceptedUploads(left: map<string, nat>, files: seq<IncomingFile>, now: nat)
    requires UploadFiles(left, files, now).Ok?
    ensures var named := NamedParts(files);
            forall k :: 0 <= k < |named| ==>
              var s := UploadFiles(left, files, now).value[k];
              && s.field == named[k].field && FileFilter(named[k].mimeType).Ok?
              && s.size == named[k].size <= MAX_FILE_SIZE
              && Destination(named[k].field) == Ok(s.dir)
              && s.fileName == TimestampedName(now, Sanitize(named[k].originalName))
    decreases |files|
  {
    if |files| > 0 {
      var f := files[0];
      AcceptedStep(left, files, now);
      if f.originalName == "" {
        AcceptedUploads(left, files[1..], now);
      } else {
        var left' := left[f.field := left[f.field] - 1];
        var rest := UploadFiles(left', files[1..], now).value;
        var all := UploadFiles(left, files, now).value;
        var named := NamedParts(files);
        assert named[1..] == NamedParts(files[1..]) && all[1..] == rest;
        AcceptedUploads(left', files[1..], now);
      }
    }
  }

  /** With the configured fields: at most one named paper file and one named signature
      file. */
  lemma AtMostOneFilePerField(files: seq<IncomingFile>, now: nat)
    requires UploadFiles(FIELD_LIMITS, files, now).Ok?
    ensures CountField(NamedParts(files), "paperFile") <= 1 && CountField(NamedParts(files), "signatureFile") <= 1
    ensures forall field :: field != "paperFile" && field != "signatureFile" ==> CountField(NamedParts(files), field) == 0
  {
    AcceptedUploadsRespectMaxCount(FIELD_LIMITS, files, now);
    assert FIELD_LIMITS.Keys == {"paperFile", "signatureFile"};
    assert FIELD_LIMITS["paperFile"] == 1 && FIELD_LIMITS["signatureFile"] == 1;
  }
}

=== FILE: paper_detail.dfy ===
/** The lecturer's paper page (frontend/src/pages/PaperDetail.tsx): who may edit, the
    three record transitions (replace the PDF, submit for review, send to the head of
    department), and the page's own state: the text being edited, the chosen file and
    the edit mode, with the controls the page renders for each state. */
module PaperDetail {
  import opened Common
  import opened Text
  import opened Types
  import opened Records
  import Storage

  /** `canEdit`: the signed-in user owns the paper, it is a draft or was sent back for
      revision, and it is not locked. */
  predicate CanEdit(paper: Paper, user: Option<User>) {
    && user.Some? && paper.lecturerId == user.value.id
    && (paper.status == Draft || paper.status == RevisionRequired)
    && !paper.isLocked
  }

  /** `isPdf`: the content names a file whose extension is `.pdf` in any letter case. */
  predicate IsPdf(content: string) {
    EndsWith(ToLower(content), ".pdf")
  }

  /** Why a handler stopped without saving. */
  datatype DetailError =
    | NoPdfSelected   // "Please select a PDF file"
    | NotModerated    // `handleSendToHOD` returns silently

  /** `handleSavePdf`: with no chosen file nothing is saved; otherwise the file name
      becomes the content of a new version, signed by the user, and the status, lock
      and review fields stay as they were. */
  function SavePdf(paper: Paper, user: User, file: Option<string>, env: Env): (r: Result<Paper, DetailError>)
    ensures r.Err? <==> file.None?
    ensures r.Err? ==> r.error == NoPdfSelected
    ensures r.Ok? ==>
              && SameIdentity(paper, r.value) && SameReview(paper, r.value)
              && r.value.status == paper.status && r.value.isLocked == paper.isLocked
              && NewVersion(paper, r.value, file.value, file.value, env)
              && SignedOnce(paper, r.value, user, env.now)
              && LastAction(r.value) == "Updated PDF to version " + IntToString(r.value.currentVersion)
              && r.value.updatedAt == env.now
  {
    match file
    case None => Err(NoPdfSelected)
    case Some(name) =>
      var v := paper.currentVersion + 1;
      Ok(paper.(
        content := name,
        currentVersion := v,
        revisions := paper.revisions + [Revision(env.uuid, name, env.now, v)],
        signatures := paper.signatures + [Sign(user, env.now, "Updated PDF to version " + IntToString(v))],
        updatedAt := env.now))
  }

  /** `handleSubmitForReview`: the edited text becomes the content of a new version and
      the paper goes to moderation. The revision records the old file name when the
      paper was a PDF and the edited text otherwise. */
  function SubmitForReview(paper: Paper, user: User, editedContent: string, env: Env): (r: Paper)
    ensures SameIdentity(paper, r) && SameReview(paper, r) && r.isLocked == paper.isLocked
    ensures r.status == PendingModeration
    ensures NewVersion(paper, r, editedContent, if IsPdf(paper.content) then paper.content else editedContent, env)
    ensures SignedOnce(paper, r, user, env.now)
    ensures LastAction(r) == "Submitted version " + IntToString(r.currentVersion) + " for review"
    ensures r.updatedAt == env.now
  {
    var v := paper.currentVersion + 1;
    paper.(
      content := editedContent,
      status := PendingModeration,
      currentVersion := v,
      revisions := paper.revisions + [Revision(env.uuid, if IsPdf(paper.content) then paper.content else editedContent, env.now, v)],
      signatures := paper.signatures + [Sign(user, env.now, "Submitted version " + IntToString(v) + " for review")],
      updatedAt := env.now)
  }

  /** `handleSendToHOD`: only a moderated paper moves on; it then awaits approval, is
      locked, and carries one more signature. Content and review fields stay. */
  function SendToHod(paper: Paper, user: User, now: string): (r: Result<Paper, DetailError>)
    ensures r.Err? <==> paper.status != Moderated
    ensures r.Err? ==> r.error == NotModerated
    ensures r.Ok? ==>
              && SameIdentity(paper, r.value) && SameReview(paper, r.value) && SameVersioning(paper, r.value)
              && r.value.status == PendingApproval && r.value.isLocked
              && SignedOnce(paper, r.value, user, now)
              && LastAction(r.value) == "Submitted to HOD for approval"
              && r.value.updatedAt == now
  {
    if paper.status != Moderated then Err(NotModerated)
    else
      Ok(paper.(
        status := PendingApproval,
        isLocked := true,
        signatures := paper.signatures + [Sign(user, now, "Submitted to HOD for approval")],
        updatedAt := now))
  }

  /** Once sent to the head of department, nobody can edit the paper any more. */
  lemma SentPaperIsNotEditable(paper: Paper, user: User, now: string, anyone: Option<User>)
    requires SendToHod(paper, user, now).Ok?
    ensures !CanEdit(SendToHod(paper, user, now).value, anyone)
  {
  }

  /** Every transition keeps the last revision's number equal to the version counter. */
  lemma TransitionsKeepRevisionsTracking(paper: Paper, user: User, file: Option<string>, text: string, env: Env)
    requires RevisionsTrackVersion(paper)
    ensures SavePdf(paper, user, file, env).Ok? ==> RevisionsTrackVersion(SavePdf(paper, user, file, env).value)
    ensures RevisionsTrackVersion(SubmitForReview(paper, user, text, env))
    ensures SendToHod(paper, user, env.now).Ok? ==> RevisionsTrackVersion(SendToHod(paper, user, env.now).value)
  {
  }

  // The page.

  /** The page's state: the paper as last loaded or saved, the store, the text in the
      editor, the chosen file, and whether the editor is open. */
  datatype Page = Page(
    store: seq<Paper>,
    paper: Paper,
    editedContent: string,
    newPdfFile: Option<string>,
    isEditing: bool)

  /** What the signed-in lecturer can do on the page. */
  datatype Event =
    | StartEditing             // "Edit Paper"
    | ChooseFile(file: Option<string>)  // the file input of "Replace PDF"
    | UpdatePdf                // "Update PDF"
    | EditText(text: string)   // typing in the editor
    | CancelEditing            // "Cancel"
    | SaveDraft                // "Save Draft"
    | Submit                   // "Submit for Review"

  /** Opening the page for a stored paper: the editor holds the content, no file, closed. */
  function Open(store: seq<Paper>, paper: Paper): (pg: Page)
    ensures pg.paper == paper && pg.editedContent == paper.content
    ensures pg.newPdfFile.None? && !pg.isEditing
  {
    Page(store, paper, paper.content, None, false)
  }

  /** The control for the event is on screen. */
  predicate Rendered(pg: Page, user: Option<User>, e: Event) {
    var pdf := IsPdf(pg.paper.content);
    var edit := CanEdit(pg.paper, user);
    match e
    case StartEditing => edit && !pg.isEditing && !pdf
    case ChooseFile(_) => pdf && edit
    case UpdatePdf => pdf && edit && pg.newPdfFile.Some?
    case EditText(_) => !pdf && pg.isEditing
    case CancelEditing => !pdf && pg.isEditing
    case SaveDraft => !pdf && pg.isEditing
    case Submit => !pdf && pg.isEditing
  }

  /** `handleSavePdf` as the page runs it: on success the store and the page take the
      saved paper and the chosen file is cleared; otherwise nothing changes. */
  function RunSavePdf(pg: Page, user: User, env: Env): (r: Result<Page, DetailError>)
    ensures r.Err? <==> pg.newPdfFile.None?
    ensures r.Ok? ==> r.value.paper == SavePdf(pg.paper, user, pg.newPdfFile, env).value
                      && r.value.newPdfFile.None? && r.value.isEditing == pg.isEditing
  {
    match SavePdf(pg.paper, user, pg.newPdfFile, env)
    case Err(e) => Err(e)
    case Ok(q) => Ok(pg.(store := Storage.SavePaper(pg.store, q), paper := q, newPdfFile := None))
  }

  /** `handleSubmitForReview` as the page runs it: saved, shown, editor closed. */
  function RunSubmit(pg: Page, user: User, env: Env): (r: Page)
    ensures r.paper == SubmitForReview(pg.paper, user, pg.editedContent, env) && !r.isEditing
    ensures r.newPdfFile == pg.newPdfFile
  {
    var q := SubmitForReview(pg.paper, user, pg.editedContent, env);
    pg.(store := Storage.SavePaper(pg.store, q), paper := q, isEditing := false)
  }

  /** "Save Draft" as the source wires it: the button runs `handleSavePdf`. */
  function SaveDraftAsWritten(pg: Page, user: User, env: Env): Result<Page, DetailError> {
    RunSavePdf(pg, user, env)
  }

  /** "Save Draft" as evidently intended: the edited text is saved as a new version of
      the draft, signed, and the editor closes; status and lock stay as they were. */
  function SaveTextDraft(paper: Paper, user: User, editedContent: string, env: Env): (r: Paper)
    ensures SameIdentity(paper, r) && SameReview(paper, r)
    ensures r.status == paper.status && r.isLocked == paper.isLocked
    ensures NewVersion(paper, r, editedContent, editedContent, env)
    ensures SignedOnce(paper, r, user, env.now)
    ensures LastAction(r) == "Saved draft version " + IntToString(r.currentVersion)
    ensures r.updatedAt == env.now
  {
    var v := paper.currentVersion + 1;
    paper.(
      content := editedContent,
      currentVersion := v,
      revisions := paper.revisions + [Revision(env.uuid, editedContent, env.now, v)],
      signatures := paper.signatures + [Sign(user, env.now, "Saved draft version " + IntToString(v))],
      updatedAt := env.now)
  }

  /** The page after an event whose control is rendered. A handler that stops early
      leaves the page as it was. "Save Draft" runs `handleSavePdf`, as the button is
      wired. Only the three saving controls touch the store or the shown paper, and
      "Save Draft" without a chosen file changes nothing. */
  function Step(pg: Page, user: User, e: Event, env: Env): (r: Page)
    requires Rendered(pg, Some(user), e)
    ensures r.paper.id == pg.paper.id && r.paper.lecturerId == pg.paper.lecturerId
    ensures !(e.UpdatePdf? || e.SaveDraft? || e.Submit?) ==> r.store == pg.store && r.paper == pg.paper
    ensures e.SaveDraft? && pg.newPdfFile.None? ==> r == pg
    ensures e.Submit? ==> r.paper.status == PendingModeration && !r.isEditing
  {
    match e
    case StartEditing => pg.(isEditing := true)
    case ChooseFile(f) => pg.(newPdfFile := f)
    case UpdatePdf =>
      (match RunSavePdf(pg, user, env) case Ok(p2) => p2 case Err(_) => pg)
    case EditText(t) => pg.(editedContent := t)
    case CancelEditing => pg.(isEditing := false, editedContent := pg.paper.content)
    case SaveDraft =>
      (match SaveDraftAsWritten(pg, user, env) case Ok(p2) => p2 case Err(_) => pg)
    case Submit => RunSubmit(pg, user, env)
  }

  /** What every reachable page satisfies: the editor is open only for a text paper,
      and a file is chosen only for a PDF paper. */
  ghost predicate PageInvariant(pg: Page) {
    && (pg.isEditing ==> !IsPdf(pg.paper.content))
    && (pg.newPdfFile.Some? ==> IsPdf(pg.paper.content))
  }

  lemma OpenEstablishesInvariant(store: seq<Paper>, paper: Paper)
    ensures PageInvariant(Open(store, paper))
  {
  }

  /** Every rendered control keeps the page invariant. */
  lemma StepKeepsInvariant(pg: Page, user: User, e: Event, env: Env)
    requires PageInvariant(pg) && Rendered(pg, Some(user), e)
    ensures PageInvariant(Step(pg, user, e, env))
  {
  }

  /** The page after a run of events, skipping any whose control is not on screen. */
  function Run(pg: Page, user: User, events: seq<Event>, envs: seq<Env>): Page
    requires |envs| == |events|
    decreases |events|
  {
    if |events| == 0 then pg
    else
      var next := if Rendered(pg, Some(user), events[0]) then Step(pg, user, events[0], envs[0]) else pg;
      Run(next, user, events[1..], envs[1..])
  }

  /** Every page reached from opening a stored paper satisfies the invariant. */
  lemma {:induction false} RunKeepsInvariant(pg: Page, user: User, events: seq<Event>, envs: seq<Env>)
    requires |envs| == |events|
    requires PageInvariant(pg)
    ensures PageInvariant(Run(pg, user, events, envs))
    decreases |events|
  {
    if |events| > 0 {
      if Rendered(pg, Some(user), events[0]) {
        StepKeepsInvariant(pg, user, events[0], envs[0]);
      }
      RunKeepsInvariant(
        if Rendered(pg, Some(user), events[0]) then Step(pg, user, events[0], envs[0]) else pg,
        user, events[1..], envs[1..]);
    }
  }

  /** As written, "Save Draft" never saves: on every reachable page where the button is
      shown no file is chosen, so `handleSavePdf` stops with "Please select a PDF file". */
  lemma SaveDraftAsWrittenNeverSaves(store: seq<Paper>, paper: Paper, user: User,
                                     events: seq<Event>, envs: seq<Env>, env: Env)
    requires |envs| == |events|
    requires Rendered(Run(Open(store, paper), user, events, envs), Some(user), SaveDraft)
    ensures SaveDraftAsWritten(Run(Open(store, paper), user, events, envs), user, env) == Err(NoPdfSelected)
  {
    OpenEstablishesInvariant(store, paper);
    RunKeepsInvariant(Open(store, paper), user, events, envs);
  }

  /** "Save Draft" on the page as evidently intended: the text draft is saved to the
      store and shown, and the editor closes. */
  function SaveDraftAsIntended(pg: Page, user: User, env: Env): Page {
    var q := SaveTextDraft(pg.paper, user, pg.editedContent, env);
    pg.(store := Storage.SavePaper(pg.store, q), paper := q, isEditing := false)
  }

  /** The intended "Save Draft" stores the edited text as the paper's new content, in
      the store as well as on the page, the lecturer can keep editing it, and the page
      invariant still holds. */
  lemma SaveDraftSavesEditedText(pg: Page, user: User, env: Env)
    requires PageInvariant(pg) && Rendered(pg, Some(user), SaveDraft)
    ensures var r := SaveDraftAsIntended(pg, user, env);
            && r.paper.content == pg.editedContent
            && r.paper.currentVersion == pg.paper.currentVersion + 1
            && Storage.GetPaperById(r.store, pg.paper.id) == Some(r.paper)
            && (CanEdit(pg.paper, Some(user)) ==> CanEdit(r.paper, Some(user)))
            && PageInvariant(r)
  {
    var r := SaveDraftAsIntended(pg, user, env);
    Storage.SaveThenGet(pg.store, r.paper);
  }
}

=== FILE: paper_routes.dfy ===
/** The paper router (backend/src/routes/paperRoutes.js): which handler a request reaches,
    and the middleware chain in front of it. Paths are the segments after the router's
    mount point; the controllers themselves are not modelled, only which of them runs. */
module PaperRoutes {
  import opened Common
  import opened Http
  import opened Uploads
  import opened AuthMiddleware

  datatype Verb = Get | Post | Patch | Delete

  /** A path pattern segment: a literal word, or the `:id` parameter. */
  datatype Segment = Word(word: string) | Param

  datatype Handler =
    | CreatePaper | SubmitPaper | UpdatePaper | DeletePaper
    | ExaminerModerate | HodApprove | MarkAsPrinted
    | GetAllPapers | GetPaperById

  /** One `router.<verb>(path, protect, [authorize(...roles)], [upload.single("pdf")], handler)`. */
  datatype Route = Route(verb: Verb, pattern: seq<Segment>, roles: Option<seq<string>>,
                         uploadsPdf: bool, handler: Handler)

  /** The routes in registration order. */
  const ROUTES: seq<Route> := [
    Route(Post, [], Some(["lecturer"]), true, CreatePaper),
    Route(Patch, [Param, Word("submit")], Some(["lecturer"]), false, SubmitPaper),
    Route(Patch, [Param], Some(["lecturer"]), true, UpdatePaper),
    Route(Delete, [Param], Some(["lecturer"]), false, DeletePaper),
    Route(Patch, [Param, Word("moderate")], Some(["examiner"]), false, ExaminerModerate),
    Route(Patch, [Param, Word("approve")], Some(["hod"]), false, HodApprove),
    Route(Patch, [Param, Word("print")], Some(["hod"]), false, MarkAsPrinted),
    Route(Get, [], None, false, GetAllPapers),
    Route(Get, [Param], None, false, GetPaperById)
  ]

  /** A named parameter matches any non-empty segment; a word only itself. */
  predicate SegmentMatches(g: Segment, s: string) {
    match g
    case Word(w) => s == w
    case Param => s != ""
  }

  predicate Matches(r: Route, verb: Verb, path: seq<string>) {
    && r.verb == verb
    && |r.pattern| == |path|
    && forall k :: 0 <= k < |path| ==> SegmentMatches(r.pattern[k], path[k])
  }

  /** Express tries the routes in order and the first that matches handles the request. */
  function FirstMatch(routes: seq<Route>, verb: Verb, path: seq<string>): (r: Option<nat>)
    ensures r.Some? ==> r.value < |routes| && Matches(routes[r.value], verb, path)
    ensures r.Some? ==> forall j :: 0 <= j < r.value ==> !Matches(routes[j], verb, path)
    ensures r.None? ==> forall j :: 0 <= j < |routes| ==> !Matches(routes[j], verb, path)
  {
    if |routes| == 0 then None
    else if Matches(routes[0], verb, path) then Some(0)
    else
      match FirstMatch(routes[1..], verb, path)
      case None => None
      case Some(i) => Some(i + 1)
  }

  /** The `:id` the path carries, when the route has one. */
  function IdParam(r: Route, path: seq<string>): Option<string> {
    if |r.pattern| > 0 && r.pattern[0] == Param && |path| > 0 then Some(path[0]) else None
  }

  /** The file `upload.single("pdf")` keeps on disk. */
  datatype StoredPdf = StoredPdf(originalName: string, fileName: string)

  /** `upload.single("pdf")` on a storage with no filter and no limits. Parts with an
      empty file name are skipped; of the rest there may be at most one, in the field
      `pdf`, and any other is multer's `LIMIT_UNEXPECTED_FILE`, which Express's default
      error handler answers with 500. The kept file is named
      `${Date.now()}-${file.originalname}`. */
  function SinglePdf(files: seq<IncomingFile>, now: nat): (r: Result<Option<StoredPdf>, Failure>)
    ensures r.Ok? <==>
              |NamedParts(files)| <= 1 && forall k :: 0 <= k < |NamedParts(files)| ==> NamedParts(files)[k].field == "pdf"
    ensures r.Err? ==> r.error == Failure(500, "Unexpected field")
    ensures r.Ok? ==> (r.value.None? <==> forall k :: 0 <= k < |files| ==> files[k].originalName == "")
    ensures r.Ok? && r.value.Some? ==>
              && |NamedParts(files)| == 1
              && var f := NamedParts(files)[0];
              && f in files && f.field == "pdf" && f.originalName != ""
              && r.value.value == StoredPdf(f.originalName, TimestampedName(now, f.originalName))
  {
    var named := NamedParts(files);
    if |named| == 0 then Ok(None)
    else if named[0].field != "pdf" || |named| > 1 then Err(Failure(500, "Unexpected field"))
    else Ok(Some(StoredPdf(named[0].originalName, TimestampedName(now, named[0].originalName))))
  }

  /** Only the named parts decide the upload. */
  lemma SinglePdfIgnoresUnnamedParts(files: seq<IncomingFile>, now: nat)
    ensures SinglePdf(files, now) == SinglePdf(NamedParts(files), now)
  {
    NamedPartsIdempotent(files);
  }

  datatype Request = Request(verb: Verb, path: seq<string>, authorization: Option<string>,
                             files: seq<IncomingFile>)

  datatype Outcome =
    | NoRoute
    | Refused(failure: Failure)
    | Reached(handler: Handler, user: AuthUser, id: Option<string>, pdf: Option<StoredPdf>)

  /** Routes the request and runs the chain `protect`, `authorize`, upload, handler;
      the first middleware that answers ends the request. */
  function Dispatch(req: Request, verify: string -> Option<string>,
                    findById: string -> Lookup<AuthUser>, now: nat): (o: Outcome)
    ensures o.NoRoute? <==> FirstMatch(ROUTES, req.verb, req.path).None?
    ensures o.Reached? ==> FirstMatch(ROUTES, req.verb, req.path) == Some(IndexOf(o.handler))
  {
    match FirstMatch(ROUTES, req.verb, req.path)
    case None => NoRoute
    case Some(i) =>
      var route := ROUTES[i];
      match Protect(req.authorization, verify, findById)
      case Err(f) => Refused(f)
      case Ok(user) =>
        var allowed := if route.roles.Some? then Authorize(route.roles.value, Some(user)) else Ok(user);
        if allowed.Err? then Refused(allowed.error)
        else
          var upload := if route.uploadsPdf then SinglePdf(req.files, now) else Ok(None);
          if upload.Err? then Refused(upload.error)
          else
            HandlersHaveOneRoute(i);
            Reached(route.handler, user, IdParam(route, req.path), upload.value)
  }

  /** The position of each handler's route in the table. */
  function IndexOf(h: Handler): (i: nat)
    ensures i < |ROUTES| && ROUTES[i].handler == h
  {
    match h
    case CreatePaper => 0
    case SubmitPaper => 1
    case UpdatePaper => 2
    case DeletePaper => 3
    case ExaminerModerate => 4
    case HodApprove => 5
    case MarkAsPrinted => 6
    case GetAllPapers => 7
    case GetPaperById => 8
  }

  /** Who may run each operation: the lecturer writes papers, the examiner moderates,
      the head of department approves and prints, and every signed-in user may read. */
  predicate Permits(h: Handler, role: string) {
    match h
    case CreatePaper | SubmitPaper | UpdatePaper | DeletePaper => role == "lecturer"
    case ExaminerModerate => role == "examiner"
    case HodApprove | MarkAsPrinted => role == "hod"
    case GetAllPapers | GetPaperById => true
  }

  /** The handler a method and path are meant for, read from the URL shape. */
  function Intended(verb: Verb, path: seq<string>): Option<Handler> {
    if |path| == 0 then
      match verb
      case Post => Some(CreatePaper)
      case Get => Some(GetAllPapers)
      case _ => None
    else if path[0] == "" || |path| > 2 then None
    else if |path| == 1 then
      match verb
      case Patch => Some(UpdatePaper)
      case Delete => Some(DeletePaper)
      case Get => Some(GetPaperById)
      case Post => None
    else if verb != Patch then None
    else if path[1] == "submit" then Some(SubmitPaper)
    else if path[1] == "moderate" then Some(ExaminerModerate)
    else if path[1] == "approve" then Some(HodApprove)
    else if path[1] == "print" then Some(MarkAsPrinted)
    else None
  }

  /** Each handler has exactly one route. */
  lemma HandlersHaveOneRoute(i: nat)
    requires i < |ROUTES|
    ensures IndexOf(ROUTES[i].handler) == i
  {
  }

  /** A route matches a request exactly when the URL is meant for its handler. */
  lemma MatchesIffIntended(i: nat, verb: Verb, path: seq<string>)
    requires i < |ROUTES|
    ensures Matches(ROUTES[i], verb, path) <==> Intended(verb, path) == Some(ROUTES[i].handler)
  {
    var r := ROUTES[i];
    if |path| == |r.pattern| && r.verb == verb {
      if |path| == 1 {
        assert Matches(r, verb, path) <==> SegmentMatches(r.pattern[0], path[0]);
      } else if |path| == 2 {
        assert Matches(r, verb, path) <==> SegmentMatches(r.pattern[0], path[0]) && SegmentMatches(r.pattern[1], path[1]);
      }
    }
  }

  /** The table sends every request to the handler its URL is meant for, and no two
      routes ever match the same request, so their order does not matter. */
  lemma RoutingFollowsUrlShape(verb: Verb, path: seq<string>)
    ensures match FirstMatch(ROUTES, verb, path)
            case None => Intended(verb, path).None?
            case Some(i) => Intended(verb, path) == Some(ROUTES[i].handler)
    ensures forall i, j :: 0 <= i < j < |ROUTES| && Matches(ROUTES[i], verb, path) ==> !Matches(ROUTES[j], verb, path)
  {
    forall i, j | 0 <= i < j < |ROUTES| && Matches(ROUTES[i], verb, path)
      ensures !Matches(ROUTES[j], verb, path)
    {
      MatchesIffIntended(i, verb, path);
      MatchesIffIntended(j, verb, path);
      HandlersHaveOneRoute(i);
      HandlersHaveOneRoute(j);
    }
    var m := FirstMatch(ROUTES, verb, path);
    if m.Some? {
      MatchesIffIntended(m.value, verb, path);
    } else if Intended(verb, path).Some? {
      MatchesIffIntended(IndexOf(Intended(verb, path).value), verb, path);
    }
  }

  /** A request reaches the route of `h` exactly when its URL is meant for `h`. */
  lemma RouteOfHandler(verb: Verb, path: seq<string>, h: Handler)
    ensures FirstMatch(ROUTES, verb, path) == Some(IndexOf(h)) <==> Intended(verb, path) == Some(h)
  {
    RoutingFollowsUrlShape(verb, path);
    var m := FirstMatch(ROUTES, verb, path);
    if Intended(verb, path) == Some(h) {
      HandlersHaveOneRoute(m.value);
    }
  }

  /** The role lists passed to `authorize` say the same as `Permits`. */
  lemma RoleListsAgreeWithPermits(h: Handler, role: string)
    ensures (ROUTES[IndexOf(h)].roles.None? || role in ROUTES[IndexOf(h)].roles.value) <==> Permits(h, role)
  {
  }

  /** `protect` runs before `authorize` on every route: a request that fails
      authentication is answered 401, never 403, whatever route it hits. */
  lemma UnauthenticatedIsNeverForbidden(req: Request, verify: string -> Option<string>,
                                        findById: string -> Lookup<AuthUser>, now: nat)
    requires Protect(req.authorization, verify, findById).Err?
    ensures Dispatch(req, verify, findById, now).NoRoute?
         || Dispatch(req, verify, findById, now).Refused?
    ensures Dispatch(req, verify, findById, now).Refused? ==> Dispatch(req, verify, findById, now).failure.status == 401
  {
  }

  /** A handler runs only for a signed-in user whose role it permits, on the URL it is
      meant for; and every such request with acceptable files reaches it. */
  lemma HandlersRunExactlyForPermittedRoles(req: Request, verify: string -> Option<string>,
                                            findById: string -> Lookup<AuthUser>, now: nat, h: Handler)
    ensures Dispatch(req, verify, findById, now).Reached? && Dispatch(req, verify, findById, now).handler == h
            <==>
            && Intended(req.verb, req.path) == Some(h)
            && Protect(req.authorization, verify, findById).Ok?
            && Permits(h, Protect(req.authorization, verify, findById).value.role)
            && (ROUTES[IndexOf(h)].uploadsPdf ==> SinglePdf(req.files, now).Ok?)
  {
    RouteOfHandler(req.verb, req.path, h);
    var u := Protect(req.authorization, verify, findById);
    if u.Ok? {
      RoleListsAgreeWithPermits(h, u.value.role);
    }
  }
}

=== FILE: paper_schema.dfy ===
/** The server's paper schema (backend/src/models/paperModel.js): ten string fields, two
    of them enumerations, and `draft` as the default status. */
module PaperSchema {
  import opened Common
  import opened Types
  import opened Schema

  datatype PaperInput = PaperInput(
    year: Value, semester: Value, courseCode: Value, courseName: Value, paperType: Value,
    department: Value, lecturerId: Value, lecturerName: Value, status: Value, pdfUrl: Value)

  /** One failed enum validator: the path and the value it refused. */
  datatype EnumError = EnumError(path: string, value: string)

  const PAPER_TYPES: seq<string> := ["exam", "assessment"]
  const STATUSES: seq<string> := ["draft", "pending_moderation", "approved"]

  /** The document as saved: defaults applied, then every validator run, the errors of
      all failing paths reported together in schema order. */
  function CreatePaperDoc(input: PaperInput): (r: Result<PaperInput, seq<EnumError>>)
    ensures r.Ok? <==> EnumAccepts(PAPER_TYPES, input.paperType)
                       && EnumAccepts(STATUSES, WithDefault(input.status, Text("draft")))
    ensures r.Ok? ==> r.value == input.(status := WithDefault(input.status, Text("draft")))
    ensures r.Err? ==> 1 <= |r.error| <= 2
    ensures !EnumAccepts(PAPER_TYPES, input.paperType) ==> r.Err? && EnumError("paperType", input.paperType.text) in r.error
    ensures !EnumAccepts(STATUSES, input.status) ==> r.Err? && EnumError("status", input.status.text) in r.error
    ensures r.Err? ==> forall err :: err in r.error ==>
              || (err.path == "paperType" && input.paperType == Text(err.value) && !EnumAccepts(PAPER_TYPES, input.paperType))
              || (err.path == "status" && input.status == Text(err.value) && !EnumAccepts(STATUSES, input.status))
  {
    var doc := input.(status := WithDefault(input.status, Text("draft")));
    var typeErrors := if EnumAccepts(PAPER_TYPES, doc.paperType) then [] else [EnumError("paperType", doc.paperType.text)];
    var statusErrors := if EnumAccepts(STATUSES, doc.status) then [] else [EnumError("status", doc.status.text)];
    if typeErrors + statusErrors == [] then Ok(doc) else Err(typeErrors + statusErrors)
  }

  /** A paper created without a status is a draft. */
  lemma DefaultStatusIsDraft(input: PaperInput)
    requires input.status.Absent? && EnumAccepts(PAPER_TYPES, input.paperType)
    ensures CreatePaperDoc(input).Ok? && CreatePaperDoc(input).value.status == Text("draft")
  {
  }

  /** Of the eight statuses the client's workflow knows, the server stores only three:
      every other one is refused by the schema. */
  lemma ServerStoresThreeOfTheWorkflowStatuses(st: PaperStatus, input: PaperInput)
    requires input.status == Text(StatusLabel(st)) && EnumAccepts(PAPER_TYPES, input.paperType)
    ensures CreatePaperDoc(input).Ok? <==> st == Draft || st == PendingModeration || st == Approved
  {
  }
}

=== FILE: pending_approval.dfy ===
/** The head of department's queue (frontend/src/pages/PendingApproval.tsx): the head's
    view of the store narrowed to the papers awaiting approval. */
module PendingApproval {
  import opened Common
  import opened Seqs
  import opened Types
  import Storage

  /** `pendingPapers` */
  function PendingPapers(store: seq<Paper>, user: Option<User>): seq<Paper> {
    if user.None? then []
    else Filter(Storage.PapersForHod(store, user.value.department), (q: Paper) => q.status == PendingApproval)
  }

  /** The queue is the store filtered by the department and `pending_approval`, in store
      order; each queued paper is in the user's department and awaits approval. */
  lemma PendingIsOneFilter(store: seq<Paper>, user: User)
    ensures PendingPapers(store, Some(user))
            == Filter(store, (q: Paper) => q.department == user.department && q.status == PendingApproval)
    ensures IsSubsequence(PendingPapers(store, Some(user)), store)
    ensures forall q :: q in PendingPapers(store, Some(user)) <==>
              q in store && q.department == user.department && q.status == PendingApproval
  {
    FilterFilter(store,
                 (q: Paper) => q.department == user.department && Storage.HodVisible(q.status),
                 (q: Paper) => q.status == PendingApproval,
                 (q: Paper) => q.department == user.department && q.status == PendingApproval);
  }

  /** What the page shows: "All caught up!", or one linked card per queued paper. */
  datatype Screen = AllCaughtUp | Cards(links: seq<string>)

  function Render(papers: seq<Paper>): (s: Screen)
    ensures s.AllCaughtUp? <==> |papers| == 0
    ensures s.Cards? ==> |s.links| == |papers|
    ensures s.Cards? ==> forall i :: 0 <= i < |papers| ==> s.links[i] == "/dashboard/approval/" + papers[i].id
  {
    if |papers| == 0 then AllCaughtUp
    else Cards(Map(papers, (q: Paper) => "/dashboard/approval/" + q.id))
  }
}

=== FILE: records.dfy ===
/** Relations between a paper before and after a handler, shared by the lecturer and
    examiner pages: which groups of fields a handler leaves alone, what a new version
    looks like, and what one more signature looks like. */
module Records {
  import opened Common
  import opened Types

  /** The values a handler draws from its surroundings: a fresh `uuidv4()` and the
      current time as `new Date().toISOString()`. */
  datatype Env = Env(uuid: string, now: string)

  /** The signature a handler appends for the signed-in user. */
  function Sign(user: User, now: string, action: string): Signature {
    Signature(user.id, user.fullName, user.role, now, action)
  }

  /** The fields no handler touches: identity, course, owner and creation time. */
  predicate SameIdentity(a: Paper, b: Paper) {
    && a.id == b.id
    && a.courseCode == b.courseCode && a.courseName == b.courseName
    && a.department == b.department && a.year == b.year && a.semester == b.semester
    && a.paperType == b.paperType
    && a.lecturerId == b.lecturerId && a.lecturerName == b.lecturerName
    && a.createdAt == b.createdAt
  }

  /** The fields only the examiner's actions touch. */
  predicate SameReview(a: Paper, b: Paper) {
    a.examinerId == b.examinerId && a.examinerName == b.examinerName
    && a.moderationComments == b.moderationComments
  }

  /** The fields only the lecturer's content actions touch. */
  predicate SameVersioning(a: Paper, b: Paper) {
    a.content == b.content && a.currentVersion == b.currentVersion && a.revisions == b.revisions
  }

  /** `b` is `a` with one more version: the content is `content`, the counter went up by
      one, and one revision carrying the new number and `saved` was appended. */
  predicate NewVersion(a: Paper, b: Paper, content: string, saved: string, env: Env) {
    && b.content == content
    && b.currentVersion == a.currentVersion + 1
    && b.revisions == a.revisions + [Revision(env.uuid, saved, env.now, b.currentVersion)]
  }

  /** `b`'s audit trail is `a`'s followed by exactly one signature of `user` at `now`. */
  predicate SignedOnce(a: Paper, b: Paper, user: User, now: string) {
    && |b.signatures| == |a.signatures| + 1
    && b.signatures[..|a.signatures|] == a.signatures
    && var s := b.signatures[|a.signatures|];
       s.userId == user.id && s.userName == user.fullName && s.role == user.role && s.timestamp == now
  }

  /** The action text of the last signature. */
  function LastAction(p: Paper): string
    requires |p.signatures| > 0
  {
    p.signatures[|p.signatures| - 1].action
  }

  /** The last revision carries the current version number. Every handler keeps this. */
  predicate RevisionsTrackVersion(p: Paper) {
    |p.revisions| > 0 ==> p.revisions[|p.revisions| - 1].version == p.currentVersion
  }
}

=== FILE: register.dfy ===
/** The sign-up form (frontend/src/pages/Register.tsx): the role choices, the browser's
    own form check, and the two checks `handleSubmit` makes before the registration
    request is sent. */
module Register {
  import opened Common
  import opened Seqs
  import opened Types
  import opened Text

  datatype RoleChoice = RoleChoice(value: UserRole, caption: string)

  /** `ROLES`: the options of the role select. */
  const ROLES: seq<RoleChoice> := [
    RoleChoice(Lecturer, "Lecturer"),
    RoleChoice(Examiner, "2nd Examiner"),
    RoleChoice(Hod, "Head of Department (HOD)")
  ]

  /** The roles the select offers, in order. */
  function RoleValues(choices: seq<RoleChoice>): (rs: seq<UserRole>)
    ensures |rs| == |choices| && forall i :: 0 <= i < |choices| ==> rs[i] == choices[i].value
  {
    if |choices| == 0 then [] else [choices[0].value] + RoleValues(choices[1..])
  }

  /** The select offers every role exactly once, in the order of the role type. */
  lemma RolesListEveryRoleOnce()
    ensures RoleValues(ROLES) == ALL_ROLES
    ensures Distinct(RoleValues(ROLES))
    ensures forall r: UserRole :: r in RoleValues(ROLES)
  {
    RoleAndPaperTypeAreClosed();
    assert RoleValues(ROLES) == ALL_ROLES;
  }

  /** JavaScript's `length`: UTF-16 code units, so a character outside the Basic
      Multilingual Plane counts twice. */
  function Utf16Length(s: string): (n: nat)
    ensures |s| <= n <= 2 * |s|
  {
    if |s| == 0 then 0
    else (if s[0] as int >= 0x10000 then 2 else 1) + Utf16Length(s[1..])
  }

  /** The form as the inputs report it; role and department are the selected labels,
      empty when unset. */
  datatype RegisterForm = RegisterForm(
    fullName: string, email: string, password: string, confirmPassword: string,
    role: string, department: string)

  /** The JSON body of `POST /register`. */
  datatype RegisterBody = RegisterBody(name: string, email: string, password: string, role: string, department: string)

  datatype RegisterError =
    | BrowserBlocked     // the browser's own form check failed, so `handleSubmit` never runs
    | PasswordsDiffer    // "Passwords do not match"
    | PasswordTooShort   // "Password must be at least 6 characters"

  predicate IsAsciiAlnum(c: char) {
    'a' <= c <= 'z' || 'A' <= c <= 'Z' || '0' <= c <= '9'
  }

  /** A character the local part of a valid e-mail address may use. */
  predicate IsLocalChar(c: char) {
    IsAsciiAlnum(c) || c in ".!#$%&'*+/=?^_`{|}~-"
  }

  /** One label of an e-mail domain: 1 to 63 letters, digits and hyphens, beginning and
      ending with a letter or digit. */
  predicate IsLabel(s: string) {
    && 1 <= |s| <= 63 && IsAsciiAlnum(s[0]) && IsAsciiAlnum(s[|s| - 1])
    && forall i :: 0 <= i < |s| ==> IsAsciiAlnum(s[i]) || s[i] == '-'
  }

  /** A valid e-mail address as the Email state of the input element defines it (section
      4.10.5.1.5 of the HTML Living Standard): a non-empty local part, exactly one `@`,
      and a domain of one or more dot-separated labels. */
  predicate IsValidEmail(s: string) {
    var parts := Split(s, '@');
    && |parts| == 2
    && |parts[0]| >= 1 && (forall i :: 0 <= i < |parts[0]| ==> IsLocalChar(parts[0][i]))
    && var labels := Split(parts[1], '.');
       forall k :: 0 <= k < |labels| ==> IsLabel(labels[k])
  }

  /** The browser's constraint validation: the four typed fields are `required` and the
      e-mail input has `type="email"`. Unless it passes, the form's submit event never
      fires. The two selects carry no constraint. */
  predicate BrowserAccepts(form: RegisterForm) {
    && form.fullName != "" && form.email != "" && form.password != "" && form.confirmPassword != ""
    && IsValidEmail(form.email)
  }

  /** A submit attempt up to the request: the browser's check comes first, then
      `handleSubmit` reports a mismatch before a password shorter than six code units;
      otherwise the body sent carries the form's fields, and no confirmation field. */
  function Submit(form: RegisterForm): (r: Result<RegisterBody, RegisterError>)
    ensures r == Err(BrowserBlocked) <==> !BrowserAccepts(form)
    ensures r == Err(PasswordsDiffer) <==> BrowserAccepts(form) && form.password != form.confirmPassword
    ensures r == Err(PasswordTooShort) <==>
              BrowserAccepts(form) && form.password == form.confirmPassword && Utf16Length(form.password) < 6
    ensures r.Ok? ==> r.value == RegisterBody(form.fullName, form.email, form.password, form.role, form.department)
    ensures r.Ok? ==> r.value.name != "" && IsValidEmail(r.value.email)
  {
    if !BrowserAccepts(form) then Err(BrowserBlocked)
    else if form.password != form.confirmPassword then Err(PasswordsDiffer)
    else if Utf16Length(form.password) < 6 then Err(PasswordTooShort)
    else Ok(RegisterBody(form.fullName, form.email, form.password, form.role, form.department))
  }

  /** On a form the browser lets through, six characters always pass the length check
      and fewer than three never do; in between it depends on how many characters need
      two code units. */
  lemma LengthCheckBounds(form: RegisterForm)
    requires form.password == form.confirmPassword
    ensures |form.password| >= 6 ==> (Submit(form).Ok? <==> BrowserAccepts(form))
    ensures |form.password| < 3 ==>
              Submit(form) == (if BrowserAccepts(form) then Err(PasswordTooShort) else Err(BrowserBlocked))
  {
  }

  /** A local part of allowed characters, `@` and a one-label host make a valid address. */
  lemma SimpleAddressIsValid(local: string, host: string)
    requires |local| >= 1 && forall i :: 0 <= i < |local| ==> IsLocalChar(local[i])
    requires IsLabel(host)
    ensures IsValidEmail(local + ['@'] + host)
  {
    assert '@' !in local by {
      forall i | 0 <= i < |local| ensures local[i] != '@' {
        assert IsLocalChar(local[i]);
      }
    }
    assert '@' !in host && '.' !in host;
    SplitAtFirstSeparator(local, '@', host);
    SplitWithoutSeparator(host, '@');
    SplitWithoutSeparator(host, '.');
  }

  /** The address "a@b" passes the browser's e-mail check: a domain needs no dot. */
  lemma SampleEmailIsValid()
    ensures IsValidEmail("a@b")
  {
    SimpleAddressIsValid("a", "b");
    assert "a@b" == "a" + ['@'] + "b";
  }

  /** Three emoji pass the check although they are three characters. */
  lemma AstralCharactersCountTwice()
    ensures var pw := "\U{1F600}\U{1F600}\U{1F600}";
            |pw| == 3 && Submit(RegisterForm("Ann", "a@b", pw, pw, "", "")).Ok?
  {
    SampleEmailIsValid();
  }

  /** A blank field or an address without `@` is stopped by the browser: no message is
      shown and nothing is sent. */
  lemma BrowserStopsIncompleteForms(form: RegisterForm)
    ensures form.fullName == "" || form.password == "" ==> Submit(form) == Err(BrowserBlocked)
    ensures '@' !in form.email ==> Submit(form) == Err(BrowserBlocked)
  {
    if '@' !in form.email {
      assert |Split(form.email, '@')| == 1 by { SplitWithoutSeparator(form.email, '@'); }
    }
  }
}

=== FILE: repository.dfy ===
/** The department's paper repository page (frontend/src/pages/Repository.tsx): the
    final papers narrowed by year, semester, type and a search text, then grouped by
    "year - semester" in order of first appearance. */
module Repository {
  import opened Common
  import opened Text
  import opened Seqs
  import opened Types
  import Storage

  /** The filter controls; an unset select and an empty search filter nothing. */
  datatype Filters = Filters(year: Option<Year>, semester: Option<Semester>, search: string, paperType: Option<PaperType>)

  const NO_FILTERS: Filters := Filters(None, None, "", None)

  /** `allPapers`: the department's repository, empty without a signed-in user. */
  function AllPapers(store: seq<Paper>, user: Option<User>): (r: seq<Paper>)
    ensures user.None? ==> r == []
    ensures user.Some? ==> r == Storage.RepositoryPapers(store, user.value.department)
  {
    if user.Some? then Storage.RepositoryPapers(store, user.value.department) else []
  }

  /** The search text occurs, ignoring ASCII letter case, in the code or the name. */
  predicate MatchesSearch(paper: Paper, search: string) {
    var q := ToLower(search);
    Includes(ToLower(paper.courseCode), q) || Includes(ToLower(paper.courseName), q)
  }

  /** The test `filteredPapers` applies to each paper, in the source's order. */
  predicate Keep(f: Filters, paper: Paper) {
    if f.year.Some? && paper.year != f.year.value then false
    else if f.semester.Some? && paper.semester != f.semester.value then false
    else if f.paperType.Some? && paper.paperType != f.paperType.value then false
    else if f.search != "" then MatchesSearch(paper, f.search)
    else true
  }

  /** `filteredPapers`: the kept papers in their order; never more than all of them. */
  function FilteredPapers(all: seq<Paper>, f: Filters): (r: seq<Paper>)
    ensures IsSubsequence(r, all) && |r| <= |all|
    ensures forall q :: q in r <==> q in all && Keep(f, q)
  {
    Filter(all, (q: Paper) => Keep(f, q))
  }

  /** With every filter unset, all papers are shown. */
  lemma NoFiltersShowsAll(all: seq<Paper>)
    ensures FilteredPapers(all, NO_FILTERS) == all
  {
    FilterAll(all, (q: Paper) => Keep(NO_FILTERS, q));
  }

  /** A set filter holds for every shown paper, and a set search text occurs in every
      shown paper's code or name. */
  lemma ShownPapersMatchFilters(all: seq<Paper>, f: Filters)
    ensures forall q :: q in FilteredPapers(all, f) ==>
              && (f.year.Some? ==> q.year == f.year.value)
              && (f.semester.Some? ==> q.semester == f.semester.value)
              && (f.paperType.Some? ==> q.paperType == f.paperType.value)
              && (f.search != "" ==> MatchesSearch(q, f.search))
  {
  }

  /** A paper that passes the select filters is shown exactly when the lower-cased
      search text occurs at some position of its lower-cased code or name. */
  lemma SearchIsSubstringMatch(all: seq<Paper>, f: Filters, q: Paper)
    requires q in all && f.search != ""
    requires f.year.None? || q.year == f.year.value
    requires f.semester.None? || q.semester == f.semester.value
    requires f.paperType.None? || q.paperType == f.paperType.value
    ensures q in FilteredPapers(all, f) <==>
              || (exists i :: OccursAt(ToLower(q.courseCode), ToLower(f.search), i))
              || (exists i :: OccursAt(ToLower(q.courseName), ToLower(f.search), i))
  {
    IncludesIffOccurs(ToLower(q.courseCode), ToLower(f.search));
    IncludesIffOccurs(ToLower(q.courseName), ToLower(f.search));
  }

  /** The heading of a group. */
  function GroupKey(paper: Paper): string {
    YearLabel(paper.year) + " - " + SemesterLabel(paper.semester)
  }

  datatype Group = Group(key: string, papers: seq<Paper>)

  /** The group headings in order. */
  function Keys(gs: seq<Group>): (ks: seq<string>)
    ensures |ks| == |gs| && forall i :: 0 <= i < |gs| ==> ks[i] == gs[i].key
  {
    if |gs| == 0 then [] else [gs[0].key] + Keys(gs[1..])
  }

  function TotalSize(gs: seq<Group>): nat {
    if |gs| == 0 then 0 else |gs[0].papers| + TotalSize(gs[1..])
  }

  ghost predicate DistinctKeys(gs: seq<Group>) {
    forall i, j :: 0 <= i < j < |gs| ==> gs[i].key != gs[j].key
  }

  /** One step of the `reduce`: the paper joins the first group of its key, or a new
      group at the end when the key is new. */
  function AddToGroup(gs: seq<Group>, p: Paper): (r: seq<Group>)
    ensures GroupKey(p) in Keys(gs) ==> Keys(r) == Keys(gs)
    ensures GroupKey(p) !in Keys(gs) ==> Keys(r) == Keys(gs) + [GroupKey(p)]
    decreases |gs|
  {
    if |gs| == 0 then [Group(GroupKey(p), [p])]
    else if gs[0].key == GroupKey(p) then
      var r := [gs[0].(papers := gs[0].papers + [p])] + gs[1..];
      assert r[1..] == gs[1..];
      r
    else
      var rest := AddToGroup(gs[1..], p);
      assert ([gs[0]] + rest)[1..] == rest;
      [gs[0]] + rest
  }

  /** Adding a paper keeps the keys distinct. */
  lemma AddToGroupKeepsKeysDistinct(gs: seq<Group>, p: Paper)
    requires DistinctKeys(gs)
    ensures DistinctKeys(AddToGroup(gs, p))
  {
    var r := AddToGroup(gs, p);
    forall i, j | 0 <= i < j < |r| ensures r[i].key != r[j].key {
      assert Keys(r)[i] == r[i].key && Keys(r)[j] == r[j].key;
      if j < |gs| {
        assert Keys(r)[i] == Keys(gs)[i] && Keys(r)[j] == Keys(gs)[j];
      } else {
        assert Keys(r)[i] == Keys(gs)[i];
        assert Keys(gs)[i] in Keys(gs);
      }
    }
  }

  /** With distinct keys, the paper is appended to the one group of its key, or starts
      a new last group; every other group is unchanged. */
  lemma {:induction false} AddToGroupPapers(gs: seq<Group>, p: Paper)
    requires DistinctKeys(gs)
    ensures forall i :: 0 <= i < |gs| ==>
              AddToGroup(gs, p)[i].papers == gs[i].papers + (if gs[i].key == GroupKey(p) then [p] else [])
    ensures GroupKey(p) !in Keys(gs) ==> AddToGroup(gs, p)[|gs|].papers == [p]
    decreases |gs|
  {
    if |gs| > 0 {
      var r := AddToGroup(gs, p);
      if gs[0].key == GroupKey(p) {
        assert r[1..] == gs[1..];
      } else {
        AddToGroupPapers(gs[1..], p);
        assert r[1..] == AddToGroup(gs[1..], p);
        assert Keys(gs)[1..] == Keys(gs[1..]);
      }
    }
  }

  /** Adding a paper adds one to the total size of the groups. */
  lemma {:induction false} AddToGroupSize(gs: seq<Group>, p: Paper)
    ensures TotalSize(AddToGroup(gs, p)) == TotalSize(gs) + 1
    decreases |gs|
  {
    if |gs| > 0 {
      var r := AddToGroup(gs, p);
      if gs[0].key == GroupKey(p) {
        assert r[1..] == gs[1..];
      } else {
        AddToGroupSize(gs[1..], p);
        assert r[1..] == AddToGroup(gs[1..], p);
      }
    }
  }

  /** `groupedPapers`: the papers folded into groups from first to last. The keys are
      distinct and the group sizes add up to the number of papers. */
  function GroupPapers(ps: seq<Paper>): (r: seq<Group>)
    ensures DistinctKeys(r)
    ensures TotalSize(r) == |ps|
    decreases |ps|
  {
    if |ps| == 0 then []
    else
      var gs := GroupPapers(ps[..|ps| - 1]);
      AddToGroupKeepsKeysDistinct(gs, ps[|ps| - 1]);
      AddToGroupSize(gs, ps[|ps| - 1]);
      AddToGroup(gs, ps[|ps| - 1])
  }

  /** A key has a group exactly when some paper has that key. */
  lemma {:induction false} GroupKeysArePaperKeys(ps: seq<Paper>)
    ensures forall q :: q in ps ==> GroupKey(q) in Keys(GroupPapers(ps))
    ensures forall k :: k in Keys(GroupPapers(ps)) ==> exists q :: q in ps && GroupKey(q) == k
    decreases |ps|
  {
    if |ps| > 0 {
      var init := ps[..|ps| - 1];
      var x := ps[|ps| - 1];
      assert ps == init + [x];
      GroupKeysArePaperKeys(init);
      var gs := GroupPapers(init);
      var r := GroupPapers(ps);
      forall q | q in ps ensures GroupKey(q) in Keys(r) {
        if q != x {
          assert q in init;
        }
      }
      forall k | k in Keys(r) ensures exists q :: q in ps && GroupKey(q) == k {
        if k in Keys(gs) {
          var q :| q in init && GroupKey(q) == k;
          assert q in ps;
        } else {
          assert k == GroupKey(x);
        }
      }
    }
  }

  /** No paper of `s` has key `k`, so filtering by `k` leaves nothing. */
  lemma FilterByAbsentKey(s: seq<Paper>, k: string)
    requires forall q :: q in s ==> GroupKey(q) != k
    ensures Filter(s, (q: Paper) => GroupKey(q) == k) == []
  {
  }

  /** Each group holds exactly the papers with its key, in their original order. */
  lemma {:induction false} GroupsAreFilters(ps: seq<Paper>)
    ensures forall i :: 0 <= i < |GroupPapers(ps)| ==>
              GroupPapers(ps)[i].papers == Filter(ps, (q: Paper) => GroupKey(q) == GroupPapers(ps)[i].key)
    decreases |ps|
  {
    if |ps| > 0 {
      var init := ps[..|ps| - 1];
      var x := ps[|ps| - 1];
      assert ps == init + [x];
      GroupsAreFilters(init);
      var gs := GroupPapers(init);
      var r := GroupPapers(ps);
      forall i | 0 <= i < |r|
        ensures r[i].papers == Filter(ps, (q: Paper) => GroupKey(q) == r[i].key)
      {
        FilterSnoc(init, x, (q: Paper) => GroupKey(q) == r[i].key);
        AddToGroupPapers(gs, x);
        if i < |gs| {
          assert Keys(r)[i] == Keys(gs)[i];
        } else {
          assert Keys(r)[i] == GroupKey(x);
          GroupKeysArePaperKeys(init);
          FilterByAbsentKey(init, GroupKey(x));
        }
      }
    }
  }

  /** "Showing X of Y": the shown count never exceeds the total, and the groups on
      screen hold exactly the shown papers. */
  lemma ShownCountAtMostTotal(store: seq<Paper>, user: Option<User>, f: Filters)
    ensures |FilteredPapers(AllPapers(store, user), f)| <= |AllPapers(store, user)|
    ensures TotalSize(GroupPapers(FilteredPapers(AllPapers(store, user), f))) == |FilteredPapers(AllPapers(store, user), f)|
  {
  }
}

=== FILE: review_paper.dfy ===
/** The examiner's review page (frontend/src/pages/ReviewPaper.tsx): who may review, and
    the two review actions, moderate-and-approve and request-revision. */
module ReviewPaper {
  import opened Common
  import opened Text
  import opened Types
  import opened Records

  /** `canReview`: the paper awaits moderation and the signed-in user is an examiner.
      Neither the department nor the owner is consulted. */
  predicate CanReview(paper: Paper, user: Option<User>) {
    paper.status == PendingModeration && user.Some? && user.value.role == Examiner
  }

  datatype ReviewError = FeedbackRequired  // "Please provide feedback for the lecturer"

  /** The comment record a review action appends. */
  function CommentOf(user: User, text: string, env: Env): ModerationComment {
    ModerationComment(env.uuid, user.id, user.fullName, text, env.now)
  }

  /** `handleApprove`: the paper becomes moderated, the acting examiner is recorded
      (replacing any earlier one), a comment is added exactly when the comment box is
      not empty, and one signature is appended. Content and versions are untouched. */
  function Approve(paper: Paper, user: User, comment: string, env: Env): (r: Paper)
    ensures SameIdentity(paper, r) && SameVersioning(paper, r) && r.isLocked == paper.isLocked
    ensures r.status == Moderated
    ensures r.examinerId == Some(user.id) && r.examinerName == Some(user.fullName)
    ensures comment != "" ==> r.moderationComments == paper.moderationComments + [CommentOf(user, comment, env)]
    ensures comment == "" ==> r.moderationComments == paper.moderationComments
    ensures SignedOnce(paper, r, user, env.now)
    ensures LastAction(r) == "Moderated and approved the paper"
    ensures r.updatedAt == env.now
  {
    paper.(
      status := Moderated,
      examinerId := Some(user.id),
      examinerName := Some(user.fullName),
      moderationComments :=
        if comment != "" then paper.moderationComments + [CommentOf(user, comment, env)]
        else paper.moderationComments,
      signatures := paper.signatures + [Sign(user, env.now, "Moderated and approved the paper")],
      updatedAt := env.now)
  }

  /** `handleRequestRevision`: feedback that is empty or only whitespace is refused and
      nothing is saved; otherwise the paper goes back to the lecturer with the feedback
      (as typed, untrimmed) and one signature. Content and versions are untouched. */
  function RequestRevision(paper: Paper, user: User, comment: string, env: Env): (r: Result<Paper, ReviewError>)
    ensures r.Err? <==> AllSpace(comment)
    ensures r.Ok? ==>
              && SameIdentity(paper, r.value) && SameVersioning(paper, r.value)
              && r.value.isLocked == paper.isLocked
              && r.value.status == RevisionRequired
              && r.value.examinerId == Some(user.id) && r.value.examinerName == Some(user.fullName)
              && r.value.moderationComments == paper.moderationComments + [CommentOf(user, comment, env)]
              && SignedOnce(paper, r.value, user, env.now)
              && LastAction(r.value) == "Requested revision with feedback"
              && r.value.updatedAt == env.now
  {
    TrimEmptyIffAllSpace(comment);
    if Trim(comment) == "" then Err(FeedbackRequired)
    else
      Ok(paper.(
        status := RevisionRequired,
        examinerId := Some(user.id),
        examinerName := Some(user.fullName),
        moderationComments := paper.moderationComments + [CommentOf(user, comment, env)],
        signatures := paper.signatures + [Sign(user, env.now, "Requested revision with feedback")],
        updatedAt := env.now))
  }

  /** A comment of spaces only is kept by "Approve" but refused by "Request Revision":
      the two actions test the comment differently. */
  lemma BlankCommentTreatedDifferently(paper: Paper, user: User, env: Env)
    ensures |Approve(paper, user, " ", env).moderationComments| == |paper.moderationComments| + 1
    ensures RequestRevision(paper, user, " ", env).Err?
  {
    assert AllSpace(" ");
  }
}

=== FILE: schema.dfy ===
/** The parts of Mongoose's validation the schemas use: field values, the `required` and
    `enum` validators, and defaults. */
module Schema {
  import Str = Text

  /** A field of a document handed to Mongoose: left out, `null`, or a string. */
  datatype Value = Absent | Null | Text(text: string)

  /** The enum validator: no value (`undefined` or `null`) always passes, a string must
      be one of the listed values. */
  predicate EnumAccepts(values: seq<string>, v: Value) {
    !v.Text? || v.text in values
  }

  /** The `required` validator on a string path: a missing value, `null` and the empty
      string all fail. */
  predicate RequiredAccepts(v: Value) {
    v.Text? && v.text != ""
  }

  predicate IsHexDigit(c: char) {
    ('0' <= c <= '9') || ('a' <= c <= 'f') || ('A' <= c <= 'F')
  }

  /** A string the ObjectId cast accepts: 24 hexadecimal digits, in either case. */
  predicate IsObjectIdText(s: string) {
    |s| == 24 && forall i :: 0 <= i < |s| ==> IsHexDigit(s[i])
  }

  /** The `required` validator and the cast on a required ObjectId path: a missing
      value, `null` and a string that is not an ObjectId all fail. */
  predicate ObjectIdAccepts(v: Value) {
    RequiredAccepts(v) && IsObjectIdText(v.text)
  }

  /** The ObjectId a cast string denotes, printed as Mongo prints it: the same hex
      digits in lower case. */
  function ObjectIdKey(s: string): (k: string)
    requires IsObjectIdText(s)
    ensures IsObjectIdText(k)
    ensures forall i :: 0 <= i < |k| ==> !('A' <= k[i] <= 'Z')
  {
    Str.ToLower(s)
  }

  /** A printed ObjectId casts to itself. */
  lemma ObjectIdKeyIsCanonical(s: string)
    requires IsObjectIdText(s)
    ensures ObjectIdKey(ObjectIdKey(s)) == ObjectIdKey(s)
  {
    var k := ObjectIdKey(s);
    assert forall i :: 0 <= i < |k| ==> Str.LowerChar(k[i]) == k[i];
  }

  /** Mongoose's `CastError` message for a string the ObjectId cast refuses. */
  function CastErrorMessage(value: string, path: string, model: string): string {
    "Cast to ObjectId failed for value \"" + value + "\" (type string) at path \"" + path
    + "\" for model \"" + model + "\""
  }

  /** Defaults are applied to fields left out, never to `null`. */
  function WithDefault(v: Value, default: Value): (r: Value)
    ensures v.Absent? ==> r == default
    ensures !v.Absent? ==> r == v
  {
    if v.Absent? then default else v
  }
}

=== FILE: seqs.dfy ===
/** Sequence operations behind the array methods the system uses: `filter`, `find`,
    `map`, `slice` and a stable descending `sort` by a numeric key. */
module Seqs {
  import opened Common

  /** `a` is `b` with some elements removed and the rest kept in order. */
  ghost predicate IsSubsequence<T>(a: seq<T>, b: seq<T>)
    decreases |b|
  {
    || |a| == 0
    || (&& |b| > 0
        && ((a[0] == b[0] && IsSubsequence(a[1..], b[1..])) || IsSubsequence(a, b[1..])))
  }

  lemma {:induction false} SubsequenceLength<T>(a: seq<T>, b: seq<T>)
    requires IsSubsequence(a, b)
    ensures |a| <= |b|
    decreases |b|
  {
    if |a| > 0 {
      if a[0] == b[0] && IsSubsequence(a[1..], b[1..]) {
        SubsequenceLength(a[1..], b[1..]);
      } else {
        SubsequenceLength(a, b[1..]);
      }
    }
  }

  lemma {:induction false} SubsequenceReflexive<T>(a: seq<T>)
    ensures IsSubsequence(a, a)
    decreases |a|
  {
    if |a| > 0 {
      SubsequenceReflexive(a[1..]);
    }
  }

  /** `s.filter(p)`: exactly the elements satisfying `p`, in their original order. */
  function Filter<T(!new)>(s: seq<T>, p: T -> bool): (r: seq<T>)
    ensures |r| <= |s|
    ensures forall x :: x in r <==> x in s && p(x)
    ensures forall i :: 0 <= i < |r| ==> p(r[i])
    ensures IsSubsequence(r, s)
    decreases |s|
  {
    if |s| == 0 then []
    else
      var rest := Filter(s[1..], p);
      if p(s[0]) then
        assert ([s[0]] + rest)[1..] == rest;
        [s[0]] + rest
      else rest
  }

  /** Filtering by a predicate every element satisfies changes nothing. */
  lemma {:induction false} FilterAll<T(!new)>(s: seq<T>, p: T -> bool)
    requires forall i :: 0 <= i < |s| ==> p(s[i])
    ensures Filter(s, p) == s
    decreases |s|
  {
    if |s| > 0 {
      FilterAll(s[1..], p);
      assert s == [s[0]] + s[1..];
    }
  }

  /** Two filters in a row are one filter by the conjunction. */
  lemma {:induction false} FilterFilter<T(!new)>(s: seq<T>, p: T -> bool, q: T -> bool, pq: T -> bool)
    requires forall x :: pq(x) == (p(x) && q(x))
    ensures Filter(Filter(s, p), q) == Filter(s, pq)
    decreases |s|
  {
    if |s| > 0 {
      FilterFilter(s[1..], p, q, pq);
      if p(s[0]) {
        assert Filter(s, p) == [s[0]] + Filter(s[1..], p);
        assert Filter(s, p)[1..] == Filter(s[1..], p);
      }
    }
  }

  /** Filtering a list with one more element at the end. */
  lemma {:induction false} FilterSnoc<T(!new)>(s: seq<T>, x: T, p: T -> bool)
    ensures Filter(s + [x], p) == Filter(s, p) + (if p(x) then [x] else [])
    decreases |s|
  {
    if |s| > 0 {
      assert (s + [x])[1..] == s[1..] + [x];
      FilterSnoc(s[1..], x, p);
    } else {
      assert s + [x] == [x];
    }
  }

  /** Filtering distributes over concatenation. */
  lemma {:induction false} FilterAppend<T(!new)>(a: seq<T>, b: seq<T>, p: T -> bool)
    ensures Filter(a + b, p) == Filter(a, p) + Filter(b, p)
    decreases |a|
  {
    if |a| == 0 {
      assert a + b == b;
    } else {
      assert (a + b)[1..] == a[1..] + b;
      FilterAppend(a[1..], b, p);
    }
  }

  /** Replacing one element changes the count by what the old and the new element add. */
  lemma CountUpdate<T(!new)>(s: seq<T>, i: nat, x: T, p: T -> bool)
    requires i < |s|
    ensures Count(s[i := x], p) == Count(s, p) - (if p(s[i]) then 1 else 0) + (if p(x) then 1 else 0)
  {
    assert s == s[..i] + [s[i]] + s[i + 1..];
    assert s[i := x] == s[..i] + [x] + s[i + 1..];
    FilterAppend(s[..i] + [s[i]], s[i + 1..], p);
    FilterAppend(s[..i], [s[i]], p);
    FilterAppend(s[..i] + [x], s[i + 1..], p);
    FilterAppend(s[..i], [x], p);
  }

  /** Removing one element lowers the count by what that element added. */
  lemma CountRemove<T(!new)>(s: seq<T>, i: nat, p: T -> bool)
    requires i < |s|
    ensures Count(s[..i] + s[i + 1..], p) == Count(s, p) - (if p(s[i]) then 1 else 0)
  {
    assert s == s[..i] + [s[i]] + s[i + 1..];
    FilterAppend(s[..i] + [s[i]], s[i + 1..], p);
    FilterAppend(s[..i], [s[i]], p);
    FilterAppend(s[..i], s[i + 1..], p);
  }

  /** Filters by predicates that agree on every element give the same result. */
  lemma {:induction false} FilterCongruent<T(!new)>(s: seq<T>, p: T -> bool, q: T -> bool)
    requires forall i :: 0 <= i < |s| ==> p(s[i]) == q(s[i])
    ensures Filter(s, p) == Filter(s, q)
    decreases |s|
  {
    if |s| > 0 {
      FilterCongruent(s[1..], p, q);
    }
  }

  /** The number of elements satisfying `p`. */
  function Count<T(!new)>(s: seq<T>, p: T -> bool): nat {
    |Filter(s, p)|
  }

  /** Counts of two predicates that never hold together add up to the count of their union. */
  lemma {:induction false} CountDisjoint<T(!new)>(s: seq<T>, p: T -> bool, q: T -> bool, pq: T -> bool)
    requires forall x :: !(p(x) && q(x))
    requires forall x :: pq(x) == (p(x) || q(x))
    ensures Count(s, p) + Count(s, q) == Count(s, pq)
    decreases |s|
  {
    if |s| > 0 {
      CountDisjoint(s[1..], p, q, pq);
    }
  }

  /** `s.find(p)`: the first element satisfying `p`, if any. */
  function Find<T>(s: seq<T>, p: T -> bool): (r: Option<T>)
    ensures r.Some? ==> r.value in s && p(r.value)
    ensures r.None? ==> forall i :: 0 <= i < |s| ==> !p(s[i])
    decreases |s|
  {
    if |s| == 0 then None
    else if p(s[0]) then Some(s[0])
    else Find(s[1..], p)
  }

  /** Searching a concatenation finds the first part's match, or else searches the
      second part. */
  lemma {:induction false} FindAppend<T>(s: seq<T>, t: seq<T>, p: T -> bool)
    ensures Find(s + t, p) == if Find(s, p).Some? then Find(s, p) else Find(t, p)
    decreases |s|
  {
    if |s| > 0 {
      assert (s + t)[0] == s[0];
      assert (s + t)[1..] == s[1..] + t;
      FindAppend(s[1..], t, p);
    } else {
      assert s + t == t;
    }
  }

  /** `s.findIndex(p)`: the first position whose element satisfies `p`, if any. */
  function FindIndex<T>(s: seq<T>, p: T -> bool): (r: Option<nat>)
    ensures r.Some? ==> r.value < |s| && p(s[r.value]) && forall j :: 0 <= j < r.value ==> !p(s[j])
    ensures r.None? ==> forall i :: 0 <= i < |s| ==> !p(s[i])
    decreases |s|
  {
    if |s| == 0 then None
    else if p(s[0]) then Some(0)
    else
      match FindIndex(s[1..], p)
      case None => None
      case Some(i) => Some(i + 1)
  }

  /** `find` returns the element at the position `findIndex` reports. */
  lemma {:induction false} FindAgreesWithFindIndex<T>(s: seq<T>, p: T -> bool)
    ensures FindIndex(s, p).None? <==> Find(s, p).None?
    ensures FindIndex(s, p).Some? ==> Find(s, p) == Some(s[FindIndex(s, p).value])
    decreases |s|
  {
    if |s| > 0 && !p(s[0]) {
      FindAgreesWithFindIndex(s[1..], p);
    }
  }

  /** With no match before it, `findIndex` on a list extended by a matching element
      finds that element. */
  lemma {:induction false} FindIndexAppend<T>(s: seq<T>, x: T, p: T -> bool)
    requires forall k :: 0 <= k < |s| ==> !p(s[k])
    requires p(x)
    ensures FindIndex(s + [x], p) == Some(|s|)
    decreases |s|
  {
    if |s| > 0 {
      assert (s + [x])[1..] == s[1..] + [x];
      FindIndexAppend(s[1..], x, p);
    }
  }

  function Min(a: int, b: int): int {
    if a < b then a else b
  }

  /** `s.slice(0, n)` */
  function Take<T>(s: seq<T>, n: nat): (r: seq<T>)
    ensures |r| == Min(n, |s|)
    ensures forall i :: 0 <= i < |r| ==> r[i] == s[i]
  {
    if n < |s| then s[..n] else s
  }

  /** Ordered by `key` from the largest to the smallest. */
  ghost predicate SortedDesc<T>(s: seq<T>, key: T -> int) {
    forall i, j :: 0 <= i < j < |s| ==> key(s[i]) >= key(s[j])
  }

  /** No key in `s` exceeds `b`. */
  ghost predicate KeysAtMost<T>(s: seq<T>, key: T -> int, b: int) {
    forall i :: 0 <= i < |s| ==> key(s[i]) <= b
  }

  /** Inserts `x` before the first element whose key is not larger, so that `x` stays
      ahead of the elements with an equal key (the comparator sort is stable). */
  function InsertDesc<T>(x: T, s: seq<T>, key: T -> int): (r: seq<T>)
    requires SortedDesc(s, key)
    ensures SortedDesc(r, key)
    ensures multiset(r) == multiset(s) + multiset{x}
    ensures forall b :: KeysAtMost(s, key, b) && key(x) <= b ==> KeysAtMost(r, key, b)
    decreases |s|
  {
    if |s| == 0 || key(s[0]) <= key(x) then [x] + s
    else
      assert KeysAtMost(s[1..], key, key(s[0]));
      var rest := InsertDesc(x, s[1..], key);
      assert s == [s[0]] + s[1..];
      [s[0]] + rest
  }

  /** `s.sort((a, b) => key(b) - key(a))`: a permutation of `s`, largest key first. */
  function SortDesc<T>(s: seq<T>, key: T -> int): (r: seq<T>)
    ensures SortedDesc(r, key)
    ensures multiset(r) == multiset(s)
    ensures |r| == |s|
    decreases |s|
  {
    if |s| == 0 then []
    else
      assert s == [s[0]] + s[1..];
      InsertDesc(s[0], SortDesc(s[1..], key), key)
  }

  /** Sequences with the same multiset have the same members. */
  lemma SameMultisetSameMembers<T>(a: seq<T>, b: seq<T>, x: T)
    requires multiset(a) == multiset(b)
    ensures x in a <==> x in b
  {
    assert x in a <==> x in multiset(a);
    assert x in b <==> x in multiset(b);
  }

  /** `s.map(f)` */
  function Map<T, U>(s: seq<T>, f: T -> U): (r: seq<U>)
    ensures |r| == |s|
    ensures forall i :: 0 <= i < |s| ==> r[i] == f(s[i])
  {
    seq(|s|, i requires 0 <= i < |s| => f(s[i]))
  }
}

=== FILE: storage.dfy ===
/** The browser store (frontend/src/lib/storage.ts): a list of users and a list of
    papers with an upsert by id, lookups, and the department, role and status views the
    pages read. Persistence to `localStorage` is not modelled: each operation takes the
    current list and returns the new one. */
module Storage {
  import opened Common
  import opened Seqs
  import opened Types

  /** Some paper in the list carries this id. */
  ghost predicate HasId(papers: seq<Paper>, id: string) {
    exists i :: 0 <= i < |papers| && papers[i].id == id
  }

  /** `papers.findIndex(p => p.id === id)` */
  function IndexOfId(papers: seq<Paper>, id: string): (r: Option<nat>)
    ensures r.Some? <==> HasId(papers, id)
    ensures r.Some? ==> r.value < |papers| && papers[r.value].id == id
                        && forall j :: 0 <= j < r.value ==> papers[j].id != id
  {
    FindIndex(papers, (q: Paper) => q.id == id)
  }

  /** `savePaper`: the first paper with the same id is replaced in place; a paper with a
      new id is appended. */
  function SavePaper(papers: seq<Paper>, p: Paper): (r: seq<Paper>)
    ensures HasId(papers, p.id) ==>
              && |r| == |papers|
              && var i := IndexOfId(papers, p.id).value;
                 r[i] == p && forall k :: 0 <= k < |r| && k != i ==> r[k] == papers[k]
    ensures !HasId(papers, p.id) ==> |r| == |papers| + 1 && r[..|papers|] == papers && r[|papers|] == p
  {
    match IndexOfId(papers, p.id)
    case Some(i) => papers[i := p]
    case None => papers + [p]
  }

  /** `getPaperById`: the first paper with the id, if any. */
  function GetPaperById(papers: seq<Paper>, id: string): (r: Option<Paper>)
    ensures r.Some? <==> HasId(papers, id)
    ensures r.Some? ==> r.value in papers && r.value.id == id
    ensures r.Some? ==> r.value == papers[IndexOfId(papers, id).value]
  {
    var byId := (q: Paper) => q.id == id;
    FindAgreesWithFindIndex(papers, byId);
    Find(papers, byId)
  }

  /** After `savePaper(p)`, looking up `p.id` gives `p`. */
  lemma SaveThenGet(papers: seq<Paper>, p: Paper)
    ensures GetPaperById(SavePaper(papers, p), p.id) == Some(p)
  {
    var r := SavePaper(papers, p);
    var i := if HasId(papers, p.id) then IndexOfId(papers, p.id).value else |papers|;
    assert r[i] == p;
    assert forall j :: 0 <= j < i ==> r[j] == papers[j] && papers[j].id != p.id;
    assert IndexOfId(r, p.id) == Some(i);
  }

  /** `savePaper(p)` does not change what any other id looks up to. */
  lemma SaveKeepsOtherIds(papers: seq<Paper>, p: Paper, id: string)
    requires id != p.id
    ensures GetPaperById(SavePaper(papers, p), id) == GetPaperById(papers, id)
  {
    var r := SavePaper(papers, p);
    assert forall k :: 0 <= k < |papers| ==> (r[k].id == id <==> papers[k].id == id);
    assert forall k :: 0 <= k < |papers| && r[k].id == id ==> r[k] == papers[k];
    assert forall k :: |papers| <= k < |r| ==> r[k].id != id;
    if HasId(papers, id) {
      var i := IndexOfId(papers, id).value;
      assert r[i].id == id;
      assert IndexOfId(r, id) == Some(i);
    } else {
      assert !HasId(r, id);
    }
  }

  /** `getPapersByLecturer`: the lecturer's papers, in store order. */
  function PapersByLecturer(papers: seq<Paper>, lecturerId: string): (r: seq<Paper>)
    ensures forall q :: q in r <==> q in papers && q.lecturerId == lecturerId
    ensures IsSubsequence(r, papers)
  {
    Filter(papers, (q: Paper) => q.lecturerId == lecturerId)
  }

  /** `getPapersByExaminer`: the department's papers that await moderation or that this
      examiner has reviewed, in store order. */
  function PapersByExaminer(papers: seq<Paper>, examinerId: string, department: Department): (r: seq<Paper>)
    ensures forall q :: q in r <==>
              q in papers && q.department == department
              && (q.status == PendingModeration || q.examinerId == Some(examinerId))
    ensures IsSubsequence(r, papers)
  {
    Filter(papers, (q: Paper) => q.department == department
                                 && (q.status == PendingModeration || q.examinerId == Some(examinerId)))
  }

  /** `getPapersByDepartment` */
  function PapersByDepartment(papers: seq<Paper>, department: Department): (r: seq<Paper>)
    ensures forall q :: q in r <==> q in papers && q.department == department
    ensures IsSubsequence(r, papers)
  {
    Filter(papers, (q: Paper) => q.department == department)
  }

  /** The statuses the head of department sees. */
  predicate HodVisible(st: PaperStatus) {
    st == PendingApproval || st == Approved || st == Printed
  }

  /** The statuses of the department's repository of final papers. */
  predicate InRepository(st: PaperStatus) {
    st == Approved || st == Printed
  }

  /** `getPapersForHOD` */
  function PapersForHod(papers: seq<Paper>, department: Department): (r: seq<Paper>)
    ensures forall q :: q in r <==> q in papers && q.department == department && HodVisible(q.status)
    ensures IsSubsequence(r, papers)
  {
    Filter(papers, (q: Paper) => q.department == department && HodVisible(q.status))
  }

  /** `getRepositoryPapers` */
  function RepositoryPapers(papers: seq<Paper>, department: Department): (r: seq<Paper>)
    ensures forall q :: q in r <==> q in papers && q.department == department && InRepository(q.status)
    ensures IsSubsequence(r, papers)
  {
    Filter(papers, (q: Paper) => q.department == department && InRepository(q.status))
  }

  /** The repository is the head of department's view narrowed to final papers, so it is
      an order-preserving part of that view. */
  lemma RepositoryWithinHodView(papers: seq<Paper>, department: Department)
    ensures RepositoryPapers(papers, department)
            == Filter(PapersForHod(papers, department), (q: Paper) => InRepository(q.status))
    ensures IsSubsequence(RepositoryPapers(papers, department), PapersForHod(papers, department))
  {
    FilterFilter(papers,
                 (q: Paper) => q.department == department && HodVisible(q.status),
                 (q: Paper) => InRepository(q.status),
                 (q: Paper) => q.department == department && InRepository(q.status));
  }

  /** `saveUser`: appends, with no check on the email. */
  function SaveUser(users: seq<User>, u: User): (r: seq<User>)
    ensures |r| == |users| + 1 && r[..|users|] == users && r[|users|] == u
  {
    users + [u]
  }

  /** `findUserByEmail`: the first user with the email, if any. */
  function FindUserByEmail(users: seq<User>, email: string): (r: Option<User>)
    ensures r.Some? ==> r.value in users && r.value.email == email
    ensures r.None? <==> forall i :: 0 <= i < |users| ==> users[i].email != email
    ensures r.Some? ==> exists i :: 0 <= i < |users| && users[i] == r.value
                                    && forall k :: 0 <= k < i ==> users[k].email != email
  {
    var p := (u: User) => u.email == email;
    FindAgreesWithFindIndex(users, p);
    Find(users, p)
  }

  /** Saving a user whose email is taken stores a second record that lookups never reach:
      the earlier user keeps answering for the email. */
  lemma {:induction false} SaveUserDuplicateIsShadowed(users: seq<User>, u: User)
    requires FindUserByEmail(users, u.email).Some?
    ensures |SaveUser(users, u)| == |users| + 1
    ensures FindUserByEmail(SaveUser(users, u), u.email) == FindUserByEmail(users, u.email)
    decreases |users|
  {
    var r := SaveUser(users, u);
    if users[0].email != u.email {
      assert r[1..] == SaveUser(users[1..], u);
      SaveUserDuplicateIsShadowed(users[1..], u);
    }
  }

  /** Saving a user with a fresh email makes the email find exactly that user. */
  lemma SaveUserFreshIsFound(users: seq<User>, u: User)
    requires FindUserByEmail(users, u.email).None?
    ensures FindUserByEmail(SaveUser(users, u), u.email) == Some(u)
  {
    var r := SaveUser(users, u);
    var byEmail := (v: User) => v.email == u.email;
    FindAgreesWithFindIndex(r, byEmail);
    assert FindIndex(r, byEmail) == Some(|users|);
  }

  /** The three Computer Science demo accounts, stamped with the seeding time. */
  function DemoUsers(now: string): seq<User> {
    [ User("demo-lecturer-1", "lecturer@cs.edu", "password123", "Dr. John Smith", Lecturer, ComputerScience, now),
      User("demo-examiner-1", "examiner@cs.edu", "password123", "Dr. Sarah Johnson", Examiner, ComputerScience, now),
      User("demo-hod-1", "hod@cs.edu", "password123", "Prof. Michael Brown", Hod, ComputerScience, now) ]
  }

  /** `initializeDemoData`: an empty user list is seeded with one user per role; a
      non-empty one is left alone. */
  function InitializeDemoData(users: seq<User>, now: string): (r: seq<User>)
    ensures |users| > 0 ==> r == users
    ensures |users| == 0 ==> Map(r, (u: User) => u.role) == ALL_ROLES
    ensures |users| == 0 ==> forall i :: 0 <= i < |r| ==> r[i].department == ComputerScience
  {
    if |users| == 0 then
      DemoUsers(now)
    else users
  }

  /** Seeding twice is seeding once, so the store can run the seeding on every load. */
  lemma InitializeDemoDataIdempotent(users: seq<User>, now: string, later: string)
    ensures InitializeDemoData(InitializeDemoData(users, now), later) == InitializeDemoData(users, now)
  {
  }

  /** The demo emails are distinct, so each demo account is found by its own email. */
  lemma DemoUsersFoundByEmail(now: string)
    ensures forall i :: 0 <= i < 3 ==> FindUserByEmail(DemoUsers(now), DemoUsers(now)[i].email) == Some(DemoUsers(now)[i])
  {
    var d := DemoUsers(now);
    assert d[0].email[0] == 'l' && d[1].email[0] == 'e' && d[2].email[0] == 'h';
  }
}

=== FILE: suggestion_controller.dfy ===
/** The suggestion handlers (backend/src/controllers/suggestionController.js) over the
    stored suggestions, kept in insertion order. The paper lookup is the database's
    answer, passed in; `createdAt` and the new id are parameters. */
module SuggestionController {
  import opened Common
  import opened Seqs
  import opened Http
  import opened Schema
  import opened SuggestionSchema

  /** The position of the suggestion whose stored ObjectId is `id`: the document
      `Suggestion.findById` returns once the id is cast (see `FindById`). */
  function IndexOfId(store: seq<Suggestion>, id: string): (r: Option<nat>)
    ensures r.Some? ==> r.value < |store| && store[r.value].id == id
    ensures r.None? ==> forall k :: 0 <= k < |store| ==> store[k].id != id
  {
    FindIndex(store, (s: Suggestion) => s.id == id)
  }

  /** A body field is present when it is truthy: neither missing, `null` nor empty. */
  predicate Truthy(v: Value) {
    v.Text? && v.text != ""
  }

  /** `createSuggestion`: both fields are checked before the paper is looked up. A paper
      id that is not an ObjectId makes `Paper.findById` throw its `CastError`, which the
      handler answers with 500; otherwise the lookup is the database's answer. The new
      suggestion names the requester as its examiner, whose id `protect` loaded from the
      database and so is an ObjectId. The reply is the 201 body. */
  function CreateSuggestion(store: seq<Suggestion>, paperId: Value, text: Value, examinerId: string,
                            paper: Lookup<()>, id: string, now: int): (r: Result<(seq<Suggestion>, Suggestion), Failure>)
    requires IsObjectIdText(examinerId)
    ensures !Truthy(paperId) || !Truthy(text) ==> r == Err(Failure(400, "Paper ID and text are required"))
    ensures Truthy(paperId) && Truthy(text) && !IsObjectIdText(paperId.text)
            ==> r == Err(Failure(500, CastErrorMessage(paperId.text, "_id", "Paper")))
    ensures Truthy(paperId) && Truthy(text) && IsObjectIdText(paperId.text) && paper.Missing?
            ==> r == Err(Failure(404, "Paper not found"))
    ensures Truthy(paperId) && Truthy(text) && IsObjectIdText(paperId.text) && paper.Throws?
            ==> r == Err(Failure(500, paper.message))
    ensures r.Ok? <==> Truthy(paperId) && Truthy(text) && IsObjectIdText(paperId.text) && paper.Found?
    ensures r.Ok? ==> r.value.0 == store + [r.value.1]
    ensures r.Ok? ==> var s := r.value.1;
                      && s.paper == ObjectIdKey(paperId.text) && s.text == text.text && s.examiner == ObjectIdKey(examinerId)
                      && s.status == Text("unread") && s.reply == Null && s.id == id && s.createdAt == now
  {
    if !Truthy(paperId) || !Truthy(text) then Err(Failure(400, "Paper ID and text are required"))
    else if !IsObjectIdText(paperId.text) then Err(Failure(500, CastErrorMessage(paperId.text, "_id", "Paper")))
    else match paper
      case Missing => Err(Failure(404, "Paper not found"))
      case Throws(m) => Err(Failure(500, m))
      case Found(_) =>
        var doc := CreateSuggestionDoc(SuggestionInput(paperId, Text(examinerId), text, Absent, Absent), id, now);
        Ok((store + [doc.value], doc.value))
  }

  function CreatedAt(s: Suggestion): int { s.createdAt }

  /** `getSuggestionsByPaper`: the query casts the paper id, so one that is not an
      ObjectId is answered 500 with the `CastError`; otherwise the paper's suggestions,
      newest first. */
  function SuggestionsByPaper(store: seq<Suggestion>, paperId: string): (r: Result<seq<Suggestion>, Failure>)
    ensures r.Err? <==> !IsObjectIdText(paperId)
    ensures r.Err? ==> r.error == Failure(500, CastErrorMessage(paperId, "paper", "Suggestion"))
    ensures r.Ok? ==> SortedDesc(r.value, CreatedAt)
    ensures r.Ok? ==> multiset(r.value) == multiset(Filter(store, (s: Suggestion) => s.paper == ObjectIdKey(paperId)))
    ensures r.Ok? ==> forall s :: s in r.value <==> s in store && s.paper == ObjectIdKey(paperId)
  {
    if !IsObjectIdText(paperId) then Err(Failure(500, CastErrorMessage(paperId, "paper", "Suggestion")))
    else
      var key := ObjectIdKey(paperId);
      var own := Filter(store, (s: Suggestion) => s.paper == key);
      var r := SortDesc(own, CreatedAt);
      forall s ensures s in r <==> s in own {
        SameMultisetSameMembers(r, own, s);
      }
      Ok(r)
  }

  /** A created suggestion is listed under the paper it was created for. */
  lemma CreatedSuggestionIsListed(store: seq<Suggestion>, paperId: Value, text: Value, examinerId: string,
                                  paper: Lookup<()>, id: string, now: int)
    requires IsObjectIdText(examinerId)
    requires CreateSuggestion(store, paperId, text, examinerId, paper, id, now).Ok?
    ensures var c := CreateSuggestion(store, paperId, text, examinerId, paper, id, now).value;
            SuggestionsByPaper(c.0, paperId.text).Ok? && c.1 in SuggestionsByPaper(c.0, paperId.text).value
  {
    var c := CreateSuggestion(store, paperId, text, examinerId, paper, id, now).value;
    assert c.1 in c.0 by { assert c.0[|store|] == c.1; }
  }

  /** `Suggestion.findById(id)`: the id is cast first, so one that is not an ObjectId
      gives the `CastError`'s 500; otherwise the position of the suggestion with that
      ObjectId, if any. */
  function FindById(store: seq<Suggestion>, id: string): (r: Result<Option<nat>, Failure>)
    ensures r.Err? <==> !IsObjectIdText(id)
    ensures r.Err? ==> r.error == Failure(500, CastErrorMessage(id, "_id", "Suggestion"))
    ensures r.Ok? ==> r.value == IndexOfId(store, ObjectIdKey(id))
  {
    if !IsObjectIdText(id) then Err(Failure(500, CastErrorMessage(id, "_id", "Suggestion")))
    else Ok(IndexOfId(store, ObjectIdKey(id)))
  }

  /** `replyToSuggestion`: the reply is overwritten and the status becomes `replied`;
      no other suggestion changes. */
  function ReplyToSuggestion(store: seq<Suggestion>, id: string, reply: Value): (r: Result<seq<Suggestion>, Failure>)
    ensures !IsObjectIdText(id) ==> r == Err(Failure(500, CastErrorMessage(id, "_id", "Suggestion")))
    ensures r == Err(Failure(404, "Suggestion not found")) <==>
              IsObjectIdText(id) && IndexOfId(store, ObjectIdKey(id)).None?
    ensures r.Ok? ==> IsObjectIdText(id) && |r.value| == |store|
    ensures r.Ok? ==> var i := IndexOfId(store, ObjectIdKey(id)).value;
                      r.value[i] == store[i].(reply := reply, status := Text("replied"))
    ensures r.Ok? ==> forall k :: 0 <= k < |store| && k != IndexOfId(store, ObjectIdKey(id)).value ==> r.value[k] == store[k]
  {
    match FindById(store, id)
    case Err(f) => Err(f)
    case Ok(None) => Err(Failure(404, "Suggestion not found"))
    case Ok(Some(i)) => Ok(store[i := store[i].(reply := reply, status := Text("replied"))])
  }

  /** Replying again keeps the status `replied` and only the latest reply survives. */
  lemma ReplyingTwiceKeepsTheLastReply(store: seq<Suggestion>, id: string, a: Value, b: Value)
    requires ReplyToSuggestion(store, id, a).Ok?
    ensures ReplyToSuggestion(ReplyToSuggestion(store, id, a).value, id, b) == ReplyToSuggestion(store, id, b)
  {
    var once := ReplyToSuggestion(store, id, a).value;
    var key := ObjectIdKey(id);
    var i := IndexOfId(store, key).value;
    assert forall k :: 0 <= k < |store| ==> once[k].id == store[k].id;
    var j := IndexOfId(once, key);
    assert j.Some? by { assert once[i].id == key; }
    assert once[i := once[i].(reply := b, status := Text("replied"))] == store[i := store[i].(reply := b, status := Text("replied"))];
  }

  /** `deleteSuggestion`: the suggestion is removed and the others keep their order. */
  function DeleteSuggestion(store: seq<Suggestion>, id: string): (r: Result<seq<Suggestion>, Failure>)
    ensures !IsObjectIdText(id) ==> r == Err(Failure(500, CastErrorMessage(id, "_id", "Suggestion")))
    ensures r == Err(Failure(404, "Suggestion not found")) <==>
              IsObjectIdText(id) && IndexOfId(store, ObjectIdKey(id)).None?
    ensures r.Ok? ==> IsObjectIdText(id) && |r.value| == |store| - 1
    ensures r.Ok? ==> var i := IndexOfId(store, ObjectIdKey(id)).value;
                      r.value == store[..i] + store[i + 1..]
  {
    match FindById(store, id)
    case Err(f) => Err(f)
    case Ok(None) => Err(Failure(404, "Suggestion not found"))
    case Ok(Some(i)) => Ok(store[..i] + store[i + 1..])
  }

  /** An id reaches the same suggestion whatever the case of its hex letters. */
  lemma IdLetterCaseDoesNotMatter(store: seq<Suggestion>, id: string, reply: Value)
    requires IsObjectIdText(id)
    ensures ReplyToSuggestion(store, id, reply) == ReplyToSuggestion(store, ObjectIdKey(id), reply)
    ensures DeleteSuggestion(store, id) == DeleteSuggestion(store, ObjectIdKey(id))
  {
    ObjectIdKeyIsCanonical(id);
  }

  predicate IsUnread(s: Suggestion) { s.status == Text("unread") }

  /** `getUnreadSuggestionCount`: the number of unread suggestions, over all papers. */
  function UnreadCount(store: seq<Suggestion>): (n: nat)
    ensures n <= |store|
    ensures n == 0 <==> forall k :: 0 <= k < |store| ==> !IsUnread(store[k])
  {
    var unread := Filter(store, IsUnread);
    assert |unread| > 0 ==> unread[0] in store;
    Count(store, IsUnread)
  }

  /** Creating adds one unread suggestion; replying turns an unread one into a read
      one; deleting removes the deleted suggestion's share. */
  lemma UnreadCountFollowsTheHandlers(store: seq<Suggestion>, paperId: Value, text: Value, examinerId: string,
                                      paper: Lookup<()>, id: string, now: int, reply: Value)
    requires IsObjectIdText(examinerId)
    ensures var c := CreateSuggestion(store, paperId, text, examinerId, paper, id, now);
            c.Ok? ==> UnreadCount(c.value.0) == UnreadCount(store) + 1
    ensures var r := ReplyToSuggestion(store, id, reply);
            r.Ok? ==> var i := IndexOfId(store, ObjectIdKey(id)).value;
                      UnreadCount(r.value) == UnreadCount(store) - (if IsUnread(store[i]) then 1 else 0)
    ensures var d := DeleteSuggestion(store, id);
            d.Ok? ==> var i := IndexOfId(store, ObjectIdKey(id)).value;
                      UnreadCount(d.value) == UnreadCount(store) - (if IsUnread(store[i]) then 1 else 0)
  {
    var c := CreateSuggestion(store, paperId, text, examinerId, paper, id, now);
    if c.Ok? {
      FilterSnoc(store, c.value.1, IsUnread);
    }
    if IsObjectIdText(id) && IndexOfId(store, ObjectIdKey(id)).Some? {
      var i := IndexOfId(store, ObjectIdKey(id)).value;
      var replied := store[i].(reply := reply, status := Text("replied"));
      assert ReplyToSuggestion(store, id, reply) == Ok(store[i := replied]);
      CountUpdate(store, i, replied, IsUnread);
      assert DeleteSuggestion(store, id) == Ok(store[..i] + store[i + 1..]);
      CountRemove(store, i, IsUnread);
    }
  }
}

=== FILE: suggestion_schema.dfy ===
/** The suggestion schema (backend/src/models/suggestionModel.js): an examiner's note on a
    paper, with an optional reply and an `unread`/`replied` status. */
module SuggestionSchema {
  import opened Common
  import opened Schema

  /** A stored suggestion; `reply` and `status` keep Mongoose's value shapes. */
  datatype Suggestion = Suggestion(id: string, paper: string, examiner: string, text: string,
                                   reply: Value, status: Value, createdAt: int)

  datatype SuggestionInput = SuggestionInput(paper: Value, examiner: Value, text: Value,
                                             reply: Value, status: Value)

  const SUGGESTION_STATUSES: seq<string> := ["unread", "replied"]

  /** `Suggestion.create`: defaults applied (`reply` null, `status` unread), then the
      casts and validators, the failing paths reported together in schema order. The
      `paper` and `examiner` paths are ObjectIds, so their strings must cast, and they
      are stored as the ObjectIds they denote. */
  function CreateSuggestionDoc(input: SuggestionInput, id: string, now: int): (r: Result<Suggestion, seq<string>>)
    ensures r.Ok? <==> ObjectIdAccepts(input.paper) && ObjectIdAccepts(input.examiner) && RequiredAccepts(input.text)
                       && EnumAccepts(SUGGESTION_STATUSES, input.status)
    ensures r.Ok? ==> r.value.paper == ObjectIdKey(input.paper.text) && r.value.examiner == ObjectIdKey(input.examiner.text)
                      && r.value.text == input.text.text && r.value.id == id && r.value.createdAt == now
    ensures r.Ok? ==> r.value.reply == WithDefault(input.reply, Null)
    ensures r.Ok? ==> r.value.status == WithDefault(input.status, Text("unread"))
    ensures r.Err? ==> forall path :: path in r.error <==>
              || (path == "paper" && !ObjectIdAccepts(input.paper))
              || (path == "examiner" && !ObjectIdAccepts(input.examiner))
              || (path == "text" && !RequiredAccepts(input.text))
              || (path == "status" && !EnumAccepts(SUGGESTION_STATUSES, input.status))
  {
    var status := WithDefault(input.status, Text("unread"));
    var failing :=
      (if ObjectIdAccepts(input.paper) then [] else ["paper"])
      + (if ObjectIdAccepts(input.examiner) then [] else ["examiner"])
      + (if RequiredAccepts(input.text) then [] else ["text"])
      + (if EnumAccepts(SUGGESTION_STATUSES, status) then [] else ["status"]);
    if failing == [] then
      Ok(Suggestion(id, ObjectIdKey(input.paper.text), ObjectIdKey(input.examiner.text), input.text.text,
                    WithDefault(input.reply, Null), status, now))
    else Err(failing)
  }

  /** A suggestion created from a paper, an examiner and a text alone is unread and has
      no reply. */
  lemma FreshSuggestionIsUnread(paper: string, examiner: string, text: string, id: string, now: int)
    requires IsObjectIdText(paper) && IsObjectIdText(examiner) && text != ""
    ensures var r := CreateSuggestionDoc(SuggestionInput(Text(paper), Text(examiner), Text(text), Absent, Absent), id, now);
            r.Ok? && r.value.status == Text("unread") && r.value.reply == Null
  {
  }

  /** A paper reference that is not an ObjectId is refused on the `paper` path, however
      well-formed the rest of the suggestion is. */
  lemma PaperMustBeAnObjectId(paper: string, examiner: string, text: string, id: string, now: int)
    requires !IsObjectIdText(paper)
    ensures var r := CreateSuggestionDoc(SuggestionInput(Text(paper), Text(examiner), Text(text), Absent, Absent), id, now);
            r.Err? && "paper" in r.error
  {
  }
}

=== FILE: text.dfy ===
/** The JavaScript string operations the system relies on, with their JavaScript meaning:
    whitespace and `trim`, ASCII lower-casing, `includes`, `startsWith`, `split` on one
    character, and the decimal rendering of numbers. */
module Text {

  /** The code points ECMAScript counts as WhiteSpace or LineTerminator: exactly what
      `String.prototype.trim` strips and what the regular-expression class `\s` matches. */
  predicate IsSpace(c: char) {
    || c == ' ' || c == '\t' || c == '\n' || c == '\U{000B}' || c == '\U{000C}' || c == '\r'
    || c == '\U{00A0}' || c == '\U{1680}' || ('\U{2000}' <= c <= '\U{200A}')
    || c == '\U{2028}' || c == '\U{2029}' || c == '\U{202F}' || c == '\U{205F}'
    || c == '\U{3000}' || c == '\U{FEFF}'
  }

  ghost predicate AllSpace(s: string) {
    forall i :: 0 <= i < |s| ==> IsSpace(s[i])
  }

  /** `s.trimStart()`: drops the leading whitespace and nothing else. */
  function TrimStart(s: string): (r: string)
    ensures |r| <= |s| && r == s[|s| - |r|..]
    ensures |r| > 0 ==> !IsSpace(r[0])
    ensures forall i :: 0 <= i < |s| - |r| ==> IsSpace(s[i])
  {
    if |s| > 0 && IsSpace(s[0]) then TrimStart(s[1..]) else s
  }

  /** `s.trimEnd()`: drops the trailing whitespace and nothing else. */
  function TrimEnd(s: string): (r: string)
    ensures |r| <= |s| && r == s[..|r|]
    ensures |r| > 0 ==> !IsSpace(r[|r| - 1])
    ensures forall i :: |r| <= i < |s| ==> IsSpace(s[i])
  {
    if |s| > 0 && IsSpace(s[|s| - 1]) then TrimEnd(s[..|s| - 1]) else s
  }

  /** `s.trim()` */
  function Trim(s: string): string {
    TrimEnd(TrimStart(s))
  }

  /** `!s.trim()` holds exactly for the strings made only of whitespace (the empty one included). */
  lemma TrimEmptyIffAllSpace(s: string)
    ensures Trim(s) == "" <==> AllSpace(s)
  {
    var t := TrimStart(s);
    if Trim(s) == "" {
      assert |t| == 0;
    } else {
      var r := Trim(s);
      assert r == t[..|r|];
      assert s[|s| - |t|] == r[0];
    }
  }

  /** JavaScript's `toLowerCase` restricted to ASCII letters. */
  function LowerChar(c: char): char {
    if 'A' <= c <= 'Z' then (c as int + 32) as char else c
  }

  function ToLower(s: string): string {
    seq(|s|, i requires 0 <= i < |s| => LowerChar(s[i]))
  }

  /** `q` occurs in `s` starting at index `i`. */
  ghost predicate OccursAt(s: string, q: string, i: int) {
    0 <= i && i + |q| <= |s| && s[i..i + |q|] == q
  }

  /** `s.includes(q)` */
  function Includes(s: string, q: string): bool
    decreases |s|
  {
    if |q| > |s| then false
    else if s[..|q|] == q then true
    else Includes(s[1..], q)
  }

  /** `includes` holds exactly when the query occurs at some position. */
  lemma {:induction false} IncludesIffOccurs(s: string, q: string)
    ensures Includes(s, q) <==> exists i :: OccursAt(s, q, i)
    decreases |s|
  {
    if |q| > |s| {
    } else if s[..|q|] == q {
      assert OccursAt(s, q, 0);
    } else {
      IncludesIffOccurs(s[1..], q);
      if Includes(s[1..], q) {
        var i :| OccursAt(s[1..], q, i);
        assert s[1..][i..i + |q|] == s[i + 1..i + 1 + |q|];
        assert OccursAt(s, q, i + 1);
      } else {
        forall i | 0 <= i ensures !OccursAt(s, q, i) {
          if 0 < i && i + |q| <= |s| {
            assert s[1..][i - 1..i - 1 + |q|] == s[i..i + |q|];
            assert !OccursAt(s[1..], q, i - 1);
          }
        }
      }
    }
  }

  /** The empty query is included in every string, as in JavaScript. */
  lemma IncludesEmpty(s: string)
    ensures Includes(s, "")
  {
    assert OccursAt(s, "", 0);
    IncludesIffOccurs(s, "");
  }

  predicate StartsWith(s: string, prefix: string) {
    |prefix| <= |s| && s[..|prefix|] == prefix
  }

  predicate EndsWith(s: string, suffix: string) {
    |suffix| <= |s| && s[|s| - |suffix|..] == suffix
  }

  /** The inverse of `Split`: the parts glued back with the separator. */
  function Join(parts: seq<string>, sep: char): string
    requires |parts| >= 1
  {
    if |parts| == 1 then parts[0] else parts[0] + [sep] + Join(parts[1..], sep)
  }

  /** `s.split(sep)` for a one-character separator: never empty, no part holds the
      separator, and joining the parts gives `s` back. */
  function Split(s: string, sep: char): (parts: seq<string>)
    ensures |parts| >= 1
    ensures forall k :: 0 <= k < |parts| ==> sep !in parts[k]
    ensures Join(parts, sep) == s
    decreases |s|
  {
    if |s| == 0 then [""]
    else
      var rest := Split(s[1..], sep);
      if s[0] == sep then
        [""] + rest
      else
        var parts := [[s[0]] + rest[0]] + rest[1..];
        assert parts[1..] == rest[1..];
        assert s == [s[0]] + s[1..];
        parts
  }

  /** A string without the separator splits into itself. */
  lemma {:induction false} SplitWithoutSeparator(a: string, sep: char)
    requires sep !in a
    ensures Split(a, sep) == [a]
    decreases |a|
  {
    if |a| > 0 {
      SplitWithoutSeparator(a[1..], sep);
      assert a == [a[0]] + a[1..];
    }
  }

  /** Splitting at the first separator peels off the leading part. */
  lemma {:induction false} SplitAtFirstSeparator(a: string, sep: char, b: string)
    requires sep !in a
    ensures Split(a + [sep] + b, sep) == [a] + Split(b, sep)
    decreases |a|
  {
    var s := a + [sep] + b;
    if |a| == 0 {
      assert s == [sep] + b;
      assert s[1..] == b;
    } else {
      assert s[1..] == a[1..] + [sep] + b;
      SplitAtFirstSeparator(a[1..], sep, b);
      assert a == [a[0]] + a[1..];
    }
  }

  /** `Split` inverts `Join` on parts that do not contain the separator. */
  lemma {:induction false} SplitJoin(parts: seq<string>, sep: char)
    requires |parts| >= 1
    requires forall k :: 0 <= k < |parts| ==> sep !in parts[k]
    ensures Split(Join(parts, sep), sep) == parts
    decreases |parts|
  {
    if |parts| == 1 {
      SplitWithoutSeparator(parts[0], sep);
    } else {
      SplitJoin(parts[1..], sep);
      SplitAtFirstSeparator(parts[0], sep, Join(parts[1..], sep));
      assert parts == [parts[0]] + parts[1..];
    }
  }

  predicate IsDigit(c: char) {
    '0' <= c <= '9'
  }

  predicate AllDigits(s: string) {
    forall i :: 0 <= i < |s| ==> IsDigit(s[i])
  }

  function DigitChar(d: nat): (c: char)
    requires d < 10
    ensures IsDigit(c)
  {
    ('0' as int + d) as char
  }

  /** `String(n)` for a non-negative integer: a non-empty run of decimal digits. */
  function NatToString(n: nat): (s: string)
    ensures |s| >= 1 && AllDigits(s)
    decreases n
  {
    if n < 10 then [DigitChar(n)] else NatToString(n / 10) + [DigitChar(n % 10)]
  }

  /** The value of a run of decimal digits. */
  function ParseNat(s: string): nat
    requires AllDigits(s)
  {
    if |s| == 0 then 0 else ParseNat(s[..|s| - 1]) * 10 + (s[|s| - 1] as int - '0' as int)
  }

  /** Reading back a rendered number gives the number. */
  lemma {:induction false} ParseNatToString(n: nat)
    ensures ParseNat(NatToString(n)) == n
    decreases n
  {
    if n >= 10 {
      ParseNatToString(n / 10);
      var s := NatToString(n);
      assert s[..|s| - 1] == NatToString(n / 10);
    }
  }

  /** `String(n)` (template interpolation) for any integer. */
  function IntToString(n: int): (s: string)
    ensures n >= 0 ==> AllDigits(s)
    ensures n < 0 ==> |s| >= 2 && s[0] == '-' && AllDigits(s[1..])
  {
    if n >= 0 then NatToString(n) else "-" + NatToString(-n)
  }

  /** Distinct numbers render differently, so a rendered number names its value. */
  lemma IntToStringInjective(a: int, b: int)
    requires IntToString(a) == IntToString(b)
    ensures a == b
  {
    var s := IntToString(a);
    if a >= 0 && b >= 0 {
      ParseNatToString(a);
      ParseNatToString(b);
    } else if a < 0 && b < 0 {
      assert NatToString(-a) == s[1..] == NatToString(-b);
      ParseNatToString(-a);
      ParseNatToString(-b);
    }
  }
}

=== FILE: types.dfy ===
/** The domain vocabulary: the closed enumerations, the user, signature, comment,
    revision, paper and course records, and the tables of years, semesters,
    departments and courses. */
module Types {
  import opened Common
  import opened Seqs

  datatype Department = ComputerScience | PhysicalScience
  datatype Year = FirstYear | SecondYear | ThirdYear
  datatype Semester = FirstSemester | SecondSemester
  datatype UserRole = Lecturer | Examiner | Hod

  /** The eight states of a paper. */
  datatype PaperStatus =
    | Draft
    | PendingModeration
    | Moderated
    | RevisionRequired
    | PendingApproval
    | Approved
    | Rejected
    | Printed

  datatype PaperType = Exam | Assessment

  datatype User = User(
    id: string,
    email: string,
    password: string,
    fullName: string,
    role: UserRole,
    department: Department,
    createdAt: string)

  /** One entry of a paper's audit trail. */
  datatype Signature = Signature(
    userId: string,
    userName: string,
    role: UserRole,
    timestamp: string,
    action: string)

  datatype ModerationComment = ModerationComment(
    id: string,
    userId: string,
    userName: string,
    comment: string,
    timestamp: string)

  /** One saved version of a paper's content. */
  datatype Revision = Revision(id: string, content: string, timestamp: string, version: int)

  /** A paper as the browser store holds it. `content` is the PDF file name or the text of
      the paper; `examinerId`/`examinerName` are absent until a review action. */
  datatype Paper = Paper(
    id: string,
    courseCode: string,
    courseName: string,
    department: Department,
    year: Year,
    semester: Semester,
    paperType: PaperType,
    content: string,
    status: PaperStatus,
    lecturerId: string,
    lecturerName: string,
    examinerId: Option<string>,
    examinerName: Option<string>,
    signatures: seq<Signature>,
    moderationComments: seq<ModerationComment>,
    revisions: seq<Revision>,
    currentVersion: int,
    createdAt: string,
    updatedAt: string,
    isLocked: bool)

  /** A paper as the backend API returns it to the lecturer's pages: the status is a
      free string and `createdAt` is given by its time value in milliseconds. */
  datatype PaperDoc = PaperDoc(
    id: string,
    lecturerId: string,
    courseName: string,
    year: string,
    semester: string,
    status: string,
    createdAt: int)

  datatype Course = Course(
    code: string,
    name: string,
    department: Department,
    year: Year,
    semester: Semester)

  // The string each constructor stands for in the source.

  function DepartmentLabel(d: Department): string {
    match d
    case ComputerScience => "Computer Science"
    case PhysicalScience => "Physical Science"
  }

  function YearLabel(y: Year): string {
    match y
    case FirstYear => "1st Year"
    case SecondYear => "2nd Year"
    case ThirdYear => "3rd Year"
  }

  function SemesterLabel(s: Semester): string {
    match s
    case FirstSemester => "1st Semester"
    case SecondSemester => "2nd Semester"
  }

  function RoleLabel(r: UserRole): string {
    match r
    case Lecturer => "lecturer"
    case Examiner => "examiner"
    case Hod => "hod"
  }

  function StatusLabel(s: PaperStatus): string {
    match s
    case Draft => "draft"
    case PendingModeration => "pending_moderation"
    case Moderated => "moderated"
    case RevisionRequired => "revision_required"
    case PendingApproval => "pending_approval"
    case Approved => "approved"
    case Rejected => "rejected"
    case Printed => "printed"
  }

  function PaperTypeLabel(t: PaperType): string {
    match t
    case Exam => "exam"
    case Assessment => "assessment"
  }

  /** Reading a status string: exactly the eight labels are statuses, each naming one
      constructor; every other string is refused. */
  function ParseStatus(s: string): (r: Option<PaperStatus>)
    ensures forall st :: r == Some(st) <==> StatusLabel(st) == s
  {
    if s == "draft" then Some(Draft)
    else if s == "pending_moderation" then Some(PendingModeration)
    else if s == "moderated" then Some(Moderated)
    else if s == "revision_required" then Some(RevisionRequired)
    else if s == "pending_approval" then Some(PendingApproval)
    else if s == "approved" then Some(Approved)
    else if s == "rejected" then Some(Rejected)
    else if s == "printed" then Some(Printed)
    else None
  }

  /** Reading a role string: exactly the three role labels are roles. */
  function ParseRole(s: string): (r: Option<UserRole>)
    ensures forall role :: r == Some(role) <==> RoleLabel(role) == s
  {
    if s == "lecturer" then Some(Lecturer)
    else if s == "examiner" then Some(Examiner)
    else if s == "hod" then Some(Hod)
    else None
  }

  /** Reading a paper-type string: exactly "exam" and "assessment" are paper types. */
  function ParsePaperType(s: string): (r: Option<PaperType>)
    ensures forall t :: r == Some(t) <==> PaperTypeLabel(t) == s
  {
    if s == "exam" then Some(Exam)
    else if s == "assessment" then Some(Assessment)
    else None
  }

  ghost predicate Distinct<T>(s: seq<T>) {
    forall i, j :: 0 <= i < j < |s| ==> s[i] != s[j]
  }

  const ALL_STATUSES: seq<PaperStatus> :=
    [Draft, PendingModeration, Moderated, RevisionRequired, PendingApproval, Approved, Rejected, Printed]
  const ALL_ROLES: seq<UserRole> := [Lecturer, Examiner, Hod]
  const ALL_PAPER_TYPES: seq<PaperType> := [Exam, Assessment]

  const DEPARTMENTS: seq<Department> := [ComputerScience, PhysicalScience]
  const YEARS: seq<Year> := [FirstYear, SecondYear, ThirdYear]
  const SEMESTERS: seq<Semester> := [FirstSemester, SecondSemester]

  /** The status type has exactly eight values with eight distinct labels. */
  lemma StatusIsClosedEnum()
    ensures |ALL_STATUSES| == 8 && Distinct(ALL_STATUSES)
    ensures forall st: PaperStatus :: st in ALL_STATUSES
    ensures Distinct(Map(ALL_STATUSES, StatusLabel))
  {
    forall st: PaperStatus ensures st in ALL_STATUSES {
      match st
      case Draft => assert ALL_STATUSES[0] == st;
      case PendingModeration => assert ALL_STATUSES[1] == st;
      case Moderated => assert ALL_STATUSES[2] == st;
      case RevisionRequired => assert ALL_STATUSES[3] == st;
      case PendingApproval => assert ALL_STATUSES[4] == st;
      case Approved => assert ALL_STATUSES[5] == st;
      case Rejected => assert ALL_STATUSES[6] == st;
      case Printed => assert ALL_STATUSES[7] == st;
    }
  }

  /** Three roles and two paper types, each with a distinct label. */
  lemma RoleAndPaperTypeAreClosed()
    ensures |ALL_ROLES| == 3 && Distinct(ALL_ROLES) && forall r: UserRole :: r in ALL_ROLES
    ensures Distinct(Map(ALL_ROLES, RoleLabel))
    ensures |ALL_PAPER_TYPES| == 2 && Distinct(ALL_PAPER_TYPES) && forall t: PaperType :: t in ALL_PAPER_TYPES
    ensures Distinct(Map(ALL_PAPER_TYPES, PaperTypeLabel))
  {
    forall r: UserRole ensures r in ALL_ROLES {
      match r
      case Lecturer => assert ALL_ROLES[0] == r;
      case Examiner => assert ALL_ROLES[1] == r;
      case Hod => assert ALL_ROLES[2] == r;
    }
    forall t: PaperType ensures t in ALL_PAPER_TYPES {
      match t
      case Exam => assert ALL_PAPER_TYPES[0] == t;
      case Assessment => assert ALL_PAPER_TYPES[1] == t;
    }
  }

  /** `YEARS`, `SEMESTERS` and `DEPARTMENTS` list every value of their type exactly once. */
  lemma TablesListEveryValueOnce()
    ensures Distinct(YEARS) && forall y: Year :: y in YEARS
    ensures Distinct(SEMESTERS) && forall s: Semester :: s in SEMESTERS
    ensures Distinct(DEPARTMENTS) && forall d: Department :: d in DEPARTMENTS
  {
    forall y: Year ensures y in YEARS {
      match y
      case FirstYear => assert YEARS[0] == y;
      case SecondYear => assert YEARS[1] == y;
      case ThirdYear => assert YEARS[2] == y;
    }
    forall s: Semester ensures s in SEMESTERS {
      match s
      case FirstSemester => assert SEMESTERS[0] == s;
      case SecondSemester => assert SEMESTERS[1] == s;
    }
    forall d: Department ensures d in DEPARTMENTS {
      match d
      case ComputerScience => assert DEPARTMENTS[0] == d;
      case PhysicalScience => assert DEPARTMENTS[1] == d;
    }
  }

  /** The course catalogue the paper form offers, in the source's order and grouping. */
  const COURSES: seq<Course> :=
    CS_YEAR1_SEM1 + CS_YEAR1_SEM2 + CS_YEAR2_SEM1 + CS_YEAR2_SEM2 + CS_YEAR3_SEM1
    + PS_YEAR1 + PS_YEAR2 + PS_YEAR3

  // Computer Science, 1st Year, 1st Semester
  const CS_YEAR1_SEM1: seq<Course> := [
    Course("CO1121", "Basic Mathematics for Computing", ComputerScience, FirstYear, FirstSemester),
    Course("CO1122", "Basic Computer Programming", ComputerScience, FirstYear, FirstSemester),
    Course("CO1112", "Practical work on CO1122", ComputerScience, FirstYear, FirstSemester),
    Course("CO1123", "Formal Methods for Problem Solving", ComputerScience, FirstYear, FirstSemester),
    Course("CO1124", "Computer Systems & PC Applications", ComputerScience, FirstYear, FirstSemester),
    Course("CO1114", "Practical work on CO1124", ComputerScience, FirstYear, FirstSemester),
    Course("CO1125", "Statistics for Science and Technology", ComputerScience, FirstYear, FirstSemester),
    Course("CO1115", "Practical work on CO1125", ComputerScience, FirstYear, FirstSemester),
    Course("CO1126", "Management Information System", ComputerScience, FirstYear, FirstSemester),
    Course("GEP - I", "General English Proficiency - I", ComputerScience, FirstYear, FirstSemester)]

  // Computer Science, 1st Year, 2nd Semester
  const CS_YEAR1_SEM2: seq<Course> := [
    Course("CO1221", "Systems Analysis & Design", ComputerScience, FirstYear, SecondSemester),
    Course("CO1222", "Data Structures & Algorithms", ComputerScience, FirstYear, SecondSemester),
    Course("CO1212", "Practical work on CO1222", ComputerScience, FirstYear, SecondSemester),
    Course("CO1223", "Data Base Management Systems", ComputerScience, FirstYear, SecondSemester),
    Course("CO1213", "Practical work on CO1223", ComputerScience, FirstYear, SecondSemester),
    Course("CO1224", "MultiMedia & HyperMedia Development", ComputerScience, FirstYear, SecondSemester),
    Course("CO1214", "Practical work on CO1224", ComputerScience, FirstYear, SecondSemester),
    Course("CO1225", "Computer Architecture", ComputerScience, FirstYear, SecondSemester),
    Course("CO1226", "Social Harmony", ComputerScience, FirstYear, SecondSemester)]

  // Computer Science, 2nd Year, 1st Semester
  const CS_YEAR2_SEM1: seq<Course> := [
    Course("CO2121", "Advanced Mathematics for Computing", ComputerScience, SecondYear, FirstSemester),
    Course("CO2122", "Operating Systems", ComputerScience, SecondYear, FirstSemester),
    Course("CO2112", "Practical work on CO2122", ComputerScience, SecondYear, FirstSemester),
    Course("CO2123", "Software Engineering", ComputerScience, SecondYear, FirstSemester),
    Course("CO2124", "Internet and Web Design", ComputerScience, SecondYear, FirstSemester),
    Course("CO2114", "Practical work on CO2124", ComputerScience, SecondYear, FirstSemester),
    Course("CO2125", "Object Oriented Programming", ComputerScience, SecondYear, FirstSemester),
    Course("CO2115", "Practical work on CO2125", ComputerScience, SecondYear, FirstSemester),
    Course("CO2126", "Sri Lankan Studies", ComputerScience, SecondYear, FirstSemester),
    Course("GEP - III", "General English Proficiency - III", ComputerScience, SecondYear, FirstSemester)]

  // Computer Science, 2nd Year, 2nd Semester
  const CS_YEAR2_SEM2: seq<Course> := [
    Course("CO2221", "Data Communication Systems", ComputerScience, SecondYear, SecondSemester),
    Course("CO2222", "Visual System Development Tools", ComputerScience, SecondYear, SecondSemester),
    Course("CO22212", "Practical work on CO2222", ComputerScience, SecondYear, SecondSemester),
    Course("CO2223", "Computer Graphics", ComputerScience, SecondYear, SecondSemester),
    Course("CO2213", "Practical work on CO2223", ComputerScience, SecondYear, SecondSemester),
    Course("CO2224", "Human Computer Interaction", ComputerScience, SecondYear, SecondSemester),
    Course("CO2214", "Practical work on CO2224", ComputerScience, SecondYear, SecondSemester),
    Course("CO2225", "Software Management Techniques", ComputerScience, SecondYear, SecondSemester),
    Course("CO2226", "Automata Theory", ComputerScience, SecondYear, SecondSemester)]

  // Computer Science, 3rd Year, 1st Semester
  const CS_YEAR3_SEM1: seq<Course> := [
    Course("CS3121", "Logic Programming & Expert Systems", ComputerScience, ThirdYear, FirstSemester),
    Course("CS3111", "Practical work on CS3121", ComputerScience, ThirdYear, FirstSemester),
    Course("CS3122", "Advanced Database Management Systems", ComputerScience, ThirdYear, FirstSemester),
    Course("CS3112", "Practical work on CS3122", ComputerScience, ThirdYear, FirstSemester),
    Course("CS3123", "Systems & Network Administration", ComputerScience, ThirdYear, FirstSemester),
    Course("CS3113", "Practical work on CS3123", ComputerScience, ThirdYear, FirstSemester),
    Course("CS3124", "Data Security", ComputerScience, ThirdYear, FirstSemester),
    Course("CS3114", "Practical work on CS3124", ComputerScience, ThirdYear, FirstSemester),
    Course("CS3135", "Theory of Computing", ComputerScience, ThirdYear, FirstSemester),
    Course("EC3101", "Foundations of Management", ComputerScience, ThirdYear, FirstSemester)]

  // Physical Science, 1st Year
  const PS_YEAR1: seq<Course> := [
    Course("PS1121", "Classical Mechanics", PhysicalScience, FirstYear, FirstSemester),
    Course("PS1122", "General Chemistry", PhysicalScience, FirstYear, FirstSemester),
    Course("PS1221", "Thermodynamics", PhysicalScience, FirstYear, SecondSemester)]

  // Physical Science, 2nd Year
  const PS_YEAR2: seq<Course> := [
    Course("PS2121", "Electromagnetism", PhysicalScience, SecondYear, FirstSemester),
    Course("PS2122", "Organic Chemistry", PhysicalScience, SecondYear, FirstSemester),
    Course("PS2221", "Quantum Mechanics", PhysicalScience, SecondYear, SecondSemester)]

  // Physical Science, 3rd Year
  const PS_YEAR3: seq<Course> := [
    Course("PS3121", "Statistical Mechanics", PhysicalScience, ThirdYear, FirstSemester),
    Course("PS3122", "Physical Chemistry", PhysicalScience, ThirdYear, FirstSemester),
    Course("PS3221", "Nuclear Physics", PhysicalScience, ThirdYear, SecondSemester)]

  /** Some catalogue course is taught in the department, year and semester. */
  ghost predicate HasCourse(d: Department, y: Year, s: Semester) {
    exists c :: c in COURSES && c.department == d && c.year == y && c.semester == s
  }

  /** Every course of a table is taught in the table's slot. */
  ghost predicate AllInSlot(t: seq<Course>, d: Department, y: Year, s: Semester) {
    forall i :: 0 <= i < |t| ==> t[i].department == d && t[i].year == y && t[i].semester == s
  }

  lemma ComputingTablesAreGroupedBySlot()
    ensures AllInSlot(CS_YEAR1_SEM1, ComputerScience, FirstYear, FirstSemester)
    ensures AllInSlot(CS_YEAR1_SEM2, ComputerScience, FirstYear, SecondSemester)
    ensures AllInSlot(CS_YEAR2_SEM1, ComputerScience, SecondYear, FirstSemester)
    ensures AllInSlot(CS_YEAR2_SEM2, ComputerScience, SecondYear, SecondSemester)
    ensures AllInSlot(CS_YEAR3_SEM1, ComputerScience, ThirdYear, FirstSemester)
  {
  }

  lemma PhysicalTablesAreGroupedByYear()
    ensures forall i :: 0 <= i < |PS_YEAR1| ==> PS_YEAR1[i].department == PhysicalScience
    ensures forall i :: 0 <= i < |PS_YEAR2| ==> PS_YEAR2[i].department == PhysicalScience
    ensures forall i :: 0 <= i < |PS_YEAR3| ==> PS_YEAR3[i].department == PhysicalScience
  {
  }

  lemma InSlotTable(t: seq<Course>, d: Department, y: Year, s: Semester, c: Course)
    requires AllInSlot(t, d, y, s) && c in t
    ensures c.department == d && c.year == y && c.semester == s
  {
    var i :| 0 <= i < |t| && t[i] == c;
  }

  lemma InDepartmentTable(t: seq<Course>, c: Course)
    requires forall i :: 0 <= i < |t| ==> t[i].department == PhysicalScience
    requires c in t
    ensures c.department == PhysicalScience
  {
    var i :| 0 <= i < |t| && t[i] == c;
  }

  /** No catalogue course is a Computer Science course of the 3rd year's 2nd semester. */
  lemma NoThirdYearSecondSemesterComputing(c: Course)
    requires c in COURSES
    ensures !(c.department == ComputerScience && c.year == ThirdYear && c.semester == SecondSemester)
  {
    ComputingTablesAreGroupedBySlot();
    PhysicalTablesAreGroupedByYear();
    if c in CS_YEAR1_SEM1 { InSlotTable(CS_YEAR1_SEM1, ComputerScience, FirstYear, FirstSemester, c); }
    else if c in CS_YEAR1_SEM2 { InSlotTable(CS_YEAR1_SEM2, ComputerScience, FirstYear, SecondSemester, c); }
    else if c in CS_YEAR2_SEM1 { InSlotTable(CS_YEAR2_SEM1, ComputerScience, SecondYear, FirstSemester, c); }
    else if c in CS_YEAR2_SEM2 { InSlotTable(CS_YEAR2_SEM2, ComputerScience, SecondYear, SecondSemester, c); }
    else if c in CS_YEAR3_SEM1 { InSlotTable(CS_YEAR3_SEM1, ComputerScience, ThirdYear, FirstSemester, c); }
    else if c in PS_YEAR1 { InDepartmentTable(PS_YEAR1, c); }
    else if c in PS_YEAR2 { InDepartmentTable(PS_YEAR2, c); }
    else { InDepartmentTable(PS_YEAR3, c); }
  }

  /** Every slot but Computer Science's 3rd year, 2nd semester has a course. */
  lemma SlotHasCourse(d: Department, y: Year, s: Semester) returns (c: Course)
    requires !(d == ComputerScience && y == ThirdYear && s == SecondSemester)
    ensures c in COURSES && c.department == d && c.year == y && c.semester == s
  {
    c := match (d, y, s)
      case (ComputerScience, FirstYear, FirstSemester) => CS_YEAR1_SEM1[0]
      case (ComputerScience, FirstYear, SecondSemester) => CS_YEAR1_SEM2[0]
      case (ComputerScience, SecondYear, FirstSemester) => CS_YEAR2_SEM1[0]
      case (ComputerScience, SecondYear, SecondSemester) => CS_YEAR2_SEM2[0]
      case (ComputerScience, ThirdYear, _) => CS_YEAR3_SEM1[0]
      case (PhysicalScience, FirstYear, FirstSemester) => PS_YEAR1[0]
      case (PhysicalScience, FirstYear, SecondSemester) => PS_YEAR1[2]
      case (PhysicalScience, SecondYear, FirstSemester) => PS_YEAR2[0]
      case (PhysicalScience, SecondYear, SecondSemester) => PS_YEAR2[2]
      case (PhysicalScience, ThirdYear, FirstSemester) => PS_YEAR3[0]
      case (PhysicalScience, ThirdYear, SecondSemester) => PS_YEAR3[2];
    assert c in COURSES;
  }

  /** The catalogue covers every (department, year, semester) slot but one: Computer
      Science has no course in the 2nd semester of the 3rd year. */
  lemma CatalogueSlots()
    ensures forall d, y, s :: HasCourse(d, y, s) <==> !(d == ComputerScience && y == ThirdYear && s == SecondSemester)
  {
    forall c | c in COURSES {
      NoThirdYearSecondSemesterComputing(c);
    }
    forall d, y, s | !(d == ComputerScience && y == ThirdYear && s == SecondSemester)
      ensures HasCourse(d, y, s)
    {
      var c := SlotHasCourse(d, y, s);
      assert c in COURSES && c.department == d && c.year == y && c.semester == s;
    }
  }
}

=== FILE: upload_middleware.dfy ===
/** The per-field upload middleware (backend/src/middleware/upload.js): PDFs in
    `paperFile`, PNG or JPEG images in `signatureFile`, each kept under a timestamped
    random name that keeps the original file's extension. */
module UploadMiddleware {
  import opened Common
  import opened Text
  import opened Uploads

  /** The storage's `destination` callback. */
  function Destination(field: string): (r: Result<string, string>)
    ensures r == Ok("uploads/papers") <==> field == "paperFile"
    ensures r == Ok("uploads/signatures") <==> field == "signatureFile"
    ensures r.Err? <==> field != "paperFile" && field != "signatureFile"
    ensures r.Err? ==> r.error == "Invalid file field"
  {
    if field == "paperFile" then Ok("uploads/papers")
    else if field == "signatureFile" then Ok("uploads/signatures")
    else Err("Invalid file field")
  }

  /** The `fileFilter`: the MIME type must suit the field. */
  function FileFilter(field: string, mimeType: string): (r: Result<(), string>)
    ensures field == "paperFile" ==> (r.Ok? <==> mimeType == "application/pdf")
    ensures field == "signatureFile" ==> (r.Ok? <==> mimeType == "image/png" || mimeType == "image/jpeg")
    ensures field != "paperFile" && field != "signatureFile" ==> r.Err?
    ensures r.Err? ==> r.error == "Invalid file type"
  {
    if field == "paperFile" && mimeType == "application/pdf" then Ok(())
    else if field == "signatureFile" && (mimeType == "image/png" || mimeType == "image/jpeg") then Ok(())
    else Err("Invalid file type")
  }

  /** A file the filter lets through always has a directory. */
  lemma FilteredFilesHaveADestination(field: string, mimeType: string)
    requires FileFilter(field, mimeType).Ok?
    ensures Destination(field).Ok?
  {
  }

  /** Where `s[..n]` ends once its trailing slashes are dropped. */
  function TrimmedEnd(s: string, n: nat): (r: nat)
    requires n <= |s|
    ensures r <= n
    ensures forall k :: r <= k < n ==> s[k] == '/'
    ensures r > 0 ==> s[r - 1] != '/'
  {
    if n > 0 && s[n - 1] == '/' then TrimmedEnd(s, n - 1) else n
  }

  /** Where the last component of `s[..n]` starts: just after its last slash. */
  function ComponentStart(s: string, n: nat): (r: nat)
    requires n <= |s|
    ensures r <= n
    ensures forall k :: r <= k < n ==> s[k] != '/'
    ensures r > 0 ==> s[r - 1] == '/'
  {
    if n > 0 && s[n - 1] != '/' then ComponentStart(s, n - 1) else n
  }

  /** The position of the last dot in `c`. */
  function LastDot(c: string): (r: Option<nat>)
    ensures r.Some? ==> r.value < |c| && c[r.value] == '.'
    ensures r.Some? ==> forall k :: r.value < k < |c| ==> c[k] != '.'
    ensures r.None? ==> forall k :: 0 <= k < |c| ==> c[k] != '.'
  {
    if |c| == 0 then None
    else if c[|c| - 1] == '.' then Some(|c| - 1)
    else LastDot(c[..|c| - 1])
  }

  /** The extension of a file name: from its last dot to the end, except that a name
      whose only dot is its first character (`.env`) and the name `..` have none. */
  function ExtOf(c: string): (r: string)
    ensures r == "" || (EndsWith(c, r) && r[0] == '.')
    ensures forall k :: 0 < k < |r| ==> r[k] != '.'
  {
    match LastDot(c)
    case None => ""
    case Some(d) => if d == 0 || c == ".." then "" else c[d..]
  }

  /** What Node's `path.posix.extname` means: the extension of the last component of
      the path, trailing slashes ignored. */
  function PathExt(p: string): string {
    var end := TrimmedEnd(p, |p|);
    ExtOf(p[ComponentStart(p, end)..end])
  }

  /** The position `LastDot` reports, scanning `s[lo..hi]`, as an index into `s`
      (-1 for none). */
  function DotIn(s: string, lo: int, hi: int): int
    requires 0 <= lo <= hi <= |s|
  {
    match LastDot(s[lo..hi])
    case None => -1
    case Some(d) => lo + d
  }

  /** The last dot of `s[i..hi]`, as the scan from the right finds it (-1 for none). */
  ghost function DotFrom(s: string, i: int, hi: int): (r: int)
    requires 0 <= i <= hi <= |s|
    ensures r == -1 || i <= r < hi
    decreases hi - i
  {
    if i == hi then -1
    else if DotFrom(s, i + 1, hi) != -1 then DotFrom(s, i + 1, hi)
    else if s[i] == '.' then i
    else -1
  }

  /** The scan finds the dot `LastDot` names. */
  lemma {:induction false} DotFromIsLastDot(s: string, i: int, hi: int)
    requires 0 <= i <= hi <= |s|
    ensures DotFrom(s, i, hi) == DotIn(s, i, hi)
    decreases hi - i
  {
    if i < hi {
      DotFromIsLastDot(s, i + 1, hi);
      var t := s[i + 1..hi];
      var c := s[i..hi];
      assert c[1..] == t;
      var d := LastDot(c);
      var e := LastDot(t);
      if e.Some? {
        assert c[e.value + 1] == '.';
      }
    }
  }

  /** The loop of Node's `path.posix.extname`, scanning from the right: it skips the
      trailing slashes `path[n..]`, records the end `n` of the last component, the last
      dot in it, and what precedes that dot, and stops at the slash before the component
      `path[lo..n]`. */
  method ScanFromRight(path: string, ghost n: int, ghost lo: int)
    returns (startDot: int, startPart: int, end: int, preDotState: int)
    requires 0 <= lo <= n <= |path|
    requires forall k :: n <= k < |path| ==> path[k] == '/'
    requires n > 0 ==> path[n - 1] != '/'
    requires forall k :: lo <= k < n ==> path[k] != '/'
    requires lo > 0 ==> path[lo - 1] == '/'
    ensures n == 0 ==> end == -1 && startDot == -1
    ensures n > 0 ==> end == n && startPart == lo && startDot == DotFrom(path, lo, n)
    ensures n > 0 && startDot != -1 ==>
              preDotState == (if startDot == lo then 0 else if path[lo] == '.' then 1 else -1)
  {
    startDot := -1;
    startPart := 0;
    end := -1;
    var matchedSlash := true;
    preDotState := 0;
    var i := |path| - 1;
    while i >= 0
      invariant -1 <= i < |path|
      invariant i + 1 >= n ==> end == -1 && matchedSlash && startDot == -1 && preDotState == 0
      invariant i + 1 < n ==> end == n && !matchedSlash && lo <= i + 1
      invariant i + 1 < n ==> startDot == DotFrom(path, i + 1, n)
      invariant i + 1 < n && startDot != -1 ==>
                  preDotState == (if startDot == i + 1 then 0 else if path[i + 1] == '.' then 1 else -1)
      invariant i + 1 < n && startDot == -1 ==> preDotState == 0
      invariant startPart == 0
    {
      var code := path[i];
      if code == '/' {
        if !matchedSlash {
          startPart := i + 1;
          break;
        }
        i := i - 1;
        continue;
      }
      if end == -1 {
        matchedSlash := false;
        end := i + 1;
      }
      if code == '.' {
        if startDot == -1 {
          startDot := i;
        } else if preDotState != 1 {
          preDotState := 1;
        }
      } else if startDot != -1 {
        preDotState := -1;
      }
      i := i - 1;
    }
  }

  /** The decision at the end of the scan, read on the component alone. */
  lemma ExtOfScan(c: string, d: int, state: int)
    requires d == (match LastDot(c) case None => -1 case Some(x) => x)
    requires d != -1 ==> state == (if d == 0 then 0 else if c[0] == '.' then 1 else -1)
    ensures ExtOf(c) == (if d == -1 || state == 0 || (state == 1 && d == |c| - 1 && d == 1) then "" else c[d..])
  {
    if d != -1 && d == 1 && d == |c| - 1 && c[0] == '.' {
      assert c == "..";
    }
  }

  /** What the scan found, read back as the extension of the component `path[lo..n]`. */
  lemma ScanFindsExtOf(path: string, n: int, lo: int, startDot: int, startPart: int, end: int, preDotState: int)
    requires 0 <= lo <= n <= |path|
    requires n == 0 ==> end == -1 && startDot == -1
    requires n > 0 ==> end == n && startPart == lo && startDot == DotFrom(path, lo, n)
    requires n > 0 && startDot != -1 ==>
               preDotState == (if startDot == lo then 0 else if path[lo] == '.' then 1 else -1)
    ensures ExtOf(path[lo..n]) ==
              if startDot == -1 || end == -1 || preDotState == 0
                 || (preDotState == 1 && startDot == end - 1 && startDot == startPart + 1)
              then "" else path[startDot..end]
  {
    var c := path[lo..n];
    if n > 0 {
      DotFromIsLastDot(path, lo, n);
      ExtOfScan(c, if startDot == -1 then -1 else startDot - lo, preDotState);
      if startDot != -1 {
        assert path[startDot..end] == c[startDot - lo..];
      }
    }
  }

  /** Node's `path.posix.extname`: the scan, then the decision on what it found. */
  method Extname(path: string) returns (ext: string)
    ensures ext == PathExt(path)
  {
    ghost var n := TrimmedEnd(path, |path|);
    ghost var lo := ComponentStart(path, n);
    var startDot, startPart, end, preDotState := ScanFromRight(path, n, lo);
    ScanFindsExtOf(path, n, lo, startDot, startPart, end, preDotState);
    if startDot == -1 || end == -1 || preDotState == 0
       || (preDotState == 1 && startDot == end - 1 && startDot == startPart + 1)
    {
      ext := "";
    } else {
      ext := path[startDot..end];
    }
  }

  /** The `filename` callback: `Date.now()`, a dash, the random suffix
      `Math.round(Math.random() * 1e9)`, then the original extension. */
  method Filename(now: nat, suffix: nat, originalName: string) returns (name: string)
    ensures name == NatToString(now) + "-" + NatToString(suffix) + PathExt(originalName)
    ensures EndsWith(name, PathExt(originalName))
  {
    var ext := Extname(originalName);
    name := NatToString(now) + "-" + NatToString(suffix) + ext;
  }

  /** A dot with no dot after it is the last dot. */
  lemma LastDotAt(c: string, j: nat)
    requires j < |c| && c[j] == '.'
    requires forall k :: j < k < |c| ==> c[k] != '.'
    ensures LastDot(c) == Some(j)
  {
  }

  /** The extension of a slash-free name is its `ExtOf`. */
  lemma PathExtOfSlashFree(s: string)
    requires forall k :: 0 <= k < |s| ==> s[k] != '/'
    ensures PathExt(s) == ExtOf(s)
  {
    if |s| > 0 {
      assert s[|s| - 1] != '/';
    }
    assert TrimmedEnd(s, |s|) == |s|;
    ComponentStartOfSlashFree(s, |s|);
    assert s[0..|s|] == s;
  }

  /** Where the slashes and dots of `stem.e` are. */
  lemma DottedNameCharacters(stem: string, e: string)
    requires forall k :: 0 <= k < |stem| ==> stem[k] != '/'
    requires forall k :: 0 <= k < |e| ==> e[k] != '.' && e[k] != '/'
    ensures var s := stem + "." + e;
            && s[|stem|] == '.'
            && (forall k :: 0 <= k < |s| ==> s[k] != '/')
            && (forall k :: |stem| < k < |s| ==> s[k] != '.')
  {
    var s := stem + "." + e;
    forall k | 0 <= k < |s| ensures s[k] != '/' && (k > |stem| ==> s[k] != '.') {
      if k < |stem| { assert s[k] == stem[k]; } else if k > |stem| { assert s[k] == e[k - |stem| - 1]; }
    }
  }

  /** A name with a stem and a dotted extension keeps that extension. */
  lemma ExtensionOfDottedName(stem: string, e: string)
    requires stem != "" && forall k :: 0 <= k < |stem| ==> stem[k] != '/'
    requires e != "" && forall k :: 0 <= k < |e| ==> e[k] != '.' && e[k] != '/'
    ensures PathExt(stem + "." + e) == "." + e
  {
    var s := stem + "." + e;
    DottedNameCharacters(stem, e);
    PathExtOfSlashFree(s);
    LastDotAt(s, |stem|);
    assert |s| >= 3;
    assert s[|stem|..] == "." + e;
  }

  lemma {:induction false} ComponentStartOfSlashFree(s: string, n: nat)
    requires n <= |s|
    requires forall k :: 0 <= k < n ==> s[k] != '/'
    ensures ComponentStart(s, n) == 0
    decreases n
  {
    if n > 0 {
      ComponentStartOfSlashFree(s, n - 1);
    }
  }
}

=== FILE: uploads.dfy ===
/** What the upload middlewares see of a multipart file part, and the
    `"{timestamp}-{name}"` shape both disk storages give the files they keep. */
module Uploads {
  import opened Common
  import opened Text

  /** A file part of a multipart request: its form field, the client's file name
      (already reduced to a base name by the multipart parser), its MIME type and its
      size in bytes. */
  datatype IncomingFile = IncomingFile(field: string, originalName: string, mimeType: string, size: nat)

  /** The parts multer treats as files: a part whose file name is empty is drained and
      skipped before any check, so only the named parts remain, in arrival order. */
  function NamedParts(files: seq<IncomingFile>): (r: seq<IncomingFile>)
    ensures |r| <= |files|
    ensures forall k :: 0 <= k < |r| ==> r[k].originalName != "" && r[k] in files
    ensures forall f :: f in files && f.originalName != "" ==> f in r
    decreases |files|
  {
    if |files| == 0 then []
    else if files[0].originalName == "" then NamedParts(files[1..])
    else [files[0]] + NamedParts(files[1..])
  }

  /** Skipping is idempotent: the named parts have nothing left to skip. */
  lemma {:induction false} NamedPartsIdempotent(files: seq<IncomingFile>)
    ensures NamedParts(NamedParts(files)) == NamedParts(files)
    decreases |files|
  {
    if |files| > 0 {
      NamedPartsIdempotent(files[1..]);
      var rest := NamedParts(files[1..]);
      if files[0].originalName != "" {
        assert ([files[0]] + rest)[1..] == rest;
      }
    }
  }

  /** `${Date.now()}-${name}` for a millisecond clock reading `now`. */
  function TimestampedName(now: nat, name: string): (r: string)
    ensures EndsWith(r, name)
    ensures |r| > |name|
  {
    NatToString(now) + "-" + name
  }

  /** The length of the run of decimal digits at the start of `s`. */
  function LeadingDigits(s: string): (n: nat)
    ensures n <= |s| && AllDigits(s[..n])
    ensures n < |s| ==> !IsDigit(s[n])
  {
    if |s| == 0 || !IsDigit(s[0]) then 0
    else
      var n := 1 + LeadingDigits(s[1..]);
      assert s[..n] == [s[0]] + s[1..][..n - 1];
      n
  }

  /** Reads a stored name back into its clock reading and its original name. */
  function ParseTimestamped(s: string): Option<(nat, string)> {
    var k := LeadingDigits(s);
    if k == 0 || k == |s| || s[k] != '-' then None
    else Some((ParseNat(s[..k]), s[k + 1..]))
  }

  lemma {:induction false} LeadingDigitsOfDigits(digits: string, rest: string)
    requires AllDigits(digits)
    requires |rest| > 0 ==> !IsDigit(rest[0])
    ensures LeadingDigits(digits + rest) == |digits|
    decreases |digits|
  {
    if |digits| > 0 {
      assert (digits + rest)[1..] == digits[1..] + rest;
      LeadingDigitsOfDigits(digits[1..], rest);
    } else {
      assert digits + rest == rest;
    }
  }

  /** The stored name keeps both the clock reading and the original name. */
  lemma TimestampedNameRoundTrip(now: nat, name: string)
    ensures ParseTimestamped(TimestampedName(now, name)) == Some((now, name))
  {
    var d := NatToString(now);
    var s := TimestampedName(now, name);
    assert s == d + ("-" + name);
    LeadingDigitsOfDigits(d, "-" + name);
    assert s[..|d|] == d;
    assert s[|d| + 1..] == name;
    ParseNatToString(now);
  }

  /** Hence two files kept under the same name were stored at the same millisecond
      under the same original name. */
  lemma TimestampedNameInjective(a: nat, x: string, b: nat, y: string)
    requires TimestampedName(a, x) == TimestampedName(b, y)
    ensures a == b && x == y
  {
    TimestampedNameRoundTrip(a, x);
    TimestampedNameRoundTrip(b, y);
  }
}
